=== FILE: README.md ===
# Travel-companion matching core in Dafny

This project models the logic core of a travel-companion web application:

- **the compatibility-matching engine** that pairs a traveller with other users heading to the same place at the same time, in two variants:
  - the *advanced* pipeline the application actually runs;
  - the older *simple* pipeline.
- **the pure reducers of the application context**: trip creation, re-running matches, status updates, the first greeting, messages, the review upsert and place requests.
- **the three in-memory stores**: reviews, chats and emergency (SOS) alerts.
- **the form validator** (`DataValidator`) and its sanitisers.

Everything is modelled as immutable values and pure functions:

- Each store is a state value. An operation takes the state and returns the next state together with its result.
- A thrown error becomes a `Result`; a `null` becomes an `Option`.

## Modules

- `Common` (common.dfy): `Option`/`Result` and sequence helpers (`filter`, `map`, `findIndex`, `new Set` order, `Math.round`).
- `Text` (text.dfy): JavaScript `trim`, `toLowerCase` (ASCII letters) and JavaScript truthiness of optional strings.
- `Types` (types.dfy): the shared records (users, profiles, trips, matches, groups, summaries).
- `Schedule` (schedule.dfy): calendar dates, `validateTripInput`, `hasDateOverlap` and `calculateDateOverlapScore`. The two pipeline files contain identical text for these, so one definition serves both.
- `MatchSort` (match_sort.dfy): the stable sort by descending score both pipelines use.
- `Interests` (interests.dfy): the Jaccard interest similarity both pipelines share.
- `CandidatePool` (candidate_pool.dfy): candidate selection, the destination/date filter, match ids and the summary average, shared by both pipelines.
- `AdvancedMatching` (advanced.dfy): `advancedMatchingAlgorithm.ts`.
- `SimpleMatching` (simple.dfy): `matchingAlgorithm.ts`.
- `AppContext` (app_state.dfy): the reducers of `AppContext.tsx`.
- `ReviewStore`, `ChatStore`, `EmergencySOS` (reviews.dfy, chat.dfy, emergency.dfy): the three managers.
- `Validation` (validation.dfy): `DataValidator`.

## Conventions

- **Dates.** A date string is `NoDate` (the empty string), `BadDate` (non-empty but unparseable: an Invalid Date) or `OnDay(day)` with an integer day number.
  - Every comparison with an Invalid Date is false, and every difference with one is NaN. The model keeps both rules, so a trip with unparseable dates passes the overlap filter exactly as in the source.
  - A NaN schedule score makes the overall score NaN. That match is rejected by the status thresholds; the model writes this as a `None` score.
- **Numbers.** Scores are `real`. `Math.round(x)` is `Floor(x + 1/2)`. Ratings, ages and group sizes are integers.
- **Clock and ids.** The clock and id stamps are parameters (`now`, `stamp`).
- **Emergency invariant.** The emergency store keeps the alert history plus, for each active alert id, its position in the history. This is how the source shares one alert object between its history and its active map. `Wf` is the invariant that ties the two together. It holds for the empty store and every operation preserves it, so operations may assume it.
- **Chat preview.** A chat's last-message preview is either `Live(i)`, the message in slot `i` of the list, or `Stale(i, m)`, the original `m` of a message soft-deleted from slot `i`.
  - `Live(i)` means edits, read receipts and reactions on that message show in the preview, as they do through the shared object in the source.
  - `Stale(i, m)` keeps the original's text and reactions but takes its readers from slot `i`: the source's placeholder is a shallow copy that shares the original's `readBy` array, and `markAsRead` grows that array in place.

## Model

| member | source | states |
|---|---|---|
| Schedule.DaysBetween | src/utils/advancedMatchingAlgorithm.ts:43 | the calendar-day difference exists exactly when both dates parse, and then adding it to the earlier day gives the later one |
| Schedule.ValidateTripInput | src/utils/advancedMatchingAlgorithm.ts:24-48 | missing dates give the optional destination error then the dates error and nothing else; otherwise each problem (blank destination, start after end, span over 30 days) is reported exactly when it holds, once each; the list is empty exactly when the trip is acceptable |
| Schedule.TripErrorsInPushOrder | src/utils/advancedMatchingAlgorithm.ts:24-48 | the errors always appear in the order the checks push them: destination, dates, ordering, length, so a destination error comes first |
| Schedule.WellFormedTripAccepted | src/utils/advancedMatchingAlgorithm.ts:36-47 | a destination with parsed dates start <= end <= start + 30 gives no error |
| Schedule.ReversedTripRejected | src/utils/advancedMatchingAlgorithm.ts:39-41 | a start after the end is always reported |
| Schedule.UnparseableDatesAccepted | src/utils/advancedMatchingAlgorithm.ts:36-45 | non-empty but unparseable dates raise no error, since Invalid Date comparisons are false and the difference is NaN |
| Schedule.OverlapSymmetric | src/utils/advancedMatchingAlgorithm.ts:52-64 | the overlap test does not depend on which trip is first |
| Schedule.OverlapIffCommonDay | src/utils/advancedMatchingAlgorithm.ts:52-64 | on parsed dates, two intervals overlap exactly when they share a calendar day |
| Schedule.NoOverlapIffSeparated | src/utils/advancedMatchingAlgorithm.ts:52-64 | on parsed dates, the intervals do not overlap exactly when one ends strictly before the other starts |
| Schedule.NestedIntervalsOverlap | src/utils/advancedMatchingAlgorithm.ts:52-64 | an interval overlaps itself and every interval nested inside it |
| Schedule.InvalidDateOverlaps | src/utils/advancedMatchingAlgorithm.ts:58-63 | a trip whose dates are missing or unparseable passes the overlap filter against any interval |
| Schedule.DateOverlapScore | src/utils/advancedMatchingAlgorithm.ts:66-88 | four parsed dates always give a number, and any score lies in [0, 1] |
| Schedule.OverlapScoreMatchesFilter | src/utils/advancedMatchingAlgorithm.ts:66-88 | on well-formed intervals the ratio is 0 when they do not overlap and lies in (0, 1] when they do |
| Schedule.OverlapScoreIdentical | src/utils/advancedMatchingAlgorithm.ts:82-87 | a well-formed interval scores exactly 1 against itself |
| Schedule.OverlapScoreSymmetric | src/utils/advancedMatchingAlgorithm.ts:77-87 | on parsed dates the ratio is the same whichever trip comes first |
| MatchSort.SortByScore | src/utils/advancedMatchingAlgorithm.ts:322 | sorting keeps the number of matches |
| MatchSort.SortSorted | src/utils/advancedMatchingAlgorithm.ts:322 | the result is ordered by descending score |
| MatchSort.SortPermutes | src/utils/advancedMatchingAlgorithm.ts:322 | the result is a permutation of the input (same multiset) |
| MatchSort.SortIsStable | src/utils/advancedMatchingAlgorithm.ts:322 | matches with equal scores keep their relative input order, as the stable `Array.prototype.sort` does |
| MatchSort.SortMembers | src/utils/advancedMatchingAlgorithm.ts:322 | sorting neither adds nor loses a match |
| Interests.InterestSet | src/utils/advancedMatchingAlgorithm.ts:107-108 | no normalised interest is listed twice |
| Interests.InterestSetKeys | src/utils/advancedMatchingAlgorithm.ts:107-108 | the set holds exactly the normalised interests of the user |
| Interests.JaccardIndex | src/utils/advancedMatchingAlgorithm.ts:102-119 | the score is the size of the intersection of the two normalised interest sets over the size of their union, or 0 when both are empty; the union size is reported as total |
| Interests.CommonInterestsShared | src/utils/advancedMatchingAlgorithm.ts:110-116 | each listed common interest, before capitalisation, is an interest of both users |
| Interests.InterestSymmetric | src/utils/advancedMatchingAlgorithm.ts:102-112 | the interest score does not depend on which user asks |
| Interests.InterestScoreUnit | src/utils/advancedMatchingAlgorithm.ts:112 | the interest score lies in [0, 1] |
| Interests.SameInterestsScoreOne | src/utils/advancedMatchingAlgorithm.ts:107-112 | interest lists with the same normalised keys (differing only in case or surrounding white space) score 1, except that two users with no interests score 0, as the empty union gives 0 |
| Interests.DisjointInterestsScoreZero | src/utils/advancedMatchingAlgorithm.ts:110-112 | users with no normalised interest in common score 0 |
| CandidatePool.FindTrip | src/utils/advancedMatchingAlgorithm.ts:282 | a found trip belongs to the user, and there is none exactly when the user has no trip |
| CandidatePool.FindTripIsFirst | src/utils/advancedMatchingAlgorithm.ts:282 | the found trip is the user's first one in the list |
| CandidatePool.Candidates | src/utils/advancedMatchingAlgorithm.ts:278-284 | each candidate is a listed user other than the requester, paired with that user's first trip, and there are no more candidates than users |
| CandidatePool.CandidatesComplete | src/utils/advancedMatchingAlgorithm.ts:278-284 | every listed user other than the requester who has a trip is a candidate, paired with their first trip |
| CandidatePool.EligibleCandidatesMembers | src/utils/advancedMatchingAlgorithm.ts:278-290 | an entry passes both filters exactly when it is another user with their first trip, to the same normalised destination on overlapping dates |
| CandidatePool.EligibleNoMore | src/utils/advancedMatchingAlgorithm.ts:286-290 | filtering never adds candidates |
| CandidatePool.MatchIdInjective | src/utils/advancedMatchingAlgorithm.ts:300 | within one trip, distinct users get distinct match ids |
| CandidatePool.AverageScoreBounded | src/utils/advancedMatchingAlgorithm.ts:332 | the rounded mean of scores in [0, 100] lies in [0, 100] |
| CandidatePool.AverageAtLeast | src/utils/advancedMatchingAlgorithm.ts:332 | when every score is at least a bound, so is the rounded mean |
| AdvancedMatching.BudgetCompatibility | src/utils/advancedMatchingAlgorithm.ts:90-100 | the score is 1.0 exactly for equal budgets, 0.7 exactly one step apart, 0.3 exactly for opposite budgets, and lies in [0, 1] |
| AdvancedMatching.BudgetSymmetric | src/utils/advancedMatchingAlgorithm.ts:90-100 | the budget score does not depend on the order of the two budgets |
| AdvancedMatching.PersonalityCompatibility | src/utils/advancedMatchingAlgorithm.ts:121-137 | an unset personality gives 0.5; with both set the score is 1.0 exactly for equal personalities; 0.4 exactly for an extrovert with an introvert, and below 0.5 only then; always within [0.4, 1] |
| AdvancedMatching.PersonalitySymmetric | src/utils/advancedMatchingAlgorithm.ts:130-134 | the personality matrix is symmetric |
| AdvancedMatching.LocationProximity | src/utils/advancedMatchingAlgorithm.ts:139-157 | the tier is Same City exactly for equal normalised cities, Nearby exactly for different cities with identical raw home countries, and its score is the tier's 1.0, 0.7 or 0.3 |
| AdvancedMatching.LocationSymmetric | src/utils/advancedMatchingAlgorithm.ts:139-157 | the location tier does not depend on which user asks |
| AdvancedMatching.TravelStyleMatch | src/utils/advancedMatchingAlgorithm.ts:159-161 | the score is 1.0 exactly for equal travel styles and 0.5 exactly for different ones |
| AdvancedMatching.VerificationBonus | src/utils/advancedMatchingAlgorithm.ts:163-167 | the bonus is 1 exactly for verified, 0.5 exactly for pending and 0 exactly for unverified, and lies in [0, 1] |
| AdvancedMatching.ExperienceBonus | src/utils/advancedMatchingAlgorithm.ts:169-174 | any rating of at most 5 keeps the bonus at most 1; with a non-negative trip count and a rating in [0, 5] it lies in [0, 1], and ten or more trips with a 5.0 rating give exactly 1 |
| AdvancedMatching.ExperienceMonotone | src/utils/advancedMatchingAlgorithm.ts:171 | more completed trips never lower the experience bonus |
| AdvancedMatching.WeightedSumBounded | src/utils/advancedMatchingAlgorithm.ts:202-206 | the eight weights sum to 1, so unit components give a rounded percentage that is an integer in [0, 100] |
| AdvancedMatching.PerfectComponentsScoreHundred | src/utils/advancedMatchingAlgorithm.ts:202-206 | all components at 1 give exactly 100 |
| AdvancedMatching.ScoreComponents | src/utils/advancedMatchingAlgorithm.ts:182-200 | the components are missing (NaN) exactly when the schedule score is |
| AdvancedMatching.ComponentsBounded | src/utils/advancedMatchingAlgorithm.ts:90-174 | every component lies in [0, 1] when the candidate's trip count is non-negative and rating is in [0, 5] |
| AdvancedMatching.OverallInRange | src/utils/advancedMatchingAlgorithm.ts:202-206 | unit components give an overall score in [0, 100] |
| AdvancedMatching.Insights | src/utils/advancedMatchingAlgorithm.ts:208-225 | an insight list is never longer than its list of rules |
| AdvancedMatching.InsightsMembers | src/utils/advancedMatchingAlgorithm.ts:213-225 | an insight is reported exactly when it is one of the list's rules and its condition holds |
| AdvancedMatching.InsightsDistinct | src/utils/advancedMatchingAlgorithm.ts:213-225 | no strength, concern or recommendation is listed twice |
| AdvancedMatching.GenerateCompatibilityScore | src/utils/advancedMatchingAlgorithm.ts:176-234 | the record is missing (NaN) exactly when the schedule score is |
| AdvancedMatching.CompatibilityScoreInRange | src/utils/advancedMatchingAlgorithm.ts:176-234 | with plausible candidate stats the overall score is an integer in [0, 100] |
| AdvancedMatching.ScoreParts | src/utils/advancedMatchingAlgorithm.ts:191-232 | the record's components are the scorers' values, and its overall score and insight lists follow from them |
| AdvancedMatching.StrengthRules | src/utils/advancedMatchingAlgorithm.ts:214-216 | "Perfect budget match" exactly for equal budgets, "Compatible personalities" exactly for equal set personalities, "Same location" exactly for the Same City tier |
| AdvancedMatching.ConcernRules | src/utils/advancedMatchingAlgorithm.ts:220 | "Budget mismatch" exactly for opposite budgets |
| AdvancedMatching.RecommendationRules | src/utils/advancedMatchingAlgorithm.ts:223-225 | "Consider communication styles" exactly for an extrovert with an introvert, "Plan meeting logistics" exactly for the Different tier, "Verify profile authenticity" exactly for a candidate not verified |
| AdvancedMatching.GetMatchStatus | src/utils/advancedMatchingAlgorithm.ts:236-240 | 80 and above is Recommended, 60 to 79 Pending, below 60 Rejected, and never Matched |
| AdvancedMatching.StatusMonotone | src/utils/advancedMatchingAlgorithm.ts:236-240 | a higher score never gets a worse status |
| AdvancedMatching.BudgetLabelByDistance | src/utils/advancedMatchingAlgorithm.ts:308 | the detail label is High for equal budgets, Medium one step apart and Low otherwise |
| AdvancedMatching.PersonalityLabel | src/utils/advancedMatchingAlgorithm.ts:312-313 | the personality label is Medium when either side is unset, and Low only for an extrovert with an introvert |
| AdvancedMatching.BuildMatch | src/utils/advancedMatchingAlgorithm.ts:292-319 | a pair with a score yields a match with id "m-trip-user", that user, the score's overall as its score, the status of that score, and chat enabled exactly when the score is at least 60 |
| AdvancedMatching.BuildMatchScore | src/utils/advancedMatchingAlgorithm.ts:303 | with plausible stats a built match scores in [0, 100] |
| AdvancedMatching.MatchDetailsRules | src/utils/advancedMatchingAlgorithm.ts:306-316 | both filters are marked passed, and language match is raw equality, so two unset preferences match; the labels and common interests follow the pair |
| AdvancedMatching.ScoreAll | src/utils/advancedMatchingAlgorithm.ts:292-321 | scoring and dropping rejected matches never adds matches |
| AdvancedMatching.ScoreAllMembers | src/utils/advancedMatchingAlgorithm.ts:292-321 | a kept match is the built match of one of the entries and is not rejected, and every such built match is kept |
| AdvancedMatching.SuggestGroups | src/utils/advancedMatchingAlgorithm.ts:242-267 | exactly one group exactly when at least two matches score 70 or more, holding the users of the first four of them, with capacity 6, status Planning, created by "system" at `now`, the id `group-<tripId>`, the name `<destination> Adventure Group`, the suggested-group description, and the trip's id, type, budget, destination and dates |
| AdvancedMatching.GroupMembersScoreHigh | src/utils/advancedMatchingAlgorithm.ts:244-251 | every group member is the user of a match scoring at least 70 |
| AdvancedMatching.RunPipeline | src/utils/advancedMatchingAlgorithm.ts:269-349 | the counters are the candidate and eligible counts and the numbers of recommended and matched matches, the matches are the sorted kept scores, the groups are suggested from them, and the average is their rounded mean |
| AdvancedMatching.PipelineSound | src/utils/advancedMatchingAlgorithm.ts:278-322 | every returned match is for another listed user whose first trip passes both filters, is that pair's built match, is Recommended or Pending, and has chat enabled with a score of at least 60 |
| AdvancedMatching.PipelineComplete | src/utils/advancedMatchingAlgorithm.ts:278-322 | every eligible other user whose match scores at least 60 is returned |
| AdvancedMatching.PipelineOrder | src/utils/advancedMatchingAlgorithm.ts:322 | the matches are in descending score order, and equal scores keep the order of the user list |
| AdvancedMatching.SummaryCounters | src/utils/advancedMatchingAlgorithm.ts:324-332 | no match is counted as Matched; recommended is the number of matches scoring 80 or more; recommended <= matches <= eligible <= total <= users; with no match the average is 0 and there is no group |
| AdvancedMatching.PipelineScoreBounded | src/utils/advancedMatchingAlgorithm.ts:303-322 | with plausible stats every returned score lies in [60, 100] |
| AdvancedMatching.PipelineAverageBounded | src/utils/advancedMatchingAlgorithm.ts:332 | with plausible stats and at least one match the average lies in [60, 100] |
| SimpleMatching.PersonalityLevel | src/utils/matchingAlgorithm.ts:104-114 | the label is Medium exactly when either side is unset, High exactly when both are set and equal, and Low exactly when both are set and differ |
| SimpleMatching.LanguageMatch | src/utils/matchingAlgorithm.ts:116-121 | an unset or empty preference never matches |
| SimpleMatching.LanguageMatchRules | src/utils/matchingAlgorithm.ts:116-121 | the match is symmetric, holds exactly when both preferences are set and equal after trim and lower-case, and two unset preferences never match |
| SimpleMatching.Proximity | src/utils/matchingAlgorithm.ts:123-134 | Same City exactly for equal normalised cities, Nearby exactly for different cities with equal normalised home countries |
| SimpleMatching.ProximitySymmetric | src/utils/matchingAlgorithm.ts:123-134 | the proximity tier does not depend on which user asks |
| SimpleMatching.ScoreBounds | src/utils/matchingAlgorithm.ts:176-184 | the weights sum to 1 (perfect signals give exactly 1), and the lowest possible signals still give 24.5%, so the rounded score lies in [25, 100] and 25 is reached |
| SimpleMatching.Status | src/utils/matchingAlgorithm.ts:136-140 | 75 and above is Recommended, 55 to 74 Pending, below 55 Rejected |
| SimpleMatching.Insights | src/utils/matchingAlgorithm.ts:197-205 | an insight list is never longer than its list of rules |
| SimpleMatching.InsightRules | src/utils/matchingAlgorithm.ts:200-205 | each strength and concern is reported exactly when its rule holds |
| SimpleMatching.BudgetLevel | src/utils/matchingAlgorithm.ts:60-70 | the label is High exactly for equal budgets, Medium exactly one step apart, Low exactly for opposite budgets |
| SimpleMatching.NoConcernRule | src/utils/matchingAlgorithm.ts:203-210 | there is no concern exactly when the languages match and neither the budget nor the personality label is Low, and then there is one recommendation |
| SimpleMatching.FinalScoreBounds | src/utils/matchingAlgorithm.ts:176-184 | every pair scores between 25 and 100 |
| SimpleMatching.BuildMatch | src/utils/matchingAlgorithm.ts:164-246 | the match carries id "m-trip-user", that user, the final score as both score and overall, the status of that score, and chat enabled exactly when not rejected |
| SimpleMatching.BuildMatchParts | src/utils/matchingAlgorithm.ts:187-242 | the insight lists, the recommendations, the detail labels and the fixed 100% schedule overlap follow the pair's signals |
| SimpleMatching.ScoreAll | src/utils/matchingAlgorithm.ts:164-247 | scoring and dropping rejected matches never adds matches |
| SimpleMatching.ScoreAllMembers | src/utils/matchingAlgorithm.ts:164-247 | a kept match is the match of one of the entries and scores at least 55, and every such match is kept |
| SimpleMatching.RunPipeline | src/utils/matchingAlgorithm.ts:142-271 | the counters are the candidate and eligible counts and the numbers of recommended and matched matches, the matches are the kept matches sorted by descending score, and the average is their rounded mean |
| SimpleMatching.PipelineSound | src/utils/matchingAlgorithm.ts:150-248 | every returned match is for another listed user whose first trip passes both filters, is that pair's built match, and is Recommended or Pending with chat enabled |
| SimpleMatching.PipelineComplete | src/utils/matchingAlgorithm.ts:150-248 | every eligible other user whose match scores at least 55 is returned |
| SimpleMatching.PipelineOrder | src/utils/matchingAlgorithm.ts:248 | the matches are in descending score order, with equal scores in the order of the user list |
| SimpleMatching.SummaryCounters | src/utils/matchingAlgorithm.ts:254-261 | no match is counted as Matched; recommended is the number of matches scoring 75 or more; recommended <= matches <= eligible <= total <= users |
| SimpleMatching.PipelineAverage | src/utils/matchingAlgorithm.ts:250-252 | the average is 0 with no matches, and otherwise lies in [55, 100] |
| AppContext.CreateTrip | src/context/AppContext.tsx:82-92 | the errors are recorded; the trip is adopted and true returned exactly when there are none, and otherwise the current trip is unchanged |
| AppContext.BlankDestinationRefused | src/context/AppContext.tsx:82-92 | a trip with a blank destination is never adopted |
| AppContext.PreviousStatus | src/context/AppContext.tsx:102 | there is no recorded status exactly when no previous match has the id |
| AppContext.PreviousStatusIsLast | src/context/AppContext.tsx:102 | the recorded status is that of the last previous match with the id, as `new Map(entries)` keeps the last entry |
| AppContext.MergeKeepsDecisions | src/context/AppContext.tsx:104-112 | only the status may differ from the new run; it is the previous status exactly when that was Matched or Rejected |
| AppContext.MergeIdempotent | src/context/AppContext.tsx:101-113 | merging again with the same previous matches changes nothing further |
| AppContext.GenerateMatches | src/context/AppContext.tsx:94-118 | without a signed-in user or a trip nothing changes; otherwise only matches, groups and summary may change |
| AppContext.GenerateMatchesResult | src/context/AppContext.tsx:95-113 | the matches are the pipeline's, in its order, with earlier decisions carried over, using the override trip when given |
| AppContext.MatchedUserId | src/context/AppContext.tsx:121-127 | the result is "" when no match has the id, a non-empty result is the user of a match with the id, and when matches have the id it is the user of the last of them |
| AppContext.MatchedUserIdAfterSetStatus | src/context/AppContext.tsx:122-127 | changing statuses does not change whose match an id belongs to, so the greeting sender is the same before and after the update |
| AppContext.UpdateMatchStatus | src/context/AppContext.tsx:120-153 | only the match list and the conversations may change |
| AppContext.UpdateOnlyTarget | src/context/AppContext.tsx:122-128 | only the matches with the given id change, and only in their status |
| AppContext.GreetingSeeded | src/context/AppContext.tsx:130-152 | marking Matched seeds exactly one greeting from the companion, only when the match exists with a non-empty user and has no messages; other statuses change no conversation |
| AppContext.GreetingOnce | src/context/AppContext.tsx:132 | marking Matched twice seeds only once |
| AppContext.SendMessage | src/context/AppContext.tsx:159-176 | only the conversations may change |
| AppContext.SendAppends | src/context/AppContext.tsx:160-175 | the conversation grows by one message appended last, from the sender, with the text, read by the sender only; every other conversation is unchanged |
| AppContext.FindReview | src/context/AppContext.tsx:179 | a found position holds a review of the match by that reviewer and no earlier review is one, as `find` returns the first; there is none exactly when no such review exists |
| AppContext.FindMatch | src/context/AppContext.tsx:180 | a found match is the first match with the id, as `find` returns; there is none exactly when no match has it |
| AppContext.AddReview | src/context/AppContext.tsx:178-214 | only the review list may change |
| AppContext.AddReviewOnePerPair | src/context/AppContext.tsx:178-214 | at most one review per match and reviewer is kept |
| AppContext.AddReviewUpsert | src/context/AppContext.tsx:183-213 | a first review is appended with the arguments, every category set to the rating, public and without votes; a repeat rewrites the existing review's rating, comment and time in place, keeps the count, and leaves other reviews alone |
| AppContext.AddReviewReviewee | src/context/AppContext.tsx:180-181 | the review is about the matched companion when the match is known, and about the reviewer otherwise |
| AppContext.ReviewByMatch | src/context/AppContext.tsx:216 | a found review is the first review of the match in store order, as `find` returns; there is none exactly when no review is about the match |
| AppContext.AddPlaceRequest | src/context/AppContext.tsx:218-233 | only the place requests may change |
| AppContext.PlaceRequestGuard | src/context/AppContext.tsx:218-233 | a refused request changes nothing; an accepted one adds exactly one request, in front, with the submitted fields |
| ReviewStore.IndexOf | src/utils/reviewManager.ts:82 | the position of the first review with the id, and none exactly when there is none |
| ReviewStore.CreateReview | src/utils/reviewManager.ts:15-65 | creation fails exactly for a rating outside [1, 5] (checked first) or a repeat review; otherwise the review is appended |
| ReviewStore.CreateThenCannotReview | src/utils/reviewManager.ts:212-227 | the created review carries the reviewer, reviewee, rating, comment, categories, match, group, trip, visibility and `now`, with no votes, and the same reviewer can no longer review that person for that match or group |
| ReviewStore.CreateAgreesWithCanReview | src/utils/reviewManager.ts:27-40 | for two different people, creation succeeds exactly when the rating is valid and the reviewer may still review |
| ReviewStore.CannotReviewSelf | src/utils/reviewManager.ts:218 | no one may review themselves |
| ReviewStore.CreateKeepsRatings | src/utils/reviewManager.ts:27-56 | creation keeps every stored rating in [1, 5] |
| ReviewStore.Apply | src/utils/reviewManager.ts:75 | only rating, comment, categories and visibility may change |
| ReviewStore.UpdateReview | src/utils/reviewManager.ts:67-79 | a refused update changes nothing |
| ReviewStore.UpdateOnlyByAuthor | src/utils/reviewManager.ts:72-78 | the update succeeds exactly when the review exists and its author asks, and only the first review with the id changes |
| ReviewStore.DeleteReview | src/utils/reviewManager.ts:81-99 | a refused deletion changes nothing, and a successful one removes one review |
| ReviewStore.DeleteOnlyTarget | src/utils/reviewManager.ts:81-99 | deletion succeeds exactly for the author and removes exactly that review, keeping the others in order |
| ReviewStore.DeleteKeepsRatings | src/utils/reviewManager.ts:81-99 | deletion keeps every remaining rating in [1, 5] |
| ReviewStore.VoteHelpful | src/utils/reviewManager.ts:101-110 | the result is null exactly for an unknown id, and then nothing changes |
| ReviewStore.VoteAddsOne | src/utils/reviewManager.ts:101-110 | a vote adds exactly one to that review's count and changes nothing else |
| ReviewStore.PublicReviewsOf | src/utils/reviewManager.ts:168 | exactly the public reviews about the user are listed: every listed review is one, and every such review of the store is listed |
| ReviewStore.UserAverageRating | src/utils/reviewManager.ts:161-199 | the total is the number of the user's public reviews, and all figures are zero when there are none |
| ReviewStore.AverageInRange | src/utils/reviewManager.ts:170-198 | when every public review gives 1 to 5 stars for an aspect, its average lies in [1, 5] |
| ReviewStore.PrivateReviewsIgnored | src/utils/reviewManager.ts:168-180 | a user with only private reviews, or none, averages zero |
| ReviewStore.ReviewSummaryOf | src/utils/reviewManager.ts:279-322 | every list is empty when the user has no public review |
| ReviewStore.SummaryRules | src/utils/reviewManager.ts:294-320 | a category is a strength exactly when it averages at least 4.0, needs improvement exactly when under 3.0, never both, and a theme is common feedback exactly when some comment mentions it |
| ChatStore.MessageIndex | src/utils/chatManager.ts:114 | a found position holds a message with the id and no earlier message has it; there is none exactly when no message has the id |
| ChatStore.CreateChat | src/utils/chatManager.ts:16-39 | a new active chat with the given participants and no messages or preview, and every other chat is unchanged |
| ChatStore.CreateKeepsWf | src/utils/chatManager.ts:16-39 | creating a chat keeps the invariant that every message lists each reader once and carries at most one reaction per user |
| ChatStore.SendMessage | src/utils/chatManager.ts:41-75 | sending fails exactly when the chat is unknown or the sender is not a participant |
| ChatStore.SendAppends | src/utils/chatManager.ts:52-69 | the message goes last, carries the text, is unedited, is read by the sender alone, has no reactions and becomes the preview; no other chat changes |
| ChatStore.SendKeepsWf | src/utils/chatManager.ts:41-75 | sending keeps the invariant that every message lists each reader once and carries at most one reaction per user |
| ChatStore.EditMessage | src/utils/chatManager.ts:85-108 | a refused edit changes nothing, and chats are never created or removed |
| ChatStore.EditOnlyBySender | src/utils/chatManager.ts:91-107 | editing succeeds exactly for the sender of the first message with the id, changes only its text and edit marks, and touches no other message or chat |
| ChatStore.EditRefreshesLast | src/utils/chatManager.ts:100-104 | editing the chat's last message shows in its preview |
| ChatStore.EditKeepsWf | src/utils/chatManager.ts:85-108 | editing keeps the invariant that every message lists each reader once and carries at most one reaction per user |
| ChatStore.DeleteMessage | src/utils/chatManager.ts:110-130 | a refused deletion changes nothing, and chats are never created or removed |
| ChatStore.DeleteIsSoft | src/utils/chatManager.ts:110-130 | deletion succeeds exactly for the sender, keeps the message count, and replaces only the target by a placeholder with the same id, sender and readers |
| ChatStore.DeleteKeepsLast | src/utils/chatManager.ts:110-130 | deletion never changes a chat's preview |
| ChatStore.DeleteThenMarkAsRead | src/utils/chatManager.ts:121-140 | after a chat's last message is deleted, the preview keeps its original text, yet a later markAsRead shows the user among the preview's readers |
| ChatStore.DeleteKeepsWf | src/utils/chatManager.ts:110-130 | deletion keeps the invariant that every message lists each reader once and carries at most one reaction per user |
| ChatStore.MarkAsRead | src/utils/chatManager.ts:132-141 | only that chat's messages change, and their number stays the same; the chat's preview gains the user as a reader, even when it is the original of a deleted message, and other previews stay as they were |
| ChatStore.MarkAsReadEveryMessage | src/utils/chatManager.ts:132-141 | afterwards the user reads every message of the chat, exactly once when readers were listed once before, and only the readers change |
| ChatStore.MarkAsReadIdempotent | src/utils/chatManager.ts:136-139 | marking twice equals marking once |
| ChatStore.MarkAsReadKeepsWf | src/utils/chatManager.ts:132-141 | marking keeps the invariant that every message lists each reader once and carries at most one reaction per user |
| ChatStore.UnreadCount | src/utils/chatManager.ts:212-217 | never more than the messages in the chat |
| ChatStore.UnreadExcludesOwn | src/utils/chatManager.ts:212-217 | the unread count never exceeds the number of messages sent by others, so the user's own messages are never unread |
| ChatStore.UnreadZeroAfterMarkAsRead | src/utils/chatManager.ts:212-217 | nothing is unread for a user right after they mark the chat read |
| ChatStore.SendUnread | src/utils/chatManager.ts:212-217 | sending adds one unread message for everyone but the sender, and none for the sender |
| ChatStore.AddReaction | src/utils/chatManager.ts:143-162 | an unknown chat or message changes nothing |
| ChatStore.RemoveReaction | src/utils/chatManager.ts:164-178 | an unknown chat or message changes nothing |
| ChatStore.WithoutReactionOfKeeps | src/utils/chatManager.ts:154-174 | removing a user's reactions keeps everyone else's, and keeps reactions distinct by user |
| ChatStore.AddReactionLatestWins | src/utils/chatManager.ts:143-162 | the message carries the user's new reaction and no other reaction of theirs, everyone else's are as before, and at most one reaction per user remains |
| ChatStore.RemoveReactionClears | src/utils/chatManager.ts:164-178 | the user has no reaction left on the message and everyone else's are as before |
| ChatStore.ReactionsKeepWf | src/utils/chatManager.ts:143-178 | adding or removing a reaction keeps the invariant that every message lists each reader once and carries at most one reaction per user |
| ChatStore.ChatMessages | src/utils/chatManager.ts:201-204 | the page is a suffix of the chat's messages |
| ChatStore.ChatMessagesNewest | src/utils/chatManager.ts:201-204 | a positive limit gives the newest min(limit, n) messages, oldest first, and a zero limit gives the whole list |
| EmergencySOS.SeverityOf | src/utils/emergencySOS.ts:48-61 | SOS is Critical, Medical High, Lost and Theft Medium, Other Low, each exactly |
| EmergencySOS.EmptyWf | src/utils/emergencySOS.ts:5-6 | the empty store is well formed (every active id points at an unresolved alert with that id, and the active order lists each active id exactly once) |
| EmergencySOS.TriggerSOS | src/utils/emergencySOS.ts:15-46 | the alert is appended to the history, Active with no responders, with the severity of its type and the given user, type and message |
| EmergencySOS.TriggerKeepsWf | src/utils/emergencySOS.ts:23-38 | triggering keeps the store well formed (every active id points at an unresolved alert with that id, and the active order lists each active id exactly once) |
| EmergencySOS.TriggerActivates | src/utils/emergencySOS.ts:36-38 | the new alert is the active one under its id and is listed among the active alerts |
| EmergencySOS.RespondToAlert | src/utils/emergencySOS.ts:84-106 | null exactly for an id that is not active (unknown or resolved), and then nothing changes |
| EmergencySOS.RespondProgresses | src/utils/emergencySOS.ts:92-103 | status never goes backwards; acknowledging lists the responder exactly once and leaves the alert active; resolving removes it from the active set |
| EmergencySOS.RespondKeepsWf | src/utils/emergencySOS.ts:84-106 | responding keeps the store well formed (every active id points at an unresolved alert with that id, and the active order lists each active id exactly once) |
| EmergencySOS.ResolvedIsFinal | src/utils/emergencySOS.ts:89-103 | a resolved alert can no longer be responded to |
| EmergencySOS.ActiveAlerts | src/utils/emergencySOS.ts:108-110 | one entry per active alert, in the order the ids entered the active map (Map insertion order); every active alert is listed and none is resolved |
| EmergencySOS.UserAlerts | src/utils/emergencySOS.ts:112-114 | every listed alert belongs to the user |
| EmergencySOS.UserAlertsInCreationOrder | src/utils/emergencySOS.ts:112-114 | the list holds exactly the user's alerts, and triggering adds the new alert at the end for its owner only |
| EmergencySOS.EmergencyMessage | src/utils/emergencySOS.ts:162-172 | every alert type has a non-empty message |
| EmergencySOS.Steps | src/utils/emergencySOS.ts:174-209 | every alert type has four steps |
| EmergencySOS.Instructions | src/utils/emergencySOS.ts:174-209 | every alert type has four instructions |
| EmergencySOS.StepsPartitioned | src/utils/emergencySOS.ts:174-209 | each type's four steps are distinct, and no step is shared between two types |
| Validation.EmailShape | src/utils/validation.ts:265-268 | an address splits at its one "@"; it is accepted exactly when the local part is non-empty, neither part has a blank or another "@", and the domain has a dot strictly inside it |
| Validation.EmailNeedsAt | src/utils/validation.ts:265-268 | text without "@" is never an email |
| Validation.PhoneRule | src/utils/validation.ts:270-273 | a phone number is valid exactly when it uses only digits, blanks, "-", "(" and ")" after an optional leading "+", and has at least ten digits |
| Validation.ValidateTravelProfile | src/utils/validation.ts:60-94 | no more errors than profile checks, no error listed twice, and none marked as nested |
| Validation.ProfileReports | src/utils/validation.ts:60-94 | a profile issue is reported exactly when it is checked and fails |
| Validation.Nested | src/utils/validation.ts:53 | a nested error keeps its issue (so its code and message) and gains the "profile." field prefix |
| Validation.UserErrors | src/utils/validation.ts:27-49 | the user's own errors carry no prefix |
| Validation.ProfileErrors | src/utils/validation.ts:51-54 | every re-reported profile error is nested, and there is none without a profile |
| Validation.ValidateUser | src/utils/validation.ts:24-57 | the errors are the user's own (not nested) first, then the nested profile errors; which errors appear is stated by UserReports and ProfileErrorsNested |
| Validation.UserReports | src/utils/validation.ts:27-49 | a user issue is reported, unprefixed, exactly when it is checked and fails |
| Validation.AgeRule | src/utils/validation.ts:35-37 | INVALID_AGE is reported exactly when the age is missing or outside [18, 100] |
| Validation.ProfileErrorsNested | src/utils/validation.ts:51-54 | with a profile, the user's errors end with every profile error, in order, with the same issue and the field under "profile." |
| Validation.InterestsRule | src/utils/validation.ts:71-75 | NO_INTERESTS exactly for a missing or empty list, TOO_MANY_INTERESTS exactly for more than ten, never both |
| Validation.ValidateTrip | src/utils/validation.ts:97-143 | no more errors than trip checks, no error listed twice, none nested |
| Validation.TripReports | src/utils/validation.ts:97-143 | a trip issue is reported exactly when it is checked and fails |
| Validation.TripOrderRule | src/utils/validation.ts:112-123 | with two parsed days, an end not after the start is reported both as a bad range and as too short; without two parsed days neither is |
| Validation.TripLengthRule | src/utils/validation.ts:104-120 | more than 30 days between two parsed days is too long, and a start date that does not parse is reported as such |
| Validation.ValidateReview | src/utils/validation.ts:146-182 | no more errors than review checks, no error listed twice, none nested |
| Validation.ReviewReports | src/utils/validation.ts:146-182 | a review issue is reported exactly when it is checked and fails |
| Validation.ReviewRatingRule | src/utils/validation.ts:149-151 | INVALID_RATING exactly when the rating is missing or outside [1, 5] |
| Validation.ReviewCategoryRules | src/utils/validation.ts:161-179 | with categories, each one is reported under its own code exactly when it is outside [1, 5] |
| Validation.ValidateEmergencyAlert | src/utils/validation.ts:185-219 | no more errors than alert checks, no error listed twice, none nested |
| Validation.AlertReports | src/utils/validation.ts:185-219 | an alert issue is reported exactly when it is checked and fails |
| Validation.AlertWithoutLocation | src/utils/validation.ts:204-216 | without a location no coordinate or address error is reported |
| Validation.AlertLatitudeRule | src/utils/validation.ts:205-207 | a given latitude is reported exactly when it is outside [-90, 90] or exactly 0 |
| Validation.ValidateGroup | src/utils/validation.ts:222-262 | no more errors than group checks, no error listed twice, none nested |
| Validation.GroupReports | src/utils/validation.ts:222-262 | a group issue is reported exactly when it is checked and fails |
| Validation.GroupSizeRule | src/utils/validation.ts:237-239 | INVALID_GROUP_SIZE exactly when the size is missing or outside [2, 20] |
| Validation.StripAngles | src/utils/validation.ts:294 | no angle bracket is left, and a character is in the result exactly when it is in the input and is not an angle bracket |
| Validation.StripAnglesKeepsOrder | src/utils/validation.ts:294 | stripping distributes over concatenation, drops a single bracket and keeps any other single character, so every other character is kept in order |
| Validation.SanitizeString | src/utils/validation.ts:288-302 | the result has no angle bracket, and empty input gives "" |
| Validation.SanitizeStringRule | src/utils/validation.ts:288-302 | the result is a prefix of the trimmed, bracket-free text, no longer than a positive limit, and all of it when it fits |
| Validation.SanitizeEmail | src/utils/validation.ts:304-306 | the lower-cased, trimmed, bracket-free text is kept whole when it fits 254 characters and cut to a 254-character prefix otherwise; no angle bracket remains |
| Validation.SanitizeBio | src/utils/validation.ts:313-315 | the trimmed, bracket-free text is kept whole when it fits 500 characters and cut to a 500-character prefix otherwise; no angle bracket remains |
| Validation.SanitizeComment | src/utils/validation.ts:317-319 | the trimmed, bracket-free text is kept whole when it fits 1000 characters and cut to a 1000-character prefix otherwise; no angle bracket remains |
| Validation.SanitizePhone | src/utils/validation.ts:308-311 | the result contains only digits and "+" |
| Validation.SanitizePhoneRule | src/utils/validation.ts:308-311 | sanitising is idempotent and keeps the digit count, so a valid number keeps its ten or more digits |

## Left out

- UI pages and components, the authentication context, error logging and loading timers: these are rendering and browser plumbing, not matching or store logic.
- Date parsing: `parseISO` and `new Date(string)` are abstracted to `NoDate`, `BadDate` or a day number. Time zones, times of day and the millisecond arithmetic of `calculateDaysBetween` (its `Math.ceil` over whole days) reduce to day subtraction.
- The clock: every timestamp and clock-built id is a parameter (`now`, `stamp`). `performance.now()` and the pipeline's `processingTime` are not modelled. The past-start-date check of `validateTrip` compares against a `now` day parameter.
- String details:
  - Lengths count code points, not UTF-16 units.
  - Case mapping covers ASCII letters only.
  - White space for `trim` follows the JavaScript set.
- Floating point: scores are exact reals, so IEEE-754 rounding artefacts (for example a weighted sum landing a hair below .5) are not modelled.
- Ratings, ages and group sizes are integers: a fractional rating or age is not modelled.
- The review store's `userReviews` index is not modelled. It is written on create and delete but only read by itself, and every query goes through the main list.
- Review queries are not modelled: `getReviewById`, the `createdAt` sort of `getUserReviews`, `getMatchReviews`, `getGroupReviews`, `getRatingDistribution`, `getRecentReviews`, `searchReviews` and `getReviewStats`. All but one return filtered copies and leave the store alone. The exception is `getUserReviews` called with no filter option: it then sorts the store's own list in place, newest first. The model keeps reviews in creation order and does not model that reordering. It would change which review a duplicated id finds first and the order in which public reviews are listed, but not the averages.
- Chat extras are not modelled:
  - `setTyping` and `getTypingUsers`: presence flags with no effect on messages;
  - `getChat`, `getUserChats`, `getTotalUnreadCount`, `getChatParticipants`, `isUserInChat` and `searchMessages`: read-only views;
  - `sendLocationMessage` and `sendImageMessage`: text formatting with `toFixed` over `sendMessage`, which is modelled;
  - `simulateMessageDelivery`: console output.
- Emergency I/O is not modelled: `getAlertById` (a lookup), and geolocation, `sendLocationUpdate` and the `notify*` functions (browser APIs and console output).
- `async`, `Promise` and the singleton `getInstance` wrappers: each store is an explicit state value instead.
- The `useReview`, `useChat` and `useEmergencySOS` hooks, and the validators, `sanitize.string` and `sanitize.phone` of the `useValidation` hook: each forwards to a modelled operation.
- `useValidation().sanitize.email`, `.bio` and `.comment` (src/utils/validation.ts:344-350, calling lines 305, 314 and 318): the hook copies the bare static methods into a plain object, so a call through it runs with `this` bound to that object, where `this.sanitizeString` is undefined, and it throws a TypeError. Validation.SanitizeEmail, Validation.SanitizeBio and Validation.SanitizeComment model the static calls `DataValidator.sanitizeEmail`, `sanitizeBio` and `sanitizeComment` only; the throwing hook path is not modelled.
- Fixture data (`mockUsers`, `mockTrips`, `destinations`): the matching functions take the user and trip lists as parameters.
- Nothing is corrected. A latitude or longitude of exactly 0 is reported as invalid, because the source tests the value for truthiness, and the model keeps this (see `Validation.AlertLatitudeRule`). `sanitizeString` is not idempotent in general, since stripping brackets can expose white space that a second trim would remove, so the model claims no idempotence for it.

=== FILE: advanced.dfy ===
/** The live matching engine (`runAdvancedMatchingPipeline`, version 2.0.0):
    eight component scores in [0, 1], a weighted 0–100 score, insight lists,
    status thresholds, one suggested group and summary counters. Calendar
    logic is in `Schedule`, interests in `Interests`, candidate selection in
    `CandidatePool`, sorting in `MatchSort`. */
module AdvancedMatching {
  import opened Common
  import opened Text
  import opened Types
  import opened Schedule
  import opened Interests
  import opened CandidatePool
  import opened MatchSort

  const InterestWeight: real := 0.25
  const BudgetWeight: real := 0.15
  const StyleWeight: real := 0.15
  const PersonalityWeight: real := 0.10
  const ScheduleWeight: real := 0.15
  const LocationWeight: real := 0.10
  const VerificationWeight: real := 0.05
  const ExperienceWeight: real := 0.05

  const AlgorithmVersion: string := "2.0.0"

  /* ---------------------------------------------------------------- budget */

  /** `calculateBudgetCompatibility`: 1.0, 0.7 or 0.3 for scale distance 0, 1, 2. */
  function BudgetCompatibility(a: Budget, b: Budget): (r: real)
    ensures r == 1.0 <==> a == b
    ensures r == 0.7 <==> BudgetDistance(a, b) == 1
    ensures r == 0.3 <==> OppositeBudgets(a, b)
    ensures Unit(r)
  {
    var diff := BudgetDistance(a, b);
    if diff == 0 then 1.0 else if diff == 1 then 0.7 else 0.3
  }

  lemma BudgetSymmetric(a: Budget, b: Budget)
    ensures BudgetCompatibility(a, b) == BudgetCompatibility(b, a)
  {
    BudgetDistanceSymmetric(a, b);
  }

  /* ----------------------------------------------------------- personality */

  /** The compatibility matrix of the three personality types. */
  function PersonalityMatrix(a: Personality, b: Personality): real {
    if a == b then 1.0
    else if a == Ambivert || b == Ambivert then 0.8
    else 0.4
  }

  /** `calculatePersonalityCompatibility`: the matrix entry, 0.5 when either
      personality is unset (the `|| 0.5` fallback never fires: no entry is 0). */
  function PersonalityCompatibility(a: Option<Personality>, b: Option<Personality>): (r: real)
    ensures a.None? || b.None? ==> r == 0.5
    ensures a.Some? && b.Some? ==> (r == 1.0 <==> a == b)
    ensures r == 0.4 <==> OppositePersonalities(a, b)
    ensures r < 0.5 <==> OppositePersonalities(a, b)
    ensures 0.4 <= r <= 1.0
  {
    if a.None? || b.None? then 0.5
    else
      var m := PersonalityMatrix(a.value, b.value);
      if m == 0.0 then 0.5 else m
  }

  lemma PersonalitySymmetric(a: Option<Personality>, b: Option<Personality>)
    ensures PersonalityCompatibility(a, b) == PersonalityCompatibility(b, a)
  {
  }

  /* -------------------------------------------------------------- location */

  datatype LocationMatch = LocationMatch(score: real, proximity: Proximity)

  /** Score of each proximity tier. */
  function ProximityScore(p: Proximity): real {
    match p
    case SameCity => 1.0
    case Nearby => 0.7
    case Different => 0.3
  }

  /** `calculateLocationProximity`: same normalised city, else identical (not
      normalised) home country, else different. */
  function LocationProximity(current: User, candidate: User): (r: LocationMatch)
    ensures r.proximity == SameCity <==> Normalize(current.currentCity) == Normalize(candidate.currentCity)
    ensures r.proximity == Nearby <==>
      Normalize(current.currentCity) != Normalize(candidate.currentCity) && current.homeCountry == candidate.homeCountry
    ensures r.score == ProximityScore(r.proximity)
  {
    if Normalize(current.currentCity) == Normalize(candidate.currentCity) then LocationMatch(1.0, SameCity)
    else if current.homeCountry == candidate.homeCountry then LocationMatch(0.7, Nearby)
    else LocationMatch(0.3, Different)
  }

  lemma LocationSymmetric(a: User, b: User)
    ensures LocationProximity(a, b) == LocationProximity(b, a)
  {
  }

  /* ------------------------------------------- style, verification, experience */

  /** `calculateTravelStyleMatch`. */
  function TravelStyleMatch(a: User, b: User): (r: real)
    ensures r == 1.0 <==> a.profile.travelStyle == b.profile.travelStyle
    ensures r == 0.5 <==> a.profile.travelStyle != b.profile.travelStyle
  {
    if a.profile.travelStyle == b.profile.travelStyle then 1.0 else 0.5
  }

  /** `calculateVerificationBonus`. */
  function VerificationBonus(v: Verification): (r: real)
    ensures r == 1.0 <==> v == Verified
    ensures r == 0.0 <==> v == Unverified
    ensures r == 0.5 <==> v == Verification.Pending
    ensures 0.0 <= r <= 1.0
  {
    match v
    case Verified => 1.0
    case Pending => 0.5
    case Unverified => 0.0
  }

  /** Statistics in the ranges the application produces. */
  predicate PlausibleStats(s: Stats) {
    0 <= s.tripsCompleted && 0.0 <= s.averageRating <= 5.0
  }

  function MinReal(a: real, b: real): real {
    if a <= b then a else b
  }

  /** `calculateExperienceBonus`: half for trips (saturating at 10), half for rating out of 5. */
  function ExperienceBonus(s: Stats): (r: real)
    ensures PlausibleStats(s) ==> 0.0 <= r <= 1.0
    ensures s.averageRating <= 5.0 ==> r <= 1.0
    ensures PlausibleStats(s) && s.tripsCompleted >= 10 && s.averageRating == 5.0 ==> r == 1.0
  {
    MinReal(s.tripsCompleted as real / 10.0, 1.0) * 0.5 + (s.averageRating / 5.0) * 0.5
  }

  /** More completed trips never lower the bonus. */
  lemma ExperienceMonotone(s: Stats, t: Stats)
    requires s.tripsCompleted <= t.tripsCompleted && s.averageRating <= t.averageRating
    ensures ExperienceBonus(s) <= ExperienceBonus(t)
  {
  }

  /* --------------------------------------------------------------- overall */

  /** The weighted sum over the eight components, in declaration order. */
  function WeightedSum(interest: real, budget: real, style: real, personality: real,
                       schedule: real, location: real, verification: real, experience: real): real
  {
    interest * InterestWeight + budget * BudgetWeight + style * StyleWeight
    + personality * PersonalityWeight + schedule * ScheduleWeight + location * LocationWeight
    + verification * VerificationWeight + experience * ExperienceWeight
  }

  /** The weights add up to 1, so a weighted sum of unit values is a unit value
      and its percentage rounds to an integer in [0, 100]. */
  lemma WeightedSumBounded(interest: real, budget: real, style: real, personality: real,
                           schedule: real, location: real, verification: real, experience: real)
    requires Unit(interest) && Unit(budget) && Unit(style) && Unit(personality)
    requires Unit(schedule) && Unit(location) && Unit(verification) && Unit(experience)
    ensures Unit(WeightedSum(interest, budget, style, personality, schedule, location, verification, experience))
    ensures 0 <= Round(WeightedSum(interest, budget, style, personality, schedule, location, verification, experience) * 100.0) <= 100
  {
    assert InterestWeight + BudgetWeight + StyleWeight + PersonalityWeight + ScheduleWeight
      + LocationWeight + VerificationWeight + ExperienceWeight == 1.0;
  }

  /** With all eight components perfect the score is exactly 100. */
  lemma PerfectComponentsScoreHundred()
    ensures Round(WeightedSum(1.0, 1.0, 1.0, 1.0, 1.0, 1.0, 1.0, 1.0) * 100.0) == 100
  {
    assert WeightedSum(1.0, 1.0, 1.0, 1.0, 1.0, 1.0, 1.0, 1.0) == 1.0;
  }

  /* -------------------------------------------------------------- insights */

  /** The eight component scores of a pair; `None` when the schedule score is
      NaN (an unparseable date). */
  function ScoreComponents(current: User, candidate: User, currentTrip: Trip, candidateTrip: Trip)
    : (r: Option<Components>)
    ensures r.None? <==>
      DateOverlapScore(currentTrip.startDate, currentTrip.endDate, candidateTrip.startDate, candidateTrip.endDate).None?
  {
    var dateScore := DateOverlapScore(currentTrip.startDate, currentTrip.endDate, candidateTrip.startDate, candidateTrip.endDate);
    if dateScore.None? then None
    else Some(Components(
      InterestSimilarity(current, candidate).score,
      BudgetCompatibility(currentTrip.budget, candidateTrip.budget),
      TravelStyleMatch(current, candidate),
      PersonalityCompatibility(current.profile.personality, candidate.profile.personality),
      dateScore.value,
      LocationProximity(current, candidate).score,
      VerificationBonus(candidate.verificationStatus),
      Some(ExperienceBonus(candidate.stats))))
  }

  /** All eight components lie in [0, 1]. */
  predicate UnitComponents(c: Components) {
    && Unit(c.interestSimilarity) && Unit(c.budgetCompatibility) && Unit(c.travelStyleMatch)
    && Unit(c.personalityMatch) && Unit(c.scheduleOverlap) && Unit(c.locationProximity)
    && Unit(c.verificationBonus) && c.experienceBonus.Some? && Unit(c.experienceBonus.value)
  }

  /** Every component is in [0, 1] when the candidate's statistics are plausible. */
  lemma ComponentsBounded(current: User, candidate: User, currentTrip: Trip, candidateTrip: Trip)
    requires PlausibleStats(candidate.stats)
    ensures var r := ScoreComponents(current, candidate, currentTrip, candidateTrip);
      r.Some? ==> UnitComponents(r.value)
  {
    InterestScoreUnit(current, candidate);
  }

  /** `Math.round` of the weighted sum, as a percentage. */
  function Overall(c: Components): int {
    Round(WeightedSum(c.interestSimilarity, c.budgetCompatibility, c.travelStyleMatch, c.personalityMatch,
      c.scheduleOverlap, c.locationProximity, c.verificationBonus, c.experienceBonus.GetOr(0.0)) * 100.0)
  }

  /** Unit components give an overall score in [0, 100]. */
  lemma OverallInRange(c: Components)
    requires UnitComponents(c)
    ensures 0 <= Overall(c) <= 100
  {
    WeightedSumBounded(c.interestSimilarity, c.budgetCompatibility, c.travelStyleMatch, c.personalityMatch,
      c.scheduleOverlap, c.locationProximity, c.verificationBonus, c.experienceBonus.value);
  }

  /** The strength rules, in the order they are checked. */
  const StrengthOrder: seq<Insight> :=
    [StrongInterestAlignment, PerfectBudgetMatch, CompatiblePersonalities, SameLocation, GreatScheduleOverlap]

  /** The concern rules, in the order they are checked. */
  const ConcernOrder: seq<Insight> := [LimitedSharedInterests, BudgetMismatch, LimitedScheduleOverlap]

  /** The recommendation rules, in the order they are checked. */
  const RecommendationOrder: seq<Insight> := [ConsiderCommunicationStyles, PlanMeetingLogistics, VerifyProfileAuthenticity]

  /** The condition under which each insight is reported for components `c`. */
  predicate Applies(c: Components, i: Insight) {
    match i
    case StrongInterestAlignment => c.interestSimilarity > 0.7
    case PerfectBudgetMatch => c.budgetCompatibility == 1.0
    case CompatiblePersonalities => c.personalityMatch > 0.8
    case SameLocation => c.locationProximity == 1.0
    case GreatScheduleOverlap => c.scheduleOverlap > 0.8
    case LimitedSharedInterests => c.interestSimilarity < 0.3
    case BudgetMismatch => c.budgetCompatibility < 0.5
    case LimitedScheduleOverlap => c.scheduleOverlap < 0.3
    case ConsiderCommunicationStyles => c.personalityMatch < 0.5
    case PlanMeetingLogistics => c.locationProximity < 0.5
    case VerifyProfileAuthenticity => c.verificationBonus < 1.0
    case _ => false
  }

  function AppliesTo(c: Components): Insight -> bool {
    (i: Insight) => Applies(c, i)
  }

  /** The rules of `order` that apply, in order. */
  function Insights(order: seq<Insight>, c: Components): (r: seq<Insight>)
    ensures |r| <= |order|
  {
    Filter(order, AppliesTo(c))
  }

  /** An insight is reported exactly when it is one of the list's rules and
      its condition holds. */
  lemma InsightsMembers(order: seq<Insight>, c: Components, i: Insight)
    ensures i in Insights(order, c) <==> i in order && Applies(c, i)
  {
    FilterMembers(order, AppliesTo(c), i);
  }

  /** No insight is listed twice. */
  lemma InsightsDistinct(c: Components)
    ensures NoDup(Insights(StrengthOrder, c))
    ensures NoDup(Insights(ConcernOrder, c))
    ensures NoDup(Insights(RecommendationOrder, c))
  {
    FilterNoDup(StrengthOrder, AppliesTo(c));
    FilterNoDup(ConcernOrder, AppliesTo(c));
    FilterNoDup(RecommendationOrder, AppliesTo(c));
  }

  /** `generateCompatibilityScore`. `None` stands for a NaN schedule score:
      its overall score is NaN, which the status thresholds reject. */
  function GenerateCompatibilityScore(current: User, candidate: User, currentTrip: Trip, candidateTrip: Trip)
    : (r: Option<CompatibilityScore>)
    ensures r.None? <==>
      DateOverlapScore(currentTrip.startDate, currentTrip.endDate, candidateTrip.startDate, candidateTrip.endDate).None?
  {
    var c := ScoreComponents(current, candidate, currentTrip, candidateTrip);
    if c.None? then None
    else Some(CompatibilityScore(Overall(c.value), c.value, Insights(StrengthOrder, c.value),
        Insights(ConcernOrder, c.value), Insights(RecommendationOrder, c.value)))
  }

  /** With plausible statistics the overall score is an integer in [0, 100]. */
  lemma CompatibilityScoreInRange(current: User, candidate: User, currentTrip: Trip, candidateTrip: Trip)
    requires PlausibleStats(candidate.stats)
    ensures var r := GenerateCompatibilityScore(current, candidate, currentTrip, candidateTrip);
      r.Some? ==> 0 <= r.value.overall <= 100 && UnitComponents(r.value.components)
  {
    var r := GenerateCompatibilityScore(current, candidate, currentTrip, candidateTrip);
    if r.Some? {
      ComponentsBounded(current, candidate, currentTrip, candidateTrip);
      OverallInRange(r.value.components);
    }
  }

  /** A scored pair's record: its components are the component functions
      applied to the pair, and the overall score and the insight lists are
      read off those components. */
  lemma ScoreParts(current: User, candidate: User, currentTrip: Trip, candidateTrip: Trip)
    requires GenerateCompatibilityScore(current, candidate, currentTrip, candidateTrip).Some?
    ensures var s := GenerateCompatibilityScore(current, candidate, currentTrip, candidateTrip).value;
      var c := s.components;
      && c.budgetCompatibility == BudgetCompatibility(currentTrip.budget, candidateTrip.budget)
      && c.personalityMatch == PersonalityCompatibility(current.profile.personality, candidate.profile.personality)
      && c.locationProximity == LocationProximity(current, candidate).score
      && c.verificationBonus == VerificationBonus(candidate.verificationStatus)
      && c.travelStyleMatch == TravelStyleMatch(current, candidate)
      && c.interestSimilarity == InterestSimilarity(current, candidate).score
      && s.overall == Overall(c)
      && s.strengths == Insights(StrengthOrder, c)
      && s.concerns == Insights(ConcernOrder, c)
      && s.recommendations == Insights(RecommendationOrder, c)
  {
  }

  /** The strength rules on budget, personality and location. */
  lemma StrengthRules(c: Components, a: Budget, b: Budget, pa: Option<Personality>, pb: Option<Personality>, p: Proximity)
    requires c.budgetCompatibility == BudgetCompatibility(a, b)
    requires c.personalityMatch == PersonalityCompatibility(pa, pb)
    requires c.locationProximity == ProximityScore(p)
    ensures PerfectBudgetMatch in Insights(StrengthOrder, c) <==> a == b
    ensures CompatiblePersonalities in Insights(StrengthOrder, c) <==> pa.Some? && pa == pb
    ensures SameLocation in Insights(StrengthOrder, c) <==> p == SameCity
  {
    InsightsMembers(StrengthOrder, c, PerfectBudgetMatch);
    InsightsMembers(StrengthOrder, c, CompatiblePersonalities);
    InsightsMembers(StrengthOrder, c, SameLocation);
  }

  /** The budget concern. */
  lemma ConcernRules(c: Components, a: Budget, b: Budget)
    requires c.budgetCompatibility == BudgetCompatibility(a, b)
    ensures BudgetMismatch in Insights(ConcernOrder, c) <==> OppositeBudgets(a, b)
  {
    InsightsMembers(ConcernOrder, c, BudgetMismatch);
  }

  /** The recommendation rules. */
  lemma RecommendationRules(c: Components, pa: Option<Personality>, pb: Option<Personality>, p: Proximity, v: Verification)
    requires c.personalityMatch == PersonalityCompatibility(pa, pb)
    requires c.locationProximity == ProximityScore(p)
    requires c.verificationBonus == VerificationBonus(v)
    ensures ConsiderCommunicationStyles in Insights(RecommendationOrder, c) <==> OppositePersonalities(pa, pb)
    ensures PlanMeetingLogistics in Insights(RecommendationOrder, c) <==> p == Different
    ensures VerifyProfileAuthenticity in Insights(RecommendationOrder, c) <==> v != Verified
  {
    InsightsMembers(RecommendationOrder, c, ConsiderCommunicationStyles);
    InsightsMembers(RecommendationOrder, c, PlanMeetingLogistics);
    VerifyProfileRule(c, v);
  }

  lemma VerifyProfileRule(c: Components, v: Verification)
    requires c.verificationBonus == VerificationBonus(v)
    ensures VerifyProfileAuthenticity in Insights(RecommendationOrder, c) <==> v != Verified
  {
    InsightsMembers(RecommendationOrder, c, VerifyProfileAuthenticity);
  }

  /* -------------------------------------------------------------- status */

  /** `getMatchStatus`: 80 and above is recommended, 60 and above pending. */
  function GetMatchStatus(score: int): (s: MatchStatus)
    ensures s != Matched
    ensures s == Recommended <==> 80 <= score
    ensures s == MatchStatus.Pending <==> 60 <= score < 80
    ensures s == Rejected <==> score < 60
  {
    if score >= 80 then Recommended else if score >= 60 then MatchStatus.Pending else Rejected
  }

  /** A higher score never gets a worse status. */
  lemma StatusMonotone(a: int, b: int)
    requires a <= b
    ensures GetMatchStatus(a) == Recommended ==> GetMatchStatus(b) == Recommended
    ensures GetMatchStatus(b) == Rejected ==> GetMatchStatus(a) == Rejected
  {
  }

  /* ------------------------------------------------------------- matches */

  /** The High / Medium / Low label of a compatibility value. */
  function LevelOf(x: real): Level {
    if x >= 0.8 then Level.High else if x >= 0.5 then Level.Medium else Level.Low
  }

  /** The budget label is High for equal budgets, Medium one step apart, Low otherwise. */
  lemma BudgetLabelByDistance(a: Budget, b: Budget)
    ensures LevelOf(BudgetCompatibility(a, b)) == Level.High <==> BudgetDistance(a, b) == 0
    ensures LevelOf(BudgetCompatibility(a, b)) == Level.Medium <==> BudgetDistance(a, b) == 1
    ensures LevelOf(BudgetCompatibility(a, b)) == Level.Low <==> BudgetDistance(a, b) == 2
  {
  }

  /** The personality label is Medium when either side is unset, Low only for
      an extrovert with an introvert. */
  lemma PersonalityLabel(a: Option<Personality>, b: Option<Personality>)
    ensures a.None? || b.None? ==> LevelOf(PersonalityCompatibility(a, b)) == Level.Medium
    ensures LevelOf(PersonalityCompatibility(a, b)) == Level.Low <==>
      OppositePersonalities(a, b)
  {
  }

  /** The details shown with a match. */
  function Details(current: User, currentTrip: Trip, e: Entry, cs: CompatibilityScore): MatchDetails {
    MatchDetails(
      InterestSimilarity(current, e.candidate).commonInterests,
      LevelOf(BudgetCompatibility(currentTrip.budget, e.trip.budget)),
      true,
      true,
      current.profile.travelStyle == e.candidate.profile.travelStyle,
      LevelOf(cs.components.personalityMatch),
      current.profile.languagePreference == e.candidate.profile.languagePreference,
      LocationProximity(current, e.candidate).proximity)
  }

  /** The match record built for one eligible candidate; `None` when its
      score is NaN. `now` stands for `new Date().toISOString()`. */
  function BuildMatch(current: User, currentTrip: Trip, e: Entry, now: string): (r: Option<Match>)
    ensures r.None? <==> GenerateCompatibilityScore(current, e.candidate, currentTrip, e.trip).None?
    ensures r.Some? ==>
      && r.value.matchId == MatchId(currentTrip.tripId, e.candidate.userId)
      && r.value.tripId == currentTrip.tripId
      && r.value.user == e.candidate
      && Some(r.value.compatibilityScore) == GenerateCompatibilityScore(current, e.candidate, currentTrip, e.trip)
      && r.value.score == r.value.compatibilityScore.overall
      && r.value.matchStatus == GetMatchStatus(r.value.score)
      && (r.value.chatEnabled <==> r.value.score >= 60)
  {
    var score := GenerateCompatibilityScore(current, e.candidate, currentTrip, e.trip);
    if score.None? then None
    else
      var cs := score.value;
      Some(Match(MatchId(currentTrip.tripId, e.candidate.userId), currentTrip.tripId, e.candidate,
        cs.overall, GetMatchStatus(cs.overall), cs, Details(current, currentTrip, e, cs), cs.overall >= 60, now))
  }

  /** With plausible statistics a built match scores in [0, 100]. */
  lemma BuildMatchScore(current: User, currentTrip: Trip, e: Entry, now: string)
    requires BuildMatch(current, currentTrip, e, now).Some?
    requires PlausibleStats(e.candidate.stats)
    ensures 0 <= BuildMatch(current, currentTrip, e, now).value.score <= 100
  {
    CompatibilityScoreInRange(current, e.candidate, currentTrip, e.trip);
  }

  /** The details shown with a match: both filters passed, the raw equality of
      the language preferences (two unset preferences count as equal), and
      the labels of the budget, personality and location scores. */
  lemma MatchDetailsRules(current: User, currentTrip: Trip, e: Entry, now: string)
    requires BuildMatch(current, currentTrip, e, now).Some?
    ensures var d := BuildMatch(current, currentTrip, e, now).value.matchDetails;
      && d.dateOverlap && d.destinationMatch
      && (d.styleMatch <==> current.profile.travelStyle == e.candidate.profile.travelStyle)
      && (d.languageMatch <==> current.profile.languagePreference == e.candidate.profile.languagePreference)
      && (current.profile.languagePreference.None? && e.candidate.profile.languagePreference.None? ==> d.languageMatch)
      && (d.budgetCompatibility == Level.High <==> currentTrip.budget == e.trip.budget)
      && (d.budgetCompatibility == Level.Low <==> OppositeBudgets(currentTrip.budget, e.trip.budget))
      && (d.personalityCompatibility == Level.Low <==>
            OppositePersonalities(current.profile.personality, e.candidate.profile.personality))
      && d.locationProximity == LocationProximity(current, e.candidate).proximity
      && d.interestMatch == InterestSimilarity(current, e.candidate).commonInterests
  {
    BudgetLabelByDistance(currentTrip.budget, e.trip.budget);
    PersonalityLabel(current.profile.personality, e.candidate.profile.personality);
    ScoreParts(current, e.candidate, currentTrip, e.trip);
  }

  /** Score every entry and keep those not rejected, in entry order. */
  function ScoreAll(current: User, currentTrip: Trip, entries: seq<Entry>, now: string): (r: seq<Match>)
    ensures |r| <= |entries|
  {
    if |entries| == 0 then []
    else
      var rest := ScoreAll(current, currentTrip, entries[1..], now);
      var m := BuildMatch(current, currentTrip, entries[0], now);
      if m.Some? && m.value.matchStatus != Rejected then [m.value] + rest else rest
  }

  /** A scored match is the match of one of the entries, not rejected, and
      every entry whose match is not rejected is kept. */
  lemma {:induction false} ScoreAllMembers(current: User, currentTrip: Trip, entries: seq<Entry>, now: string, m: Match)
    ensures m in ScoreAll(current, currentTrip, entries, now) <==>
      exists e :: e in entries && BuildMatch(current, currentTrip, e, now) == Some(m) && m.matchStatus != Rejected
    decreases |entries|
  {
    if |entries| > 0 {
      ScoreAllMembers(current, currentTrip, entries[1..], now, m);
      assert entries == [entries[0]] + entries[1..];
    }
  }

  /* -------------------------------------------------------------- groups */

  /** A match scoring at least 70, the bar for a suggested group. */
  predicate HighScore(m: Match) {
    m.score >= 70
  }

  function UsersOf(ms: seq<Match>): (r: seq<User>)
    ensures |r| == |ms|
    ensures forall i :: 0 <= i < |ms| ==> r[i] == ms[i].user
  {
    seq(|ms|, i requires 0 <= i < |ms| => ms[i].user)
  }

  /** `s.slice(0, n)`. */
  function Take<T>(s: seq<T>, n: nat): (r: seq<T>)
    ensures |r| == if |s| < n then |s| else n
    ensures r == s[..|r|]
  {
    if |s| <= n then s else s[..n]
  }

  /** `suggestGroups`: one planning group of the first four high scorers
      when there are at least two of them. */
  function SuggestGroups(matches: seq<Match>, currentTrip: Trip, now: string): (groups: seq<Group>)
    ensures |groups| <= 1
    ensures |groups| == 1 <==> Count(matches, HighScore) >= 2
    ensures |groups| == 1 ==>
      var g := groups[0];
      && 2 <= |g.members| <= 4
      && g.members == UsersOf(Take(Filter(matches, HighScore), 4))
      && g.maxMembers == 6 && g.status == Planning && g.createdBy == "system"
      && g.groupId == "group-" + currentTrip.tripId && g.tripId == currentTrip.tripId
      && g.groupType == currentTrip.travelType && g.budget == currentTrip.budget
      && g.startDate == currentTrip.startDate && g.endDate == currentTrip.endDate
      && g.destination == currentTrip.destination && g.createdAt == now
      && g.name == currentTrip.destination + " Adventure Group"
      && g.description == Some("Automatically suggested group for " + currentTrip.destination + " trip")
  {
    var high := Filter(matches, HighScore);
    if |high| >= 2 then
      [Group(
        "group-" + currentTrip.tripId,
        currentTrip.tripId,
        currentTrip.destination + " Adventure Group",
        UsersOf(Take(high, 4)),
        "system",
        now,
        Planning,
        6,
        currentTrip.travelType,
        currentTrip.destination,
        currentTrip.startDate,
        currentTrip.endDate,
        currentTrip.budget,
        Some("Automatically suggested group for " + currentTrip.destination + " trip"))]
    else []
  }

  /** Every group member is the user of a match scoring at least 70. */
  lemma GroupMembersScoreHigh(matches: seq<Match>, currentTrip: Trip, now: string, i: int)
    requires |SuggestGroups(matches, currentTrip, now)| == 1
    requires 0 <= i < |SuggestGroups(matches, currentTrip, now)[0].members|
    ensures exists m :: (m in matches && m.score >= 70
      && m.user == SuggestGroups(matches, currentTrip, now)[0].members[i])
  {
    var high := Filter(matches, HighScore);
    var m := high[i];
    FilterMembers(matches, HighScore, m);
  }

  /* ------------------------------------------------------------ pipeline */

  datatype PipelineResult = PipelineResult(
    matches: seq<Match>,
    groups: seq<Group>,
    summary: MatchSummary,
    algorithmVersion: string)

  /** The returned matches before sorting. */
  function Scored(current: User, currentTrip: Trip, users: seq<User>, trips: seq<Trip>, now: string): seq<Match> {
    ScoreAll(current, currentTrip, EligibleCandidates(current, currentTrip, users, trips), now)
  }

  /** `runAdvancedMatchingPipeline`; `now` stands for every timestamp it reads
      from the clock, and the processing time is not modelled. */
  function RunPipeline(current: User, currentTrip: Trip, users: seq<User>, trips: seq<Trip>, now: string)
    : (r: PipelineResult)
    ensures r.summary.totalCandidates == |Candidates(current, users, trips)|
    ensures r.summary.eligibleAfterFiltering == |EligibleCandidates(current, currentTrip, users, trips)|
    ensures r.matches == SortByScore(Scored(current, currentTrip, users, trips, now))
    ensures r.groups == SuggestGroups(r.matches, currentTrip, now)
    ensures r.summary.averageScore == AverageScore(r.matches)
    ensures r.summary.recommended == Count(r.matches, IsRecommended)
    ensures r.summary.matched == Count(r.matches, IsMatched)
    ensures r.algorithmVersion == AlgorithmVersion
  {
    var candidates := Candidates(current, users, trips);
    var filtered := EligibleCandidates(current, currentTrip, users, trips);
    var matches := SortByScore(Scored(current, currentTrip, users, trips, now));
    var summary := MatchSummary(
      |candidates|,
      |filtered|,
      Count(matches, IsRecommended),
      Count(matches, IsMatched),
      AverageScore(matches),
      now,
      Filters(currentTrip.destination, currentTrip.startDate, currentTrip.endDate, currentTrip.budget, currentTrip.travelType));
    PipelineResult(matches, SuggestGroups(matches, currentTrip, now), summary, AlgorithmVersion)
  }

  /** Every returned match is for another user whose first trip goes to the
      same normalised destination on overlapping dates; it is that pair's
      match record, recommended or pending, with chat enabled. */
  lemma PipelineSound(current: User, currentTrip: Trip, users: seq<User>, trips: seq<Trip>, now: string, m: Match)
    requires m in RunPipeline(current, currentTrip, users, trips, now).matches
    ensures m.user in users && m.user.userId != current.userId
    ensures FindTrip(trips, m.user.userId).Some?
    ensures Eligible(currentTrip, Entry(m.user, FindTrip(trips, m.user.userId).value))
    ensures BuildMatch(current, currentTrip, Entry(m.user, FindTrip(trips, m.user.userId).value), now) == Some(m)
    ensures m.matchId == MatchId(currentTrip.tripId, m.user.userId)
    ensures m.matchStatus == Recommended || m.matchStatus == MatchStatus.Pending
    ensures m.chatEnabled && m.score >= 60
  {
    var filtered := EligibleCandidates(current, currentTrip, users, trips);
    var scored := ScoreAll(current, currentTrip, filtered, now);
    SortMembers(scored, m);
    ScoreAllMembers(current, currentTrip, filtered, now, m);
    var e :| e in filtered && BuildMatch(current, currentTrip, e, now) == Some(m) && m.matchStatus != Rejected;
    EligibleCandidatesMembers(current, currentTrip, users, trips, e);
  }

  /** Every other user whose first trip is eligible and whose match scores at
      least 60 is returned. */
  lemma PipelineComplete(current: User, currentTrip: Trip, users: seq<User>, trips: seq<Trip>, now: string, u: User)
    requires u in users && u.userId != current.userId && FindTrip(trips, u.userId).Some?
    requires Eligible(currentTrip, Entry(u, FindTrip(trips, u.userId).value))
    requires BuildMatch(current, currentTrip, Entry(u, FindTrip(trips, u.userId).value), now).Some?
    requires BuildMatch(current, currentTrip, Entry(u, FindTrip(trips, u.userId).value), now).value.score >= 60
    ensures BuildMatch(current, currentTrip, Entry(u, FindTrip(trips, u.userId).value), now).value
      in RunPipeline(current, currentTrip, users, trips, now).matches
  {
    var e := Entry(u, FindTrip(trips, u.userId).value);
    var m := BuildMatch(current, currentTrip, e, now).value;
    var filtered := EligibleCandidates(current, currentTrip, users, trips);
    var scored := ScoreAll(current, currentTrip, filtered, now);
    EligibleCandidatesMembers(current, currentTrip, users, trips, e);
    ScoreAllMembers(current, currentTrip, filtered, now, m);
    SortMembers(scored, m);
  }

  /** The matches come sorted by score, highest first, and equal scores keep
      the order of the user list (the sort is stable). */
  lemma PipelineOrder(current: User, currentTrip: Trip, users: seq<User>, trips: seq<Trip>, now: string, v: int)
    ensures SortedByScore(RunPipeline(current, currentTrip, users, trips, now).matches)
    ensures Filter(RunPipeline(current, currentTrip, users, trips, now).matches, WithScore(v))
      == Filter(Scored(current, currentTrip, users, trips, now), WithScore(v))
  {
    SortSorted(Scored(current, currentTrip, users, trips, now));
    SortIsStable(Scored(current, currentTrip, users, trips, now), v);
  }

  /** The summary counters: no match is ever `Matched`, the recommended
      count is the number of matches scoring 80 or more, the matches are at
      most the eligible candidates, at most the candidates, at most the
      users; with no matches the average is 0 and no group is suggested. */
  lemma SummaryCounters(current: User, currentTrip: Trip, users: seq<User>, trips: seq<Trip>, now: string)
    ensures var r := RunPipeline(current, currentTrip, users, trips, now);
      && r.summary.matched == 0
      && r.summary.recommended == Count(r.matches, ScoresAtLeast(80))
      && r.summary.recommended <= |r.matches| <= r.summary.eligibleAfterFiltering
      && r.summary.eligibleAfterFiltering <= r.summary.totalCandidates <= |users|
      && (|r.matches| == 0 ==> r.summary.averageScore == 0 && r.groups == [])
  {
    var r := RunPipeline(current, currentTrip, users, trips, now);
    forall i | 0 <= i < |r.matches|
      ensures !IsMatched(r.matches[i])
      ensures IsRecommended(r.matches[i]) == ScoresAtLeast(80)(r.matches[i])
    {
      PipelineSound(current, currentTrip, users, trips, now, r.matches[i]);
    }
    NoneCounted(r.matches, IsMatched);
    CountAgree(r.matches, IsRecommended, ScoresAtLeast(80));
    EligibleNoMore(current, currentTrip, users, trips);
  }

  /** With plausible statistics every returned match scores between 60 and 100. */
  lemma PipelineScoreBounded(current: User, currentTrip: Trip, users: seq<User>, trips: seq<Trip>, now: string, m: Match)
    requires forall i :: 0 <= i < |users| ==> PlausibleStats(users[i].stats)
    requires m in RunPipeline(current, currentTrip, users, trips, now).matches
    ensures 60 <= m.score <= 100
  {
    PipelineSound(current, currentTrip, users, trips, now, m);
    var e := Entry(m.user, FindTrip(trips, m.user.userId).value);
    assert PlausibleStats(e.candidate.stats);
    BuildMatchScore(current, currentTrip, e, now);
  }

  /** With plausible statistics everywhere the average score is between 60 and 100. */
  lemma PipelineAverageBounded(current: User, currentTrip: Trip, users: seq<User>, trips: seq<Trip>, now: string)
    requires forall i :: 0 <= i < |users| ==> PlausibleStats(users[i].stats)
    requires |RunPipeline(current, currentTrip, users, trips, now).matches| > 0
    ensures 60 <= RunPipeline(current, currentTrip, users, trips, now).summary.averageScore <= 100
  {
    var ms := RunPipeline(current, currentTrip, users, trips, now).matches;
    forall i | 0 <= i < |ms| ensures 60 <= ms[i].score <= 100 {
      PipelineScoreBounded(current, currentTrip, users, trips, now, ms[i]);
    }
    AverageAtLeast(ms, 60);
    AverageScoreBounded(ms);
  }
}

=== FILE: app_state.dfy ===
/** The pure state transitions of the application context: creating a trip,
    re-running the matcher while keeping decided statuses, changing one
    match's status (with the greeting that opens a new conversation),
    sending a message, the review upsert and the place-request guard. The
    React state hooks become one immutable `AppState`; clock readings and
    `Date.now()` ids are parameters. */
module AppContext {
  import opened Common
  import opened Text
  import opened Types
  import opened Schedule
  import AdvancedMatching

  datatype AppState = AppState(
    currentTrip: Option<Trip>,
    matches: seq<Match>,
    groups: seq<Group>,
    summary: Option<MatchSummary>,
    validationErrors: seq<TripError>,
    messagesByMatch: map<string, seq<ChatMessage>>,
    reviews: seq<Review>,
    placeRequests: seq<PlaceRequest>)

  /* ----------------------------------------------------------- createTrip */

  /** `createTrip`: record the validation errors; adopt the trip only when
      there are none. The boolean is the return value. */
  function CreateTrip(st: AppState, trip: Trip): (r: (AppState, bool))
    ensures r.0.validationErrors == ValidateTripInput(trip)
    ensures r.1 <==> ValidateTripInput(trip) == []
    ensures r.1 ==> r.0.currentTrip == Some(trip)
    ensures !r.1 ==> r.0.currentTrip == st.currentTrip
    ensures r.0.(validationErrors := st.validationErrors, currentTrip := st.currentTrip) == st
  {
    var errors := ValidateTripInput(trip);
    var st' := st.(validationErrors := errors);
    if |errors| > 0 then (st', false) else (st'.(currentTrip := Some(trip)), true)
  }

  /** A trip with a blank destination is never adopted. */
  lemma BlankDestinationRefused(st: AppState, trip: Trip)
    requires IsBlank(trip.destination)
    ensures !CreateTrip(st, trip).1 && CreateTrip(st, trip).0.currentTrip == st.currentTrip
    ensures DestinationRequired in CreateTrip(st, trip).0.validationErrors
  {
  }

  /* ------------------------------------------------------- generateMatches */

  /** The status the previous run recorded for `id`. `new Map(entries)` keeps
      the last entry of a repeated key, so the search runs from the back. */
  function PreviousStatus(prev: seq<Match>, id: string): (r: Option<MatchStatus>)
    ensures r.None? <==> forall i :: 0 <= i < |prev| ==> prev[i].matchId != id
  {
    if |prev| == 0 then None
    else if prev[|prev| - 1].matchId == id then Some(prev[|prev| - 1].matchStatus)
    else PreviousStatus(prev[..|prev| - 1], id)
  }

  /** The last earlier match with `id` supplies the previous status. */
  lemma {:induction false} PreviousStatusIsLast(prev: seq<Match>, id: string, k: int)
    requires 0 <= k < |prev| && prev[k].matchId == id
    requires forall j :: k < j < |prev| ==> prev[j].matchId != id
    ensures PreviousStatus(prev, id) == Some(prev[k].matchStatus)
    decreases |prev|
  {
    if k < |prev| - 1 {
      PreviousStatusIsLast(prev[..|prev| - 1], id, k);
    }
  }

  /** A decided status (matched or rejected) survives a re-run; anything else
      takes the new run's status. */
  function KeptStatus(previous: Option<MatchStatus>, latest: MatchStatus): MatchStatus {
    if previous == Some(Matched) then Matched
    else if previous == Some(Rejected) then Rejected
    else latest
  }

  /** The new run's matches with the previous decisions carried over. */
  function MergeStatuses(prev: seq<Match>, latest: seq<Match>): (r: seq<Match>)
    ensures |r| == |latest|
    ensures forall i :: 0 <= i < |latest| ==>
      r[i] == latest[i].(matchStatus := KeptStatus(PreviousStatus(prev, latest[i].matchId), latest[i].matchStatus))
  {
    seq(|latest|, i requires 0 <= i < |latest| =>
      latest[i].(matchStatus := KeptStatus(PreviousStatus(prev, latest[i].matchId), latest[i].matchStatus)))
  }

  /** Only the status may differ from the new run; it is the previous status
      exactly when that was Matched or Rejected. */
  lemma MergeKeepsDecisions(prev: seq<Match>, latest: seq<Match>, i: int)
    requires 0 <= i < |latest|
    ensures var m := MergeStatuses(prev, latest)[i];
      var p := PreviousStatus(prev, latest[i].matchId);
      && m.(matchStatus := latest[i].matchStatus) == latest[i]
      && (p == Some(Matched) || p == Some(Rejected) ==> Some(m.matchStatus) == p)
      && (p != Some(Matched) && p != Some(Rejected) ==> m.matchStatus == latest[i].matchStatus)
  {
  }

  /** Re-running with the same previous matches changes nothing further. */
  lemma MergeIdempotent(prev: seq<Match>, latest: seq<Match>)
    ensures MergeStatuses(prev, MergeStatuses(prev, latest)) == MergeStatuses(prev, latest)
  {
    var once := MergeStatuses(prev, latest);
    var twice := MergeStatuses(prev, once);
    forall i | 0 <= i < |latest| ensures twice[i] == once[i] {
      assert once[i].matchId == latest[i].matchId;
    }
  }

  /** `generateMatches`: with a signed-in user and a trip (the override, else
      the current trip) run the live pipeline over the fixture lists `users`
      and `trips`, carry decided statuses over and replace groups and
      summary; otherwise do nothing. `now` stands for the clock. */
  function GenerateMatches(st: AppState, user: Option<User>, tripOverride: Option<Trip>,
                           users: seq<User>, trips: seq<Trip>, now: string): (r: AppState)
    ensures user.None? || (tripOverride.None? && st.currentTrip.None?) ==> r == st
    ensures r.currentTrip == st.currentTrip && r.messagesByMatch == st.messagesByMatch
    ensures r.reviews == st.reviews && r.placeRequests == st.placeRequests
    ensures r.validationErrors == st.validationErrors
  {
    var tripToMatch := if tripOverride.Some? then tripOverride else st.currentTrip;
    if user.None? || tripToMatch.None? then st
    else
      var result := AdvancedMatching.RunPipeline(user.value, tripToMatch.value, users, trips, now);
      st.(matches := MergeStatuses(st.matches, result.matches),
          groups := result.groups,
          summary := Some(result.summary))
  }

  /** After a run the matches are the pipeline's, in its order, each with
      its decided status carried over. */
  lemma GenerateMatchesResult(st: AppState, user: User, trip: Trip, users: seq<User>, trips: seq<Trip>, now: string)
    ensures var result := AdvancedMatching.RunPipeline(user, trip, users, trips, now);
      var r := GenerateMatches(st, Some(user), Some(trip), users, trips, now);
      && r.matches == MergeStatuses(st.matches, result.matches)
      && r.groups == result.groups && r.summary == Some(result.summary)
  {
  }

  /* ----------------------------------------------------- updateMatchStatus */

  /** `k` is the index of the last match with `id`. */
  predicate LastWithId(ms: seq<Match>, id: string, k: int) {
    0 <= k < |ms| && ms[k].matchId == id && forall j :: k < j < |ms| ==> ms[j].matchId != id
  }

  /** The user of the last match with `id`, or "" (the initial value of
      `matchedUserId`) when there is none. */
  function MatchedUserId(ms: seq<Match>, id: string): (r: string)
    ensures (forall i :: 0 <= i < |ms| ==> ms[i].matchId != id) ==> r == ""
    ensures r != "" ==> exists i :: 0 <= i < |ms| && ms[i].matchId == id && ms[i].user.userId == r
    ensures forall k :: LastWithId(ms, id, k) ==> r == ms[k].user.userId
  {
    if |ms| == 0 then ""
    else if ms[|ms| - 1].matchId == id then
      assert forall k :: LastWithId(ms, id, k) ==> k == |ms| - 1;
      ms[|ms| - 1].user.userId
    else
      assert forall k :: LastWithId(ms, id, k) ==> LastWithId(ms[..|ms| - 1], id, k);
      MatchedUserId(ms[..|ms| - 1], id)
  }

  /** Set the status of every match with `id`. */
  function SetStatus(ms: seq<Match>, id: string, status: MatchStatus): (r: seq<Match>)
    ensures |r| == |ms|
    ensures forall i :: 0 <= i < |ms| ==>
      r[i] == if ms[i].matchId == id then ms[i].(matchStatus := status) else ms[i]
  {
    seq(|ms|, i requires 0 <= i < |ms| => if ms[i].matchId == id then ms[i].(matchStatus := status) else ms[i])
  }

  /** Changing statuses does not change whose match it is. */
  lemma {:induction false} MatchedUserIdAfterSetStatus(ms: seq<Match>, id: string, status: MatchStatus, k: string)
    ensures MatchedUserId(SetStatus(ms, id, status), k) == MatchedUserId(ms, k)
    decreases |ms|
  {
    if |ms| > 0 {
      var init := ms[..|ms| - 1];
      var set' := SetStatus(ms, id, status);
      MatchedUserIdAfterSetStatus(init, id, status, k);
      assert set'[..|ms| - 1] == SetStatus(init, id, status);
      assert set'[|ms| - 1].matchId == ms[|ms| - 1].matchId && set'[|ms| - 1].user == ms[|ms| - 1].user;
    }
  }

  /** `prev[id]?.length`: the match already has messages. */
  predicate HasMessages(messages: map<string, seq<ChatMessage>>, id: string) {
    id in messages && |messages[id]| > 0
  }

  /** The opening message from the matched companion. */
  function Greeting(id: string, senderId: string, currentTrip: Option<Trip>, now: string): ChatMessage {
    var place := if currentTrip.Some? then currentTrip.value.destination else "the trip";
    ChatMessage(id + "-msg-1", id, senderId,
      "Hi! Glad we matched. Want to align a plan for " + place + "?",
      now, PlainText, false, None, [senderId], [])
  }

  /** `updateMatchStatus`. */
  function UpdateMatchStatus(st: AppState, id: string, status: MatchStatus, now: string): (r: AppState)
    ensures r.(matches := st.matches, messagesByMatch := st.messagesByMatch) == st
  {
    var userId := MatchedUserId(st.matches, id);
    var messages :=
      if status != Matched || HasMessages(st.messagesByMatch, id) || userId == "" then st.messagesByMatch
      else st.messagesByMatch[id := [Greeting(id, userId, st.currentTrip, now)]];
    st.(matches := SetStatus(st.matches, id, status), messagesByMatch := messages)
  }

  /** Only the matches with the given id change, and only in their status. */
  lemma UpdateOnlyTarget(st: AppState, id: string, status: MatchStatus, now: string, i: int)
    requires 0 <= i < |st.matches|
    ensures |UpdateMatchStatus(st, id, status, now).matches| == |st.matches|
    ensures st.matches[i].matchId != id ==> UpdateMatchStatus(st, id, status, now).matches[i] == st.matches[i]
    ensures st.matches[i].matchId == id ==>
      UpdateMatchStatus(st, id, status, now).matches[i] == st.matches[i].(matchStatus := status)
  {
  }

  /** Marking a match Matched seeds exactly one greeting from the companion,
      and only when the match exists (with a non-empty user id) and has no
      messages yet; no other conversation changes. */
  lemma GreetingSeeded(st: AppState, id: string, status: MatchStatus, now: string)
    ensures var r := UpdateMatchStatus(st, id, status, now);
      var userId := MatchedUserId(st.matches, id);
      && (forall k :: k != id ==> (k in r.messagesByMatch <==> k in st.messagesByMatch))
      && (forall k :: k != id && k in st.messagesByMatch ==> r.messagesByMatch[k] == st.messagesByMatch[k])
      && (status == Matched && !HasMessages(st.messagesByMatch, id) && userId != "" ==>
            && r.messagesByMatch[id] == [Greeting(id, userId, st.currentTrip, now)]
            && r.messagesByMatch[id][0].senderId == userId
            && r.messagesByMatch[id][0].readBy == [userId])
      && (status != Matched || HasMessages(st.messagesByMatch, id) || userId == "" ==>
            r.messagesByMatch == st.messagesByMatch)
  {
  }

  /** Marking Matched twice seeds only once. */
  lemma GreetingOnce(st: AppState, id: string, now: string, later: string)
    ensures var once := UpdateMatchStatus(st, id, Matched, now);
      UpdateMatchStatus(once, id, Matched, later).messagesByMatch == once.messagesByMatch
  {
    var once := UpdateMatchStatus(st, id, Matched, now);
    var userId := MatchedUserId(st.matches, id);
    MatchedUserIdAfterSetStatus(st.matches, id, Matched, id);
    if !HasMessages(st.messagesByMatch, id) && userId != "" {
      assert HasMessages(once.messagesByMatch, id);
    }
  }

  /* ----------------------------------------------------------- sendMessage */

  /** `messagesByMatch[id] ?? []`. */
  function MessagesFor(messages: map<string, seq<ChatMessage>>, id: string): seq<ChatMessage> {
    if id in messages then messages[id] else []
  }

  /** `sendMessage`: append a plain-text message, read by its sender, to the
      match's conversation. `stamp` stands for `Date.now()` in the id. */
  function SendMessage(st: AppState, id: string, senderId: string, text: string, stamp: string, now: string)
    : (r: AppState)
    ensures r.(messagesByMatch := st.messagesByMatch) == st
  {
    var message := ChatMessage(id + "-" + stamp, id, senderId, text, now, PlainText, false, None, [senderId], []);
    st.(messagesByMatch := st.messagesByMatch[id := MessagesFor(st.messagesByMatch, id) + [message]])
  }

  /** The message goes last in its own conversation; the others are untouched. */
  lemma SendAppends(st: AppState, id: string, senderId: string, text: string, stamp: string, now: string)
    ensures var after := SendMessage(st, id, senderId, text, stamp, now).messagesByMatch;
      && |MessagesFor(after, id)| == |MessagesFor(st.messagesByMatch, id)| + 1
      && MessagesFor(after, id)[..|MessagesFor(st.messagesByMatch, id)|] == MessagesFor(st.messagesByMatch, id)
      && Last(MessagesFor(after, id)).senderId == senderId
      && Last(MessagesFor(after, id)).text == text
      && Last(MessagesFor(after, id)).readBy == [senderId]
      && (forall k :: k != id ==> MessagesFor(after, k) == MessagesFor(st.messagesByMatch, k))
  {
  }

  function Last<T>(s: seq<T>): T
    requires |s| > 0
  {
    s[|s| - 1]
  }

  /* ------------------------------------------------------------- addReview */

  /** The first review by `reviewerId` for match `id`. */
  function FindReview(reviews: seq<Review>, id: string, reviewerId: string): (r: Option<nat>)
    ensures r.Some? ==>
      (r.value < |reviews| && reviews[r.value].matchId == Some(id) && reviews[r.value].reviewerId == reviewerId)
    ensures r.None? <==> forall i :: 0 <= i < |reviews| ==>
      !(reviews[i].matchId == Some(id) && reviews[i].reviewerId == reviewerId)
    ensures r.Some? ==> forall j :: 0 <= j < r.value ==>
      !(reviews[j].matchId == Some(id) && reviews[j].reviewerId == reviewerId)
  {
    if |reviews| == 0 then None
    else if reviews[0].matchId == Some(id) && reviews[0].reviewerId == reviewerId then Some(0)
    else
      var rest := FindReview(reviews[1..], id, reviewerId);
      if rest.Some? then Some(rest.value + 1) else None
  }

  /** `matches.find(item => item.matchId === id)`. */
  function FindMatch(ms: seq<Match>, id: string): (r: Option<Match>)
    ensures r.Some? ==> r.value in ms && r.value.matchId == id
    ensures r.None? <==> forall i :: 0 <= i < |ms| ==> ms[i].matchId != id
    ensures r.Some? ==> exists k :: 0 <= k < |ms| && ms[k] == r.value && forall j :: 0 <= j < k ==> ms[j].matchId != id
  {
    if |ms| == 0 then None
    else if ms[0].matchId == id then Some(ms[0])
    else
      var rest := FindMatch(ms[1..], id);
      assert rest.Some? ==> exists k :: 0 < k < |ms| && ms[k] == rest.value && forall j :: 0 <= j < k ==> ms[j].matchId != id by {
        if rest.Some? {
          var k :| 0 <= k < |ms[1..]| && ms[1..][k] == rest.value && forall j :: 0 <= j < k ==> ms[1..][j].matchId != id;
          assert ms[k + 1] == rest.value;
          assert forall j :: 0 <= j < k + 1 ==> ms[j].matchId != id by {
            forall j | 0 <= j < k + 1 ensures ms[j].matchId != id {
              if j > 0 { assert ms[j] == ms[1..][j - 1]; }
            }
          }
        }
      }
      rest
  }

  /** Rewrite every review carrying `reviewId` with the new rating, comment and time. */
  function Rewrite(reviews: seq<Review>, reviewId: string, rating: int, comment: string, now: string)
    : (r: seq<Review>)
    ensures |r| == |reviews|
    ensures forall i :: 0 <= i < |reviews| ==>
      r[i] == if reviews[i].reviewId == reviewId
              then reviews[i].(rating := rating, comment := comment, createdAt := now)
              else reviews[i]
  {
    seq(|reviews|, i requires 0 <= i < |reviews| =>
      if reviews[i].reviewId == reviewId
      then reviews[i].(rating := rating, comment := comment, createdAt := now)
      else reviews[i])
  }

  /** `addReview`: update the reviewer's existing review of the match in
      place, or append a public review with every category set to the rating,
      about the matched companion (the reviewer when the match is unknown). */
  function AddReview(st: AppState, id: string, reviewerId: string, rating: int, comment: string, now: string)
    : (r: AppState)
    ensures r.(reviews := st.reviews) == st
  {
    var existing := FindReview(st.reviews, id, reviewerId);
    if existing.Some? then
      st.(reviews := Rewrite(st.reviews, st.reviews[existing.value].reviewId, rating, comment, now))
    else
      var m := FindMatch(st.matches, id);
      var revieweeId := if m.Some? then m.value.user.userId else reviewerId;
      st.(reviews := st.reviews + [Review("r-" + id + "-" + reviewerId, Some(id), None, reviewerId, revieweeId,
        None, rating, comment, Categories(rating, rating, rating, rating), true, now, 0)])
  }

  /** At most one review per (match, reviewer) pair. */
  predicate OnePerPair(reviews: seq<Review>) {
    forall i, j :: 0 <= i < j < |reviews| ==>
      !(reviews[i].matchId == reviews[j].matchId && reviews[i].reviewerId == reviews[j].reviewerId)
  }

  /** The upsert keeps one review per (match, reviewer) pair. */
  lemma AddReviewOnePerPair(st: AppState, id: string, reviewerId: string, rating: int, comment: string, now: string)
    requires OnePerPair(st.reviews)
    ensures OnePerPair(AddReview(st, id, reviewerId, rating, comment, now).reviews)
  {
  }

  /** A first review is appended; a repeat call rewrites the existing one in
      place (and any other review that happens to share its id), leaving
      the rest alone. */
  lemma AddReviewUpsert(st: AppState, id: string, reviewerId: string, rating: int, comment: string, now: string)
    ensures var after := AddReview(st, id, reviewerId, rating, comment, now).reviews;
      var existing := FindReview(st.reviews, id, reviewerId);
      && (existing.None? ==>
            && |after| == |st.reviews| + 1 && after[..|st.reviews|] == st.reviews
            && Last(after).matchId == Some(id) && Last(after).reviewerId == reviewerId
            && Last(after).rating == rating && Last(after).comment == comment
            && Last(after).categories == Categories(rating, rating, rating, rating)
            && Last(after).isPublic && Last(after).helpfulVotes == 0)
      && (existing.Some? ==>
            var k := existing.value;
            && |after| == |st.reviews|
            && after[k] == st.reviews[k].(rating := rating, comment := comment, createdAt := now)
            && (forall j :: 0 <= j < |st.reviews| && st.reviews[j].reviewId != st.reviews[k].reviewId ==>
                  after[j] == st.reviews[j]))
  {
  }

  /** The review is about the matched companion when the match is known. */
  lemma AddReviewReviewee(st: AppState, id: string, reviewerId: string, rating: int, comment: string, now: string)
    requires FindReview(st.reviews, id, reviewerId).None?
    ensures var after := AddReview(st, id, reviewerId, rating, comment, now).reviews;
      && (FindMatch(st.matches, id).Some? ==> Last(after).revieweeId == FindMatch(st.matches, id).value.user.userId)
      && (FindMatch(st.matches, id).None? ==> Last(after).revieweeId == reviewerId)
  {
  }

  /** `k` is the position of the first review of match `id`. */
  predicate FirstReviewOf(reviews: seq<Review>, id: string, k: int) {
    0 <= k < |reviews| && reviews[k].matchId == Some(id) && forall j :: 0 <= j < k ==> reviews[j].matchId != Some(id)
  }

  /** `getReviewByMatch`: the first review of the match by anyone. */
  function ReviewByMatch(reviews: seq<Review>, id: string): (r: Option<Review>)
    ensures r.Some? ==> r.value in reviews && r.value.matchId == Some(id)
    ensures r.None? <==> forall i :: 0 <= i < |reviews| ==> reviews[i].matchId != Some(id)
    ensures r.Some? ==> exists k :: FirstReviewOf(reviews, id, k) && reviews[k] == r.value
  {
    if |reviews| == 0 then None
    else if reviews[0].matchId == Some(id) then Some(reviews[0])
    else
      var rest := ReviewByMatch(reviews[1..], id);
      assert rest.Some? ==> exists k :: FirstReviewOf(reviews, id, k) && reviews[k] == rest.value by {
        if rest.Some? {
          var k :| FirstReviewOf(reviews[1..], id, k) && reviews[1..][k] == rest.value;
          assert reviews[k + 1] == rest.value;
          assert FirstReviewOf(reviews, id, k + 1) by {
            forall j | 0 <= j < k + 1 ensures reviews[j].matchId != Some(id) {
              if j > 0 { assert reviews[j] == reviews[1..][j - 1]; }
            }
          }
        }
      }
      rest
  }

  /* ------------------------------------------------------- addPlaceRequest */

  /** The guard of `addPlaceRequest`. */
  predicate AcceptableRequest(req: PlaceRequest) {
    !IsBlank(req.destination) && !IsBlank(req.notes) && req.companionsNeeded >= 1
  }

  /** `addPlaceRequest`: refuse a blank destination, blank notes or fewer
      than one companion; otherwise put the request, with a latest id and
      time, in front. `stamp` stands for `Date.now()` in the id. */
  function AddPlaceRequest(st: AppState, req: PlaceRequest, stamp: string, now: string): (r: (AppState, bool))
    ensures r.0.(placeRequests := st.placeRequests) == st
  {
    if !AcceptableRequest(req) then (st, false)
    else (st.(placeRequests := [req.(requestId := "pr-" + stamp, createdAt := now)] + st.placeRequests), true)
  }

  /** A refused request changes nothing; an accepted one adds exactly one
      request, first, carrying the submitted fields. */
  lemma PlaceRequestGuard(st: AppState, req: PlaceRequest, stamp: string, now: string)
    ensures var (after, ok) := AddPlaceRequest(st, req, stamp, now);
      && (ok <==> !IsBlank(req.destination) && !IsBlank(req.notes) && req.companionsNeeded >= 1)
      && (!ok ==> after == st)
      && (ok ==>
            && |after.placeRequests| == |st.placeRequests| + 1
            && after.placeRequests[1..] == st.placeRequests
            && after.placeRequests[0] == req.(requestId := "pr-" + stamp, createdAt := now))
  {
  }
}

=== FILE: candidate_pool.dfy ===
/** The candidate selection and summary arithmetic that both pipelines
    perform with identical code: drop the requester, pair each other user
    with the first trip listed for them, drop those without one, keep the
    same destination (after `normalize`) with overlapping dates; match ids;
    the mean score. */
module CandidatePool {
  import opened Common
  import opened Text
  import opened Types
  import opened Schedule

  /** A candidate together with the first trip listed for them. */
  datatype Entry = Entry(candidate: User, trip: Trip)

  /** `userTrips.find(trip => trip.userId === userId)`. */
  function FindTrip(trips: seq<Trip>, userId: string): (r: Option<Trip>)
    ensures r.Some? ==> r.value in trips && r.value.userId == userId
    ensures r.None? <==> forall i :: 0 <= i < |trips| ==> trips[i].userId != userId
  {
    if |trips| == 0 then None
    else if trips[0].userId == userId then Some(trips[0])
    else FindTrip(trips[1..], userId)
  }

  /** The trip found is the first one listed for that user. */
  lemma {:induction false} FindTripIsFirst(trips: seq<Trip>, userId: string, k: int)
    requires 0 <= k < |trips| && trips[k].userId == userId
    requires forall j :: 0 <= j < k ==> trips[j].userId != userId
    ensures FindTrip(trips, userId) == Some(trips[k])
    decreases k
  {
    if k > 0 {
      FindTripIsFirst(trips[1..], userId, k - 1);
    }
  }

  /** Everyone but the requester who has a trip, paired with that trip, in list order. */
  function Candidates(current: User, users: seq<User>, trips: seq<Trip>): (r: seq<Entry>)
    ensures |r| <= |users|
    ensures forall i :: 0 <= i < |r| ==>
      r[i].candidate in users && r[i].candidate.userId != current.userId
      && FindTrip(trips, r[i].candidate.userId) == Some(r[i].trip)
  {
    if |users| == 0 then []
    else
      var rest := Candidates(current, users[1..], trips);
      var u := users[0];
      var t := FindTrip(trips, u.userId);
      if u.userId != current.userId && t.Some? then [Entry(u, t.value)] + rest else rest
  }

  /** Every other user with a trip is a candidate. */
  lemma {:induction false} CandidatesComplete(current: User, users: seq<User>, trips: seq<Trip>, u: User)
    requires u in users && u.userId != current.userId && FindTrip(trips, u.userId).Some?
    ensures Entry(u, FindTrip(trips, u.userId).value) in Candidates(current, users, trips)
    decreases |users|
  {
    if users[0] != u {
      assert u in users[1..];
      CandidatesComplete(current, users[1..], trips, u);
    }
  }

  /** Same normalised destination and overlapping dates. */
  predicate Eligible(currentTrip: Trip, e: Entry) {
    && Normalize(e.trip.destination) == Normalize(currentTrip.destination)
    && HasDateOverlap(currentTrip.startDate, currentTrip.endDate, e.trip.startDate, e.trip.endDate)
  }

  function EligibleFilter(currentTrip: Trip): Entry -> bool {
    (e: Entry) => Eligible(currentTrip, e)
  }

  /** The candidates that pass both filters, in list order. */
  function EligibleCandidates(current: User, currentTrip: Trip, users: seq<User>, trips: seq<Trip>): seq<Entry> {
    Filter(Candidates(current, users, trips), EligibleFilter(currentTrip))
  }

  /** An entry passes both filters exactly when it is another user, paired
      with their first trip, to the same destination on overlapping dates. */
  lemma EligibleCandidatesMembers(current: User, currentTrip: Trip, users: seq<User>, trips: seq<Trip>, e: Entry)
    ensures e in EligibleCandidates(current, currentTrip, users, trips) <==>
      && e.candidate in users && e.candidate.userId != current.userId
      && FindTrip(trips, e.candidate.userId) == Some(e.trip)
      && Eligible(currentTrip, e)
  {
    var candidates := Candidates(current, users, trips);
    FilterMembers(candidates, EligibleFilter(currentTrip), e);
    if e.candidate in users && e.candidate.userId != current.userId && FindTrip(trips, e.candidate.userId) == Some(e.trip) {
      CandidatesComplete(current, users, trips, e.candidate);
    }
  }

  /** The filters only shrink the candidate list. */
  lemma EligibleNoMore(current: User, currentTrip: Trip, users: seq<User>, trips: seq<Trip>)
    ensures |EligibleCandidates(current, currentTrip, users, trips)| <= |Candidates(current, users, trips)| <= |users|
  {
  }

  /** `m-<trip id>-<user id>`. */
  function MatchId(tripId: string, userId: string): string {
    "m-" + tripId + "-" + userId
  }

  /** Within one trip, distinct users get distinct match ids. */
  lemma MatchIdInjective(tripId: string, a: string, b: string)
    requires MatchId(tripId, a) == MatchId(tripId, b)
    ensures a == b
  {
    var n := |"m-" + tripId + "-"|;
    assert a == MatchId(tripId, a)[n..];
    assert b == MatchId(tripId, b)[n..];
  }

  function SumScores(ms: seq<Match>): int {
    if |ms| == 0 then 0 else ms[0].score + SumScores(ms[1..])
  }

  /** The rounded mean score, 0 for no matches. The richer pipeline writes
      `Math.round(sum / length || 0)` (0/0 is NaN, which `|| 0` replaces),
      the simpler one `length ? Math.round(sum / length) : 0`. */
  function AverageScore(ms: seq<Match>): int {
    if |ms| == 0 then 0 else Round(SumScores(ms) as real / |ms| as real)
  }

  predicate ScoresInRange(ms: seq<Match>) {
    forall i :: 0 <= i < |ms| ==> 0 <= ms[i].score <= 100
  }

  lemma {:induction false} SumScoresBounded(ms: seq<Match>)
    requires ScoresInRange(ms)
    ensures 0 <= SumScores(ms) <= 100 * |ms|
    decreases |ms|
  {
    if |ms| > 0 {
      assert ScoresInRange(ms[1..]);
      SumScoresBounded(ms[1..]);
    }
  }

  /** The mean of scores in [0, 100] is in [0, 100]. */
  lemma AverageScoreBounded(ms: seq<Match>)
    requires ScoresInRange(ms)
    ensures 0 <= AverageScore(ms) <= 100
  {
    if |ms| > 0 {
      SumScoresBounded(ms);
      QuotientBounds(SumScores(ms) as real, |ms| as real, 0.0, 100.0);
    }
  }

  lemma {:induction false} SumScoresAtLeast(ms: seq<Match>, low: int)
    requires forall i :: 0 <= i < |ms| ==> ms[i].score >= low
    ensures SumScores(ms) >= low * |ms|
    decreases |ms|
  {
    if |ms| > 0 {
      SumScoresAtLeast(ms[1..], low);
    }
  }

  /** When every match scores at least `low`, so does the mean. */
  lemma AverageAtLeast(ms: seq<Match>, low: int)
    requires |ms| > 0 && ScoresInRange(ms) && low <= 100
    requires forall i :: 0 <= i < |ms| ==> ms[i].score >= low
    ensures AverageScore(ms) >= low
  {
    SumScoresAtLeast(ms, low);
    SumScoresBounded(ms);
    assert (low * |ms|) as real == low as real * |ms| as real;
    QuotientBounds(SumScores(ms) as real, |ms| as real, low as real, 100.0);
  }

  function IsRecommended(m: Match): bool {
    m.matchStatus == Recommended
  }

  function IsMatched(m: Match): bool {
    m.matchStatus == Matched
  }

  /** The matches scoring at least `t`. */
  function ScoresAtLeast(t: int): Match -> bool {
    (m: Match) => m.score >= t
  }

  /** Two tests that agree on every element count the same elements. */
  lemma {:induction false} CountAgree(s: seq<Match>, p: Match -> bool, q: Match -> bool)
    requires forall i :: 0 <= i < |s| ==> p(s[i]) == q(s[i])
    ensures Count(s, p) == Count(s, q)
    decreases |s|
  {
    if |s| > 0 {
      CountAgree(s[1..], p, q);
    }
  }

  /** A predicate false on every element counts nothing. */
  lemma {:induction false} NoneCounted(s: seq<Match>, p: Match -> bool)
    requires forall i :: 0 <= i < |s| ==> !p(s[i])
    ensures Count(s, p) == 0
    decreases |s|
  {
    if |s| > 0 {
      NoneCounted(s[1..], p);
    }
  }
}

=== FILE: chat.dfy ===
/** The chat store (`ChatManager`): chats, their message lists, and the
    per-message read receipts and reactions.

    In the modelled code a chat's `lastMessage` is the very object held in
    the message list, so later in-place changes (edits, read receipts,
    reactions) show through it. A soft delete puts a shallow copy in the
    list and leaves `lastMessage` pointing at the original; the copy and
    the original still share one `readBy` array, which `markAsRead` grows
    in place, whereas a reaction change gives the copy a new array.
    `LastRef` keeps exactly that distinction: `Live(i)` follows slot `i` of
    the list, `Stale(i, m)` is the detached original `m`, whose readers are
    those of slot `i`. */
module ChatStore {
  import opened Common
  import opened Text
  import opened Types

  datatype LastRef = Live(index: nat) | Stale(index: nat, message: ChatMessage)

  datatype Store = Store(
    chats: map<string, Chat>,
    messages: map<string, seq<ChatMessage>>,
    last: map<string, LastRef>)

  datatype ChatError = NotInChat

  function ErrorMessage(e: ChatError): string {
    match e
    case NotInChat => "Chat not found or user not in chat"
  }

  /** `this.messages.get(chatId) || []`. */
  function MessagesOf(s: Store, chatId: string): seq<ChatMessage> {
    if chatId in s.messages then s.messages[chatId] else []
  }

  /** The chat's `lastMessage`, as the chat object would show it. */
  function LastMessage(s: Store, chatId: string): Option<ChatMessage> {
    if chatId !in s.chats || chatId !in s.last || s.last[chatId].index >= |MessagesOf(s, chatId)| then None
    else
      var slot := MessagesOf(s, chatId)[s.last[chatId].index];
      match s.last[chatId]
      case Stale(_, m) => Some(m.(readBy := slot.readBy))
      case Live(_) => Some(slot)
  }

  /** The first message with `messageId` (`find` / `findIndex`). */
  function MessageIndex(ms: seq<ChatMessage>, messageId: string): (r: Option<nat>)
    ensures r.Some? ==> r.value < |ms| && ms[r.value].messageId == messageId
    ensures r.Some? ==> forall j :: 0 <= j < r.value ==> ms[j].messageId != messageId
    ensures r.None? <==> forall j :: 0 <= j < |ms| ==> ms[j].messageId != messageId
  {
    FirstIndex(ms, (m: ChatMessage) => m.messageId == messageId)
  }

  function Reactor(r: Reaction): string {
    r.userId
  }

  /** What every stored message keeps: each reader listed once, and at most
      one reaction per user. */
  predicate MessageWf(m: ChatMessage) {
    NoDup(m.readBy) && DistinctBy(m.reactions, Reactor)
  }

  predicate Wf(s: Store) {
    forall c, i :: c in s.messages && 0 <= i < |s.messages[c]| ==> MessageWf(s.messages[c][i])
  }

  /* --------------------------------------------------------------- create */

  /** `createChat`: a new active chat with an empty message list. The id is
      built from the clock stamp and the participants; a colliding id
      replaces the earlier chat and its messages. */
  function CreateChat(s: Store, participants: seq<string>, kind: ChatKind, matchId: Option<string>,
                      groupId: Option<string>, stamp: string, now: string): (r: (Store, Chat))
    ensures r.0.chats == s.chats[r.1.chatId := r.1]
    ensures r.1.participants == participants && r.1.isActive && r.1.kind == kind
    ensures MessagesOf(r.0, r.1.chatId) == [] && LastMessage(r.0, r.1.chatId) == None
    ensures forall c :: c != r.1.chatId ==> MessagesOf(r.0, c) == MessagesOf(s, c) && LastMessage(r.0, c) == LastMessage(s, c)
  {
    var chatId := "chat-" + stamp + "-" + Join(participants, "-");
    var chat := Chat(chatId, participants, matchId, groupId, kind, now, true);
    (Store(s.chats[chatId := chat], s.messages[chatId := []], s.last - {chatId}), chat)
  }

  lemma CreateKeepsWf(s: Store, participants: seq<string>, kind: ChatKind, matchId: Option<string>,
                      groupId: Option<string>, stamp: string, now: string)
    requires Wf(s)
    ensures Wf(CreateChat(s, participants, kind, matchId, groupId, stamp, now).0)
  {
  }

  /* ----------------------------------------------------------------- send */

  /** `sendMessage`: only a participant of an existing chat may send; the
      message is appended, read by its sender only, and becomes the chat's
      last message. */
  function SendMessage(s: Store, chatId: string, senderId: string, text: string, kind: MessageKind,
                       stamp: string, now: string): (r: Result<(Store, ChatMessage), ChatError>)
    ensures r.Err? <==> chatId !in s.chats || senderId !in s.chats[chatId].participants
  {
    if chatId !in s.chats || senderId !in s.chats[chatId].participants then Err(NotInChat)
    else
      var m := ChatMessage("msg-" + stamp + "-" + senderId, chatId, senderId, text, now, kind, false, None, [senderId], []);
      var ms := MessagesOf(s, chatId);
      Ok((Store(s.chats, s.messages[chatId := ms + [m]], s.last[chatId := Live(|ms|)]), m))
  }

  /** A sent message goes last, carries the text, is unedited, read by the
      sender alone, has no reactions and is the new last message; no other
      chat changes. */
  lemma SendAppends(s: Store, chatId: string, senderId: string, text: string, kind: MessageKind,
                    stamp: string, now: string)
    requires SendMessage(s, chatId, senderId, text, kind, stamp, now).Ok?
    ensures var (s', m) := SendMessage(s, chatId, senderId, text, kind, stamp, now).value;
      && MessagesOf(s', chatId) == MessagesOf(s, chatId) + [m]
      && m.senderId == senderId && m.text == text && m.messageType == kind
      && m.readBy == [senderId] && !m.isEdited && m.reactions == []
      && LastMessage(s', chatId) == Some(m)
      && s'.chats == s.chats
      && (forall c :: c != chatId ==> MessagesOf(s', c) == MessagesOf(s, c) && LastMessage(s', c) == LastMessage(s, c))
  {
  }

  lemma SendKeepsWf(s: Store, chatId: string, senderId: string, text: string, kind: MessageKind,
                    stamp: string, now: string)
    requires Wf(s)
    requires SendMessage(s, chatId, senderId, text, kind, stamp, now).Ok?
    ensures Wf(SendMessage(s, chatId, senderId, text, kind, stamp, now).value.0)
  {
  }

  /* ----------------------------------------------------------------- edit */

  /** `editMessage`: the sender may change the text of the first message with
      that id; the chat's last message follows the edit when it has that id. */
  function EditMessage(s: Store, chatId: string, messageId: string, senderId: string, newText: string,
                       now: string): (r: (Store, Option<ChatMessage>))
    ensures r.1.None? ==> r.0 == s
    ensures r.0.chats == s.chats
  {
    if chatId !in s.messages then (s, None)
    else
      var ms := s.messages[chatId];
      var k := MessageIndex(ms, messageId);
      if k.None? || ms[k.value].senderId != senderId then (s, None)
      else
        var edited := ms[k.value].(text := newText, isEdited := true, editedAt := Some(now));
        var lm := LastMessage(s, chatId);
        var last' := if lm.Some? && lm.value.messageId == messageId then s.last[chatId := Live(k.value)] else s.last;
        (Store(s.chats, s.messages[chatId := ms[k.value := edited]], last'), Some(edited))
  }

  /** Editing succeeds exactly for the sender of the message found, changes
      only its text and edit marks, and touches no other message or chat. */
  lemma EditOnlyBySender(s: Store, chatId: string, messageId: string, senderId: string, newText: string, now: string)
    ensures var (s', result) := EditMessage(s, chatId, messageId, senderId, newText, now);
      var ms := MessagesOf(s, chatId);
      var k := MessageIndex(ms, messageId);
      && (result.Some? <==> chatId in s.messages && k.Some? && ms[k.value].senderId == senderId)
      && (result.Some? ==>
            && |MessagesOf(s', chatId)| == |ms|
            && MessagesOf(s', chatId)[k.value] == result.value
            && result.value.text == newText && result.value.isEdited && result.value.editedAt == Some(now)
            && result.value.(text := ms[k.value].text, isEdited := ms[k.value].isEdited,
                             editedAt := ms[k.value].editedAt) == ms[k.value]
            && (forall j :: 0 <= j < |ms| && j != k.value ==> MessagesOf(s', chatId)[j] == ms[j])
            && (forall c :: c != chatId ==> MessagesOf(s', c) == MessagesOf(s, c) && LastMessage(s', c) == LastMessage(s, c)))
  {
  }

  /** Editing the chat's last message shows in the chat's preview. */
  lemma EditRefreshesLast(s: Store, chatId: string, messageId: string, senderId: string, newText: string, now: string)
    requires EditMessage(s, chatId, messageId, senderId, newText, now).1.Some?
    requires LastMessage(s, chatId).Some? && LastMessage(s, chatId).value.messageId == messageId
    ensures var (s', result) := EditMessage(s, chatId, messageId, senderId, newText, now);
      LastMessage(s', chatId) == result
  {
  }

  lemma EditKeepsWf(s: Store, chatId: string, messageId: string, senderId: string, newText: string, now: string)
    requires Wf(s)
    ensures Wf(EditMessage(s, chatId, messageId, senderId, newText, now).0)
  {
  }

  /* --------------------------------------------------------------- delete */

  const DeletedText: string := "This message has been deleted"

  /** `deleteMessage`: a soft delete by the sender; the message stays in
      place as a plain-text placeholder. */
  function DeleteMessage(s: Store, chatId: string, messageId: string, senderId: string, now: string)
    : (r: (Store, bool))
    ensures !r.1 ==> r.0 == s
    ensures r.0.chats == s.chats
  {
    if chatId !in s.messages then (s, false)
    else
      var ms := s.messages[chatId];
      var k := MessageIndex(ms, messageId);
      if k.None? || ms[k.value].senderId != senderId then (s, false)
      else
        var original := ms[k.value];
        var placeholder := original.(text := DeletedText, messageType := PlainText, isEdited := true, editedAt := Some(now));
        var last' := if chatId in s.last && s.last[chatId] == Live(k.value) then s.last[chatId := Stale(k.value, original)] else s.last;
        (Store(s.chats, s.messages[chatId := ms[k.value := placeholder]], last'), true)
  }

  /** Deleting succeeds exactly for the sender, keeps the number of messages,
      replaces only the target by the placeholder (same id, sender, readers
      and reactions), and leaves every chat's last message as it was: a
      deleted last message still shows its original text there. */
  lemma DeleteIsSoft(s: Store, chatId: string, messageId: string, senderId: string, now: string)
    ensures var (s', ok) := DeleteMessage(s, chatId, messageId, senderId, now);
      var ms := MessagesOf(s, chatId);
      var k := MessageIndex(ms, messageId);
      && (ok <==> chatId in s.messages && k.Some? && ms[k.value].senderId == senderId)
      && (ok ==>
            && |MessagesOf(s', chatId)| == |ms|
            && MessagesOf(s', chatId)[k.value].text == DeletedText
            && MessagesOf(s', chatId)[k.value].messageType == PlainText
            && MessagesOf(s', chatId)[k.value].isEdited
            && MessagesOf(s', chatId)[k.value].messageId == ms[k.value].messageId
            && MessagesOf(s', chatId)[k.value].senderId == ms[k.value].senderId
            && MessagesOf(s', chatId)[k.value].readBy == ms[k.value].readBy
            && MessagesOf(s', chatId)[k.value].reactions == ms[k.value].reactions
            && (forall j :: 0 <= j < |ms| && j != k.value ==> MessagesOf(s', chatId)[j] == ms[j])
            && (forall c :: c != chatId ==> MessagesOf(s', c) == MessagesOf(s, c)))
  {
  }

  lemma DeleteKeepsLast(s: Store, chatId: string, messageId: string, senderId: string, now: string, c: string)
    ensures LastMessage(DeleteMessage(s, chatId, messageId, senderId, now).0, c) == LastMessage(s, c)
  {
  }

  lemma DeleteKeepsWf(s: Store, chatId: string, messageId: string, senderId: string, now: string)
    requires Wf(s)
    ensures Wf(DeleteMessage(s, chatId, messageId, senderId, now).0)
  {
  }

  /* ------------------------------------------------------------ read marks */

  function MarkRead(m: ChatMessage, userId: string): ChatMessage {
    if userId in m.readBy then m else m.(readBy := m.readBy + [userId])
  }

  /** `markAsRead`: the user joins the readers of every message of the chat,
      and so of its preview, even when that is a deleted message's original. */
  function MarkAsRead(s: Store, chatId: string, userId: string): (r: Store)
    ensures r.chats == s.chats && r.last == s.last
    ensures LastMessage(r, chatId) == (if LastMessage(s, chatId).Some? then Some(MarkRead(LastMessage(s, chatId).value, userId)) else None)
    ensures forall c :: c != chatId ==> LastMessage(r, c) == LastMessage(s, c)
    ensures |MessagesOf(r, chatId)| == |MessagesOf(s, chatId)|
    ensures forall c :: c != chatId ==> MessagesOf(r, c) == MessagesOf(s, c)
  {
    if chatId !in s.messages then s
    else s.(messages := s.messages[chatId := Map(s.messages[chatId], (m: ChatMessage) => MarkRead(m, userId))])
  }

  /** Afterwards the user is among the readers of every message of the chat,
      exactly once when readers were listed once before, and nothing but the
      readers changed. */
  lemma MarkAsReadEveryMessage(s: Store, chatId: string, userId: string)
    ensures var after := MessagesOf(MarkAsRead(s, chatId, userId), chatId);
      var before := MessagesOf(s, chatId);
      forall i :: 0 <= i < |after| ==>
        && userId in after[i].readBy
        && after[i].(readBy := before[i].readBy) == before[i]
        && (NoDup(before[i].readBy) ==> NoDup(after[i].readBy))
        && (forall v :: v in before[i].readBy ==> v in after[i].readBy)
  {
    var before := MessagesOf(s, chatId);
    var after := MessagesOf(MarkAsRead(s, chatId, userId), chatId);
    forall i | 0 <= i < |after|
      ensures NoDup(before[i].readBy) ==> NoDup(after[i].readBy)
    {
      var rb := before[i].readBy;
      if NoDup(rb) && userId !in rb {
        assert after[i].readBy == rb + [userId];
        assert forall k :: 0 <= k < |rb| ==> (rb + [userId])[k] == rb[k];
      }
    }
  }

  /** Marking twice is the same as marking once. */
  lemma MarkAsReadIdempotent(s: Store, chatId: string, userId: string)
    ensures MarkAsRead(MarkAsRead(s, chatId, userId), chatId, userId) == MarkAsRead(s, chatId, userId)
  {
    if chatId in s.messages {
      var once := MarkAsRead(s, chatId, userId);
      var twice := MarkAsRead(once, chatId, userId);
      assert twice.messages[chatId] == once.messages[chatId];
    }
  }

  /** A deleted last message keeps its original text in the preview, yet a
      later `markAsRead` still reaches it: the reader shows in the preview
      as in the placeholder. */
  lemma DeleteThenMarkAsRead(s: Store, chatId: string, messageId: string, senderId: string, now: string,
                             userId: string)
    requires LastMessage(s, chatId).Some?
    ensures var s' := MarkAsRead(DeleteMessage(s, chatId, messageId, senderId, now).0, chatId, userId);
      && LastMessage(s', chatId).Some?
      && LastMessage(s', chatId).value.text == LastMessage(s, chatId).value.text
      && userId in LastMessage(s', chatId).value.readBy
  {
    DeleteKeepsLast(s, chatId, messageId, senderId, now, chatId);
  }

  lemma MarkAsReadKeepsWf(s: Store, chatId: string, userId: string)
    requires Wf(s)
    ensures Wf(MarkAsRead(s, chatId, userId))
  {
    var r := MarkAsRead(s, chatId, userId);
    forall c, i | c in r.messages && 0 <= i < |r.messages[c]|
      ensures MessageWf(r.messages[c][i])
    {
      if c == chatId {
        MarkAsReadEveryMessage(s, chatId, userId);
        assert MessagesOf(r, c)[i] == r.messages[c][i];
        assert MessageWf(MessagesOf(s, c)[i]);
      }
    }
  }

  /* ---------------------------------------------------------------- unread */

  predicate Unread(m: ChatMessage, userId: string) {
    userId !in m.readBy && m.senderId != userId
  }

  /** `getUnreadCount`: messages of others the user has not read. */
  function UnreadCount(s: Store, chatId: string, userId: string): (n: nat)
    ensures n <= |MessagesOf(s, chatId)|
  {
    Count(MessagesOf(s, chatId), (m: ChatMessage) => Unread(m, userId))
  }

  /** A user's own messages never count as unread for them. */
  lemma {:induction false} UnreadExcludesOwn(ms: seq<ChatMessage>, userId: string)
    ensures Count(ms, (m: ChatMessage) => Unread(m, userId)) <= Count(ms, (m: ChatMessage) => m.senderId != userId)
    decreases |ms|
  {
    if |ms| > 0 {
      UnreadExcludesOwn(ms[1..], userId);
    }
  }

  /** Nothing is unread for a user right after they mark the chat read. */
  lemma UnreadZeroAfterMarkAsRead(s: Store, chatId: string, userId: string)
    ensures UnreadCount(MarkAsRead(s, chatId, userId), chatId, userId) == 0
  {
    var ms := MessagesOf(MarkAsRead(s, chatId, userId), chatId);
    var p := (m: ChatMessage) => Unread(m, userId);
    MarkAsReadEveryMessage(s, chatId, userId);
    FilterEmpty(ms, p);
  }

  /** Sending adds one unread message for everyone but the sender. */
  lemma SendUnread(s: Store, chatId: string, senderId: string, text: string, kind: MessageKind,
                   stamp: string, now: string, userId: string)
    requires SendMessage(s, chatId, senderId, text, kind, stamp, now).Ok?
    ensures var s' := SendMessage(s, chatId, senderId, text, kind, stamp, now).value.0;
      UnreadCount(s', chatId, userId) == UnreadCount(s, chatId, userId) + (if userId == senderId then 0 else 1)
  {
    var (s', m) := SendMessage(s, chatId, senderId, text, kind, stamp, now).value;
    SendAppends(s, chatId, senderId, text, kind, stamp, now);
    var p := (x: ChatMessage) => Unread(x, userId);
    CountOfAppend(MessagesOf(s, chatId), [m], p);
    assert [m][1..] == [];
  }

  /* -------------------------------------------------------------- reactions */

  function WithoutReactionOf(rs: seq<Reaction>, userId: string): (r: seq<Reaction>)
    ensures forall i :: 0 <= i < |r| ==> r[i].userId != userId
  {
    Filter(rs, (x: Reaction) => x.userId != userId)
  }

  /** Replace the first message with `messageId` by `f` of it. */
  function UpdateMessage(s: Store, chatId: string, messageId: string, updated: ChatMessage -> ChatMessage)
    : (r: (Store, Option<ChatMessage>))
    ensures r.1.None? ==> r.0 == s
    ensures r.0.chats == s.chats && r.0.last == s.last
  {
    if chatId !in s.messages then (s, None)
    else
      var ms := s.messages[chatId];
      var k := MessageIndex(ms, messageId);
      if k.None? then (s, None)
      else
        var m := updated(ms[k.value]);
        (s.(messages := s.messages[chatId := ms[k.value := m]]), Some(m))
  }

  /** `addReaction`: the user's earlier reaction, if any, makes way for the new one. */
  function AddReaction(s: Store, chatId: string, messageId: string, userId: string, emoji: string)
    : (r: (Store, Option<ChatMessage>))
    ensures r.1.None? ==> r.0 == s
  {
    UpdateMessage(s, chatId, messageId,
      (m: ChatMessage) => m.(reactions := WithoutReactionOf(m.reactions, userId) + [Reaction(emoji, userId)]))
  }

  /** `removeReaction`: the user's reaction goes. */
  function RemoveReaction(s: Store, chatId: string, messageId: string, userId: string)
    : (r: (Store, Option<ChatMessage>))
    ensures r.1.None? ==> r.0 == s
  {
    UpdateMessage(s, chatId, messageId, (m: ChatMessage) => m.(reactions := WithoutReactionOf(m.reactions, userId)))
  }

  /** Removing a user's reactions keeps everyone else's and their keys distinct. */
  lemma WithoutReactionOfKeeps(rs: seq<Reaction>, userId: string)
    ensures forall x :: x in WithoutReactionOf(rs, userId) <==> x in rs && x.userId != userId
    ensures DistinctBy(rs, Reactor) ==> DistinctBy(WithoutReactionOf(rs, userId), Reactor)
  {
    var p := (x: Reaction) => x.userId != userId;
    forall x
      ensures x in WithoutReactionOf(rs, userId) <==> x in rs && x.userId != userId
    {
      FilterMembers(rs, p, x);
    }
    if DistinctBy(rs, Reactor) {
      FilterDistinctBy(rs, p, Reactor);
    }
  }

  /** After `addReaction` the message carries the user's new reaction and no
      other of theirs, everyone else's reactions are as before, and at most
      one reaction per user still holds. */
  lemma AddReactionLatestWins(s: Store, chatId: string, messageId: string, userId: string, emoji: string)
    requires AddReaction(s, chatId, messageId, userId, emoji).1.Some?
    ensures var (s', result) := AddReaction(s, chatId, messageId, userId, emoji);
      var ms := MessagesOf(s, chatId);
      var k := MessageIndex(ms, messageId).value;
      var m' := result.value;
      && MessagesOf(s', chatId) == ms[k := m']
      && m'.(reactions := ms[k].reactions) == ms[k]
      && Reaction(emoji, userId) in m'.reactions
      && (forall x :: x in m'.reactions && x.userId == userId ==> x == Reaction(emoji, userId))
      && (forall x: Reaction :: x.userId != userId ==> (x in m'.reactions <==> x in ms[k].reactions))
      && (DistinctBy(ms[k].reactions, Reactor) ==> DistinctBy(m'.reactions, Reactor))
  {
    var ms := MessagesOf(s, chatId);
    var k := MessageIndex(ms, messageId).value;
    var kept := WithoutReactionOf(ms[k].reactions, userId);
    WithoutReactionOfKeeps(ms[k].reactions, userId);
    var rs := kept + [Reaction(emoji, userId)];
    assert forall i :: 0 <= i < |kept| ==> rs[i] == kept[i];
  }

  /** After `removeReaction` the user has no reaction on the message and
      everyone else's are as before. */
  lemma RemoveReactionClears(s: Store, chatId: string, messageId: string, userId: string)
    requires RemoveReaction(s, chatId, messageId, userId).1.Some?
    ensures var (s', result) := RemoveReaction(s, chatId, messageId, userId);
      var ms := MessagesOf(s, chatId);
      var k := MessageIndex(ms, messageId).value;
      var m' := result.value;
      && MessagesOf(s', chatId) == ms[k := m']
      && m'.(reactions := ms[k].reactions) == ms[k]
      && (forall x :: x in m'.reactions ==> x.userId != userId)
      && (forall x: Reaction :: x.userId != userId ==> (x in m'.reactions <==> x in ms[k].reactions))
      && (DistinctBy(ms[k].reactions, Reactor) ==> DistinctBy(m'.reactions, Reactor))
  {
    var ms := MessagesOf(s, chatId);
    var k := MessageIndex(ms, messageId).value;
    WithoutReactionOfKeeps(ms[k].reactions, userId);
  }

  lemma ReactionsKeepWf(s: Store, chatId: string, messageId: string, userId: string, emoji: string)
    requires Wf(s)
    ensures Wf(AddReaction(s, chatId, messageId, userId, emoji).0)
    ensures Wf(RemoveReaction(s, chatId, messageId, userId).0)
  {
    if AddReaction(s, chatId, messageId, userId, emoji).1.Some? {
      AddReactionLatestWins(s, chatId, messageId, userId, emoji);
      assert MessageWf(MessagesOf(s, chatId)[MessageIndex(MessagesOf(s, chatId), messageId).value]);
    }
    if RemoveReaction(s, chatId, messageId, userId).1.Some? {
      RemoveReactionClears(s, chatId, messageId, userId);
      assert MessageWf(MessagesOf(s, chatId)[MessageIndex(MessagesOf(s, chatId), messageId).value]);
    }
  }

  /* ---------------------------------------------------------------- paging */

  /** Where `slice(-limit)` starts in a list of `n` messages. */
  function PageStart(n: nat, limit: int): (k: nat)
    ensures k <= n
  {
    if limit > 0 then (if limit < n then n - limit else 0)
    else if limit == 0 then 0
    else (if -limit < n then -limit else n)
  }

  /** `getChatMessages`: `messages.slice(-limit)`. A positive limit keeps the
      newest `limit` messages, a zero limit (`-0` is `0`) keeps all of them,
      and a negative one drops the first `-limit`. */
  function ChatMessages(s: Store, chatId: string, limit: int): (r: seq<ChatMessage>)
    ensures |r| <= |MessagesOf(s, chatId)|
    ensures MessagesOf(s, chatId) == MessagesOf(s, chatId)[..|MessagesOf(s, chatId)| - |r|] + r
  {
    var ms := MessagesOf(s, chatId);
    ms[PageStart(|ms|, limit)..]
  }

  /** For a positive limit the page is the newest `min(limit, n)` messages,
      oldest first; without a limit it is the whole list. */
  lemma ChatMessagesNewest(s: Store, chatId: string, limit: int)
    requires limit >= 0
    ensures limit > 0 ==> |ChatMessages(s, chatId, limit)| == (if limit < |MessagesOf(s, chatId)| then limit else |MessagesOf(s, chatId)|)
    ensures limit == 0 ==> ChatMessages(s, chatId, limit) == MessagesOf(s, chatId)
    ensures forall i :: 0 <= i < |ChatMessages(s, chatId, limit)| ==>
      ChatMessages(s, chatId, limit)[i] == MessagesOf(s, chatId)[|MessagesOf(s, chatId)| - |ChatMessages(s, chatId, limit)| + i]
  {
    var ms := MessagesOf(s, chatId);
    var r := ChatMessages(s, chatId, limit);
    var k := PageStart(|ms|, limit);
    assert r == ms[k..] && |ms| - |r| == k;
    forall i | 0 <= i < |r| ensures r[i] == ms[k + i] {
    }
  }
}

=== FILE: common.dfy ===
/** Small shared vocabulary: optional values, results, and a few sequence
    helpers used by every store and by both matching pipelines. */
module Common {

  /** A value that may be absent (`undefined` / `null` in the modelled code). */
  datatype Option<+T> = None | Some(value: T) {
    function GetOr(default: T): T {
      match this
      case Some(v) => v
      case None => default
    }
  }

  /** A computation that either succeeds or fails with an error (a thrown `Error`). */
  datatype Result<+T, +E> = Ok(value: T) | Err(error: E)

  /** Number of elements of `s` that satisfy `p` (`s.filter(p).length`). */
  function Count<T>(s: seq<T>, p: T -> bool): (n: nat)
    ensures n <= |s|
  {
    if |s| == 0 then 0
    else (if p(s[0]) then 1 else 0) + Count(s[1..], p)
  }

  /** `s.filter(p)`: the elements satisfying `p`, in their original order. */
  function Filter<T>(s: seq<T>, p: T -> bool): (r: seq<T>)
    ensures |r| == Count(s, p)
    ensures forall i :: 0 <= i < |r| ==> p(r[i])
  {
    if |s| == 0 then []
    else
      assert s == [s[0]] + s[1..];
      (if p(s[0]) then [s[0]] else []) + Filter(s[1..], p)
  }

  /** Filtering keeps exactly the elements satisfying `p`. */
  lemma {:induction false} FilterMembers<T>(s: seq<T>, p: T -> bool, x: T)
    ensures x in Filter(s, p) <==> x in s && p(x)
    decreases |s|
  {
    if |s| > 0 {
      FilterMembers(s[1..], p, x);
      assert s == [s[0]] + s[1..];
    }
  }

  /** `s.map(f)`. */
  function Map<A, B>(s: seq<A>, f: A -> B): (r: seq<B>)
    ensures |r| == |s|
    ensures forall i :: 0 <= i < |s| ==> r[i] == f(s[i])
  {
    seq(|s|, i requires 0 <= i < |s| => f(s[i]))
  }

  /** `s.map(f).filter(p)` holds exactly the images satisfying `p`. */
  lemma MapFilterMembers<A, B>(s: seq<A>, f: A -> B, p: B -> bool, y: B)
    ensures y in Filter(Map(s, f), p) <==> p(y) && exists x :: x in s && f(x) == y
  {
    var m := Map(s, f);
    FilterMembers(m, p, y);
    if y in m {
      var i :| 0 <= i < |m| && m[i] == y;
      assert s[i] in s;
    }
    if exists x :: x in s && f(x) == y {
      var x :| x in s && f(x) == y;
      var i :| 0 <= i < |s| && s[i] == x;
      assert m[i] == y;
    }
  }

  /** `s.filter(p)` is empty exactly when no element satisfies `p`. */
  lemma {:induction false} FilterEmpty<T>(s: seq<T>, p: T -> bool)
    ensures Filter(s, p) == [] <==> forall i :: 0 <= i < |s| ==> !p(s[i])
    decreases |s|
  {
    if |s| > 0 {
      FilterEmpty(s[1..], p);
      assert forall i :: 1 <= i < |s| ==> s[i] == s[1..][i - 1];
    }
  }

  /** The index of the first element satisfying `p` (`findIndex`, with -1
      as `None`). */
  function FirstIndex<T>(s: seq<T>, p: T -> bool): (r: Option<nat>)
    ensures r.Some? ==> r.value < |s| && p(s[r.value])
    ensures r.Some? ==> forall j :: 0 <= j < r.value ==> !p(s[j])
    ensures r.None? <==> forall j :: 0 <= j < |s| ==> !p(s[j])
  {
    if |s| == 0 then None
    else if p(s[0]) then Some(0)
    else
      var rest := FirstIndex(s[1..], p);
      if rest.Some? then Some(rest.value + 1) else None
  }

  /** No two elements share a key. */
  predicate DistinctBy<T, K(==)>(s: seq<T>, key: T -> K) {
    forall i, j :: 0 <= i < j < |s| ==> key(s[i]) != key(s[j])
  }

  /** Filtering keeps keys distinct. */
  lemma {:induction false} FilterDistinctBy<T, K>(s: seq<T>, p: T -> bool, key: T -> K)
    requires DistinctBy(s, key)
    ensures DistinctBy(Filter(s, p), key)
    decreases |s|
  {
    if |s| > 0 {
      var tail := s[1..];
      assert DistinctBy(tail, key) by {
        assert forall k :: 0 <= k < |tail| ==> tail[k] == s[k + 1];
      }
      FilterDistinctBy(tail, p, key);
      var f := Filter(tail, p);
      forall j | 0 <= j < |f|
        ensures key(s[0]) != key(f[j])
      {
        FilterMembers(tail, p, f[j]);
        var k :| 0 <= k < |tail| && tail[k] == f[j];
        assert tail[k] == s[k + 1];
      }
    }
  }

  /** No element occurs twice. */
  predicate NoDup<T(==)>(s: seq<T>) {
    forall i, j :: 0 <= i < j < |s| ==> s[i] != s[j]
  }

  /** Number of occurrences of `x` in `s`. */
  function Occurrences<T(==)>(s: seq<T>, x: T): nat {
    multiset(s)[x]
  }

  lemma {:induction false} FilterOfAppend<T>(a: seq<T>, b: seq<T>, p: T -> bool)
    ensures Filter(a + b, p) == Filter(a, p) + Filter(b, p)
    decreases |a|
  {
    if |a| == 0 {
      assert a + b == b;
    } else {
      assert (a + b)[1..] == a[1..] + b;
      FilterOfAppend(a[1..], b, p);
    }
  }

  lemma {:induction false} CountOfAppend<T>(a: seq<T>, b: seq<T>, p: T -> bool)
    ensures Count(a + b, p) == Count(a, p) + Count(b, p)
    decreases |a|
  {
    if |a| == 0 {
      assert a + b == b;
    } else {
      assert (a + b)[1..] == a[1..] + b;
      CountOfAppend(a[1..], b, p);
    }
  }

  /** A duplicate-free sequence has as many elements as its set. */
  lemma {:induction false} NoDupCardinality<T>(s: seq<T>)
    requires NoDup(s)
    ensures |set x | x in s| == |s|
    decreases |s|
  {
    if |s| > 0 {
      var init := s[..|s| - 1];
      var last := s[|s| - 1];
      assert NoDup(init);
      NoDupCardinality(init);
      assert forall k :: 0 <= k < |init| ==> init[k] == s[k];
      assert last !in init;
      assert (set x | x in s) == (set x | x in init) + {last} by {
        assert s == init + [last];
      }
    }
  }

  /** The distinct elements of `s` in order of first occurrence: the iteration
      order of `new Set(s)`. */
  function Dedup<T(==)>(s: seq<T>): (r: seq<T>)
    ensures NoDup(r)
    ensures forall i :: 0 <= i < |r| ==> r[i] in s
    ensures forall i :: 0 <= i < |s| ==> s[i] in r
    ensures |r| <= |s|
  {
    if |s| == 0 then []
    else
      var d := Dedup(s[..|s| - 1]);
      var x := s[|s| - 1];
      assert forall i :: 0 <= i < |s| - 1 ==> s[i] == s[..|s| - 1][i];
      if x in d then d else d + [x]
  }

  /** Removing repeats keeps the same elements. */
  lemma {:induction false} DedupElements<T>(s: seq<T>)
    ensures Elements(Dedup(s)) == Elements(s)
    decreases |s|
  {
    if |s| > 0 {
      var init := s[..|s| - 1];
      DedupElements(init);
      assert s == init + [s[|s| - 1]];
      assert Elements(s) == Elements(init) + {s[|s| - 1]};
    }
  }

  /** Filtering keeps a sequence free of duplicates. */
  lemma {:induction false} FilterNoDup<T>(s: seq<T>, p: T -> bool)
    requires NoDup(s)
    ensures NoDup(Filter(s, p))
    decreases |s|
  {
    if |s| > 0 {
      var tail := s[1..];
      assert NoDup(tail);
      FilterNoDup(tail, p);
      assert forall k :: 0 <= k < |tail| ==> tail[k] == s[k + 1];
      assert s[0] !in tail;
      FilterMembers(tail, p, s[0]);
    }
  }

  /** The set of elements of `s` (`new Set(s)` without its order). */
  function Elements<T>(s: seq<T>): set<T> {
    set x | x in s
  }

  /** A subset is no larger than its superset. */
  lemma SubsetCardinality<T>(a: set<T>, b: set<T>)
    requires a <= b
    ensures |a| <= |b|
  {
    assert b == a + (b - a);
  }

  /** The distinct elements, after filtering a duplicate-free sequence with a
      membership test, are exactly counted by the intersection. */
  lemma FilterInCardinality<T>(t: seq<T>, s: seq<T>)
    requires NoDup(t)
    ensures |Filter(t, (x: T) => x in s)| == |Elements(t) * Elements(s)|
  {
    var p := (x: T) => x in s;
    var f := Filter(t, p);
    FilterNoDup(t, p);
    NoDupCardinality(f);
    forall x
      ensures x in Elements(f) <==> x in Elements(t) * Elements(s)
    {
      FilterMembers(t, p, x);
    }
    assert Elements(f) == Elements(t) * Elements(s);
  }

  /** Jaccard bookkeeping: the common elements found by filtering a
      duplicate-free `t` against `s` are as many as the intersection, which
      is no larger than the union. */
  lemma CommonNoLargerThanUnion<T>(t: seq<T>, s: seq<T>)
    requires NoDup(t)
    ensures |Filter(t, (x: T) => x in s)| == |Elements(t) * Elements(s)|
    ensures |Elements(t) * Elements(s)| <= |Elements(s) + Elements(t)|
  {
    FilterInCardinality(t, s);
    SubsetCardinality(Elements(t) * Elements(s), Elements(s) + Elements(t));
  }

  /** A value in the unit interval [0, 1]. */
  predicate Unit(x: real) {
    0.0 <= x <= 1.0
  }

  /** Bounds on a numerator carry over to the quotient by a positive divisor. */
  lemma QuotientBounds(a: real, n: real, lo: real, hi: real)
    requires n > 0.0 && lo * n <= a <= hi * n
    ensures lo <= a / n <= hi
  {
    var q := a / n;
    assert q * n == a;
    assert (q - hi) * n <= 0.0;
    assert (q - lo) * n >= 0.0;
  }

  lemma ZeroOver(n: real)
    requires n > 0.0
    ensures 0.0 / n == 0.0
  {
  }

  lemma SelfOver(n: real)
    requires n > 0.0
    ensures n / n == 1.0
  {
  }

  /** A part over a non-empty whole is a fraction in [0, 1]. */
  lemma FractionInUnit(part: nat, whole: nat)
    requires part <= whole && whole > 0
    ensures 0.0 <= part as real / whole as real <= 1.0
  {
    QuotientBounds(part as real, whole as real, 0.0, 1.0);
  }

  /** `Math.round(x)`: the nearest integer, halves rounded up. */
  function Round(x: real): (r: int)
    ensures x - 0.5 < r as real <= x + 0.5
  {
    (x + 0.5).Floor
  }
}

=== FILE: emergency.dfy ===
/** The emergency store (`EmergencySOSManager`): raising an alert,
    responding to it, and the fixed message and instruction tables.

    The class keeps every alert in a history list and the unresolved ones in
    a `Map` keyed by alert id whose values are the same objects, so a
    response changes the history entry too. Here the active set maps an id
    to the index of its history entry, and `activeOrder` keeps the `Map`'s
    insertion order of keys. Notifications, geolocation and the clock are
    left out; ids and times are inputs. */
module EmergencySOS {
  import opened Common

  datatype AlertType = SOS | Medical | Lost | Theft | OtherEmergency
  datatype Severity = Low | Medium | High | Critical
  datatype AlertStatus = Active | Acknowledged | Resolved

  datatype Location = Location(latitude: real, longitude: real, address: string)

  datatype Alert = Alert(
    alertId: string,
    userId: string,
    tripId: Option<string>,
    groupId: Option<string>,
    location: Location,
    alertType: AlertType,
    message: string,
    severity: Severity,
    status: AlertStatus,
    createdAt: string,
    resolvedAt: Option<string>,
    responders: seq<string>)

  datatype Store = Store(alerts: seq<Alert>, active: map<string, nat>, activeOrder: seq<string>)

  const Empty: Store := Store([], map[], [])

  /** `determineSeverity`. */
  function SeverityOf(t: AlertType): (r: Severity)
    ensures r == Critical <==> t == SOS
    ensures r == High <==> t == Medical
    ensures r == Medium <==> t == Lost || t == Theft
    ensures r == Low <==> t == OtherEmergency
  {
    match t
    case SOS => Critical
    case Medical => High
    case Lost => Medium
    case Theft => Medium
    case OtherEmergency => Low
  }

  /** Every active id points at a history entry with that id that is not
      resolved, and the key order lists each active id once. */
  predicate Wf(s: Store) {
    && (forall id :: id in s.active ==>
          s.active[id] < |s.alerts| && s.alerts[s.active[id]].alertId == id && s.alerts[s.active[id]].status != Resolved)
    && NoDup(s.activeOrder)
    && (forall id :: id in s.active ==> id in s.activeOrder)
    && (forall id :: id in s.activeOrder ==> id in s.active)
  }

  lemma EmptyWf()
    ensures Wf(Empty) && |Empty.alerts| == 0
  {
  }

  /* -------------------------------------------------------------- trigger */

  /** `triggerSOS` (its state part): a new active alert with no responders,
      appended to the history and entered in the active set. */
  function TriggerSOS(s: Store, userId: string, alertType: AlertType, location: Location, message: string,
                      tripId: Option<string>, groupId: Option<string>, stamp: string, now: string)
    : (r: (Store, Alert))
    ensures r.0.alerts == s.alerts + [r.1]
    ensures r.1.status == Active && r.1.responders == [] && r.1.severity == SeverityOf(alertType)
    ensures r.1.userId == userId && r.1.alertType == alertType && r.1.message == message
  {
    var alert := Alert("alert-" + stamp + "-" + userId, userId, tripId, groupId, location, alertType, message,
      SeverityOf(alertType), Active, now, None, []);
    var order := if alert.alertId in s.active then s.activeOrder else s.activeOrder + [alert.alertId];
    (Store(s.alerts + [alert], s.active[alert.alertId := |s.alerts|], order), alert)
  }

  /** Triggering keeps the store well formed. */
  lemma TriggerKeepsWf(s: Store, userId: string, alertType: AlertType, location: Location, message: string,
                       tripId: Option<string>, groupId: Option<string>, stamp: string, now: string)
    requires Wf(s)
    ensures Wf(TriggerSOS(s, userId, alertType, location, message, tripId, groupId, stamp, now).0)
  {
    var (s', alert) := TriggerSOS(s, userId, alertType, location, message, tripId, groupId, stamp, now);
    var id := alert.alertId;
    forall x | x in s'.active
      ensures s'.active[x] < |s'.alerts| && s'.alerts[s'.active[x]].alertId == x && s'.alerts[s'.active[x]].status != Resolved
    {
      if x != id {
        assert s'.alerts[s.active[x]] == s.alerts[s.active[x]];
      }
    }
    if id !in s.active {
      assert forall k :: 0 <= k < |s.activeOrder| ==> s'.activeOrder[k] == s.activeOrder[k];
    }
  }

  /** The new alert is the active one under its id, and is listed among the
      active alerts. */
  lemma TriggerActivates(s: Store, userId: string, alertType: AlertType, location: Location, message: string,
                         tripId: Option<string>, groupId: Option<string>, stamp: string, now: string)
    requires Wf(s)
    ensures var (s', alert) := TriggerSOS(s, userId, alertType, location, message, tripId, groupId, stamp, now);
      && Wf(s')
      && alert.alertId in s'.active && s'.alerts[s'.active[alert.alertId]] == alert
      && alert in ActiveAlerts(s')
  {
    TriggerKeepsWf(s, userId, alertType, location, message, tripId, groupId, stamp, now);
    var (s', alert) := TriggerSOS(s, userId, alertType, location, message, tripId, groupId, stamp, now);
    var k :| 0 <= k < |s'.activeOrder| && s'.activeOrder[k] == alert.alertId;
    assert ActiveAlerts(s')[k] == alert;
  }

  /* -------------------------------------------------------------- respond */

  datatype Action = Acknowledge | Resolve

  /** How far an alert has progressed. */
  function Rank(st: AlertStatus): nat {
    match st
    case Active => 0
    case Acknowledged => 1
    case Resolved => 2
  }

  function Acknowledged'(a: Alert, responderId: string): Alert {
    a.(responders := if responderId in a.responders then a.responders else a.responders + [responderId],
       status := if a.status == Active then Acknowledged else a.status)
  }

  /** `respondToAlert`: `None` unless the alert is active. Acknowledging
      records the responder once and moves an active alert on; resolving
      marks it resolved and takes it out of the active set. */
  function RespondToAlert(s: Store, alertId: string, responderId: string, action: Action, now: string)
    : (r: (Store, Option<Alert>))
    requires Wf(s)
    ensures r.1.None? <==> alertId !in s.active
    ensures r.1.None? ==> r.0 == s
    ensures |r.0.alerts| == |s.alerts|
  {
    if alertId !in s.active then (s, None)
    else
      var i := s.active[alertId];
      var a := s.alerts[i];
      match action
      case Acknowledge =>
        var a' := Acknowledged'(a, responderId);
        (s.(alerts := s.alerts[i := a']), Some(a'))
      case Resolve =>
        var a' := a.(status := Resolved, resolvedAt := Some(now));
        (Store(s.alerts[i := a'], s.active - {alertId}, Filter(s.activeOrder, (x: string) => x != alertId)), Some(a'))
  }

  /** A response never moves an alert backwards; acknowledging lists the
      responder exactly once when responders were listed once before and
      keeps the alert active; resolving removes it from the active set. Only
      that alert's history entry changes. */
  lemma RespondProgresses(s: Store, alertId: string, responderId: string, action: Action, now: string)
    requires Wf(s)
    requires alertId in s.active
    ensures var (s', result) := RespondToAlert(s, alertId, responderId, action, now);
      var i := s.active[alertId];
      && result == Some(s'.alerts[i])
      && Rank(s'.alerts[i].status) >= Rank(s.alerts[i].status)
      && (forall j :: 0 <= j < |s.alerts| && j != i ==> s'.alerts[j] == s.alerts[j])
      && (action == Acknowledge ==>
            && s'.alerts[i].status == Acknowledged
            && responderId in s'.alerts[i].responders
            && (NoDup(s.alerts[i].responders) ==> NoDup(s'.alerts[i].responders))
            && alertId in s'.active)
      && (action == Resolve ==> s'.alerts[i].status == Resolved && alertId !in s'.active)
  {
    var i := s.active[alertId];
    var rs := s.alerts[i].responders;
    if action == Acknowledge && responderId !in rs {
      assert forall k :: 0 <= k < |rs| ==> (rs + [responderId])[k] == rs[k];
    }
  }

  /** Responding keeps the store well formed. */
  lemma RespondKeepsWf(s: Store, alertId: string, responderId: string, action: Action, now: string)
    requires Wf(s)
    ensures Wf(RespondToAlert(s, alertId, responderId, action, now).0)
  {
    if alertId in s.active && action == Resolve {
      var s' := RespondToAlert(s, alertId, responderId, action, now).0;
      var p := (x: string) => x != alertId;
      FilterNoDup(s.activeOrder, p);
      forall x
        ensures x in s'.active <==> x in s'.activeOrder
      {
        FilterMembers(s.activeOrder, p, x);
      }
      forall x | x in s'.active
        ensures s'.active[x] < |s'.alerts| && s'.alerts[s'.active[x]].alertId == x && s'.alerts[s'.active[x]].status != Resolved
      {
        assert s'.alerts[s.active[x]] == s.alerts[s.active[x]];
      }
    } else if alertId in s.active {
      var s' := RespondToAlert(s, alertId, responderId, action, now).0;
      forall x | x in s'.active
        ensures s'.alerts[s'.active[x]].status != Resolved
      {
        if x != alertId {
          assert s'.alerts[s.active[x]] == s.alerts[s.active[x]];
        }
      }
    }
  }

  /** A resolved alert can no longer be responded to. */
  lemma ResolvedIsFinal(s: Store, alertId: string, responderId: string, other: string, action: Action, now: string)
    requires Wf(s)
    ensures var s' := RespondToAlert(s, alertId, responderId, Resolve, now).0;
      Wf(s') && RespondToAlert(s', alertId, other, action, now) == (s', None)
  {
    RespondKeepsWf(s, alertId, responderId, Resolve, now);
  }

  /* -------------------------------------------------------------- queries */

  /** `getActiveAlerts`: the active alerts in the order they were first entered. */
  function ActiveAlerts(s: Store): (r: seq<Alert>)
    requires Wf(s)
    ensures |r| == |s.active|
    ensures forall i :: 0 <= i < |r| ==> r[i].status != Resolved
    ensures |r| == |s.activeOrder| && forall i :: 0 <= i < |r| ==> r[i].alertId == s.activeOrder[i]
    ensures forall id :: id in s.active ==> s.alerts[s.active[id]] in r
  {
    NoDupCardinality(s.activeOrder);
    assert forall id :: id in s.active ==> exists i :: 0 <= i < |s.activeOrder| && s.activeOrder[i] == id;
    assert (set x | x in s.activeOrder) == s.active.Keys;
    seq(|s.activeOrder|, i requires 0 <= i < |s.activeOrder| => s.alerts[s.active[s.activeOrder[i]]])
  }

  /** `getUserAlerts`: that user's alerts, oldest first. */
  function UserAlerts(s: Store, userId: string): (r: seq<Alert>)
    ensures forall i :: 0 <= i < |r| ==> r[i].userId == userId
  {
    Filter(s.alerts, (a: Alert) => a.userId == userId)
  }

  /** A user's alert list holds exactly their alerts, and triggering adds
      the new alert at its end for that user only. */
  lemma UserAlertsInCreationOrder(s: Store, userId: string, who: string, alertType: AlertType, location: Location,
                                  message: string, tripId: Option<string>, groupId: Option<string>,
                                  stamp: string, now: string, a: Alert)
    ensures a in UserAlerts(s, userId) <==> a in s.alerts && a.userId == userId
    ensures var (s', alert) := TriggerSOS(s, who, alertType, location, message, tripId, groupId, stamp, now);
      UserAlerts(s', userId) == UserAlerts(s, userId) + (if who == userId then [alert] else [])
  {
    var p := (x: Alert) => x.userId == userId;
    FilterMembers(s.alerts, p, a);
    var (s', alert) := TriggerSOS(s, who, alertType, location, message, tripId, groupId, stamp, now);
    FilterOfAppend(s.alerts, [alert], p);
    assert [alert][1..] == [];
  }

  /* --------------------------------------------------------------- tables */

  /** `generateEmergencyMessage`. */
  function EmergencyMessage(t: AlertType): (r: string)
    ensures |r| > 0
  {
    match t
    case SOS => "EMERGENCY: I need immediate help!"
    case Medical => "Medical emergency: I need medical assistance"
    case Lost => "I am lost and need help finding my way"
    case Theft => "I have been robbed and need assistance"
    case OtherEmergency => "I need help with an urgent situation"
  }

  /** One step of the advice `getEmergencyInstructions` gives. */
  datatype Step =
    | StayCalmMoveToSafety | CallEmergencyServices | ShareLocationWithContacts | FollowResponders
    | CallMedicalServices | DescribeMedicalEmergency | FollowMedicalGuidance | KeepContactsInformed
    | StayPut | ShareCoordinates | LookForLandmarks | ContactLocalAuthorities
    | MoveToSafety | ReportToPolice | CancelCards | DocumentStolenItems
    | AssessDangers | ContactAuthorities | KeepTrustedContactsInformed | FollowSafetyProtocols

  function StepText(st: Step): string {
    match st
    case StayCalmMoveToSafety => "Stay calm and try to move to a safe location"
    case CallEmergencyServices => "Call emergency services if possible"
    case ShareLocationWithContacts => "Share your location with trusted contacts"
    case FollowResponders => "Follow any instructions from emergency responders"
    case CallMedicalServices => "Call emergency medical services immediately"
    case DescribeMedicalEmergency => "Provide your location and nature of medical emergency"
    case FollowMedicalGuidance => "Follow medical guidance if available"
    case KeepContactsInformed => "Keep emergency contacts informed"
    case StayPut => "Stay in one location if safe"
    case ShareCoordinates => "Share your GPS coordinates"
    case LookForLandmarks => "Look for landmarks to help identify your location"
    case ContactLocalAuthorities => "Contact local authorities if needed"
    case MoveToSafety => "Move to a safe location immediately"
    case ReportToPolice => "Report the theft to local police"
    case CancelCards => "Contact your bank to cancel cards if stolen"
    case DocumentStolenItems => "Document what was stolen for insurance"
    case AssessDangers => "Assess the situation for immediate dangers"
    case ContactAuthorities => "Contact appropriate authorities or services"
    case KeepTrustedContactsInformed => "Keep trusted contacts informed"
    case FollowSafetyProtocols => "Follow safety protocols for your specific situation"
  }

  /** The steps for each alert type, in the order they are shown. */
  function Steps(t: AlertType): (r: seq<Step>)
    ensures |r| == 4
  {
    match t
    case SOS => [StayCalmMoveToSafety, CallEmergencyServices, ShareLocationWithContacts, FollowResponders]
    case Medical => [CallMedicalServices, DescribeMedicalEmergency, FollowMedicalGuidance, KeepContactsInformed]
    case Lost => [StayPut, ShareCoordinates, LookForLandmarks, ContactLocalAuthorities]
    case Theft => [MoveToSafety, ReportToPolice, CancelCards, DocumentStolenItems]
    case OtherEmergency => [AssessDangers, ContactAuthorities, KeepTrustedContactsInformed, FollowSafetyProtocols]
  }

  /** `getEmergencyInstructions`: four instructions for every alert type. */
  function Instructions(t: AlertType): (r: seq<string>)
    ensures |r| == 4
  {
    Map(Steps(t), StepText)
  }

  /** Each type's four steps are distinct, and no step is shared between
      two alert types. */
  lemma StepsPartitioned(t: AlertType, u: AlertType)
    ensures NoDup(Steps(t))
    ensures t != u ==> forall x :: x in Steps(t) ==> x !in Steps(u)
  {
  }
}

=== FILE: interests.dfy ===
/** The interest-overlap score both pipelines compute with identical code:
    the Jaccard index of the two users' normalised interest sets, and the
    shared interests, capitalised, in the candidate's order. */
module Interests {
  import opened Common
  import opened Text
  import opened Types

  /** The interest list after `normalize` on every entry. */
  function NormalizeAll(xs: seq<string>): (r: seq<string>)
    ensures |r| == |xs|
    ensures forall i :: 0 <= i < |xs| ==> r[i] == Normalize(xs[i])
  {
    seq(|xs|, i requires 0 <= i < |xs| => Normalize(xs[i]))
  }

  /** `new Set(interests.map(normalize))`, in insertion order. */
  function InterestSet(u: User): (r: seq<string>)
    ensures NoDup(r)
  {
    Dedup(NormalizeAll(u.profile.interests))
  }

  /** Each entry with its first character upper-cased. */
  function CapitalizeAll(xs: seq<string>): (r: seq<string>)
    ensures |r| == |xs|
    ensures forall i :: 0 <= i < |xs| ==> r[i] == Capitalize(xs[i])
  {
    seq(|xs|, i requires 0 <= i < |xs| => Capitalize(xs[i]))
  }

  /** The set of `u`'s normalised interests. */
  function InterestKeys(u: User): set<string> {
    Elements(NormalizeAll(u.profile.interests))
  }

  lemma InterestSetKeys(u: User)
    ensures Elements(InterestSet(u)) == InterestKeys(u)
  {
    DedupElements(NormalizeAll(u.profile.interests));
  }

  /** The normalised interests of `a` and `b` in common. */
  function CommonKeys(a: User, b: User): set<string> {
    InterestKeys(a) * InterestKeys(b)
  }

  /** All normalised interests of `a` and `b`. */
  function AllKeys(a: User, b: User): set<string> {
    InterestKeys(a) + InterestKeys(b)
  }

  datatype InterestMatch = InterestMatch(score: real, commonInterests: seq<string>, totalInterests: nat)

  /** `calculateInterestSimilarity` / `scoreInterestSimilarity`: the shared
      interests in the candidate's order, capitalised, the size of the
      union, and their ratio (0 for an empty union). */
  function InterestSimilarity(current: User, candidate: User): InterestMatch {
    var source := InterestSet(current);
    var target := InterestSet(candidate);
    var common := Filter(target, (x: string) => x in source);
    var unionSize := |Elements(source) + Elements(target)|;
    InterestMatch(if unionSize == 0 then 0.0 else |common| as real / unionSize as real,
      CapitalizeAll(common), unionSize)
  }

  /** The interest score is the Jaccard index of the two normalised interest
      sets, 0 when both are empty, and so lies in [0, 1]. */
  lemma JaccardIndex(current: User, candidate: User)
    ensures var r := InterestSimilarity(current, candidate);
      && r.totalInterests == |AllKeys(current, candidate)|
      && (r.totalInterests == 0 ==> r.score == 0.0)
      && (r.totalInterests > 0 ==>
            r.score == |CommonKeys(current, candidate)| as real / r.totalInterests as real)
      && |r.commonInterests| == |CommonKeys(current, candidate)|
      && 0.0 <= r.score <= 1.0
  {
    var source := InterestSet(current);
    var target := InterestSet(candidate);
    InterestSetKeys(current);
    InterestSetKeys(candidate);
    CommonNoLargerThanUnion(target, source);
    assert Elements(target) * Elements(source) == CommonKeys(current, candidate);
    if |AllKeys(current, candidate)| > 0 {
      FractionInUnit(|CommonKeys(current, candidate)|, |AllKeys(current, candidate)|);
    }
  }

  /** Every listed common interest is, before capitalisation, an interest of both users. */
  lemma CommonInterestsShared(current: User, candidate: User, i: int)
    requires 0 <= i < |InterestSimilarity(current, candidate).commonInterests|
    ensures exists x :: (x in CommonKeys(current, candidate)
      && InterestSimilarity(current, candidate).commonInterests[i] == Capitalize(x))
  {
    var source := InterestSet(current);
    var target := InterestSet(candidate);
    var p := (x: string) => x in source;
    var common := Filter(target, p);
    var x := common[i];
    FilterMembers(target, p, x);
    InterestSetKeys(current);
    InterestSetKeys(candidate);
    assert x in Elements(target) && x in Elements(source);
    assert x in CommonKeys(current, candidate);
  }

  /** The Jaccard index does not depend on which user asks. */
  lemma InterestSymmetric(a: User, b: User)
    ensures InterestSimilarity(a, b).score == InterestSimilarity(b, a).score
    ensures InterestSimilarity(a, b).totalInterests == InterestSimilarity(b, a).totalInterests
  {
    JaccardIndex(a, b);
    JaccardIndex(b, a);
    KeysSymmetric(a, b);
  }

  lemma KeysSymmetric(a: User, b: User)
    ensures CommonKeys(a, b) == CommonKeys(b, a)
    ensures AllKeys(a, b) == AllKeys(b, a)
  {
  }

  /** The interest score is a fraction in [0, 1]. */
  lemma InterestScoreUnit(a: User, b: User)
    ensures Unit(InterestSimilarity(a, b).score)
  {
    JaccardIndex(a, b);
  }

  /** Interests that differ only in case or surrounding white space count
      once: equal normalised interest sets score 1, and two users without
      interests score 0 (the union is empty). */
  lemma SameInterestsScoreOne(a: User, b: User)
    requires InterestKeys(a) == InterestKeys(b)
    ensures InterestSimilarity(a, b).score == if InterestKeys(a) == {} then 0.0 else 1.0
  {
    JaccardIndex(a, b);
    assert CommonKeys(a, b) == AllKeys(a, b);
    if InterestKeys(a) != {} {
      SelfOver(|AllKeys(a, b)| as real);
    }
  }

  /** Users without a common interest score 0. */
  lemma DisjointInterestsScoreZero(a: User, b: User)
    requires CommonKeys(a, b) == {}
    ensures InterestSimilarity(a, b).score == 0.0
    ensures InterestSimilarity(a, b).commonInterests == []
  {
    JaccardIndex(a, b);
    var r := InterestSimilarity(a, b);
    assert |CommonKeys(a, b)| == 0;
    if r.totalInterests > 0 {
      ZeroOver(r.totalInterests as real);
    }
  }
}

=== FILE: match_sort.dfy ===
/** `matches.sort((a, b) => b.score - a.score)`, shared by both pipelines.
    `Array.prototype.sort` is stable, so matches with equal scores keep the
    order in which the candidates were listed. */
module MatchSort {
  import opened Common
  import opened Types

  predicate SortedByScore(s: seq<Match>) {
    forall i, j :: 0 <= i < j < |s| ==> s[i].score >= s[j].score
  }

  /** Place `m` in front of the first element that does not outscore it. */
  function Insert(m: Match, s: seq<Match>): (r: seq<Match>)
    ensures |r| == |s| + 1
    ensures r[0] == m || (|s| > 0 && r[0] == s[0])
  {
    if |s| == 0 || s[0].score <= m.score then [m] + s
    else [s[0]] + Insert(m, s[1..])
  }

  /** Matches sorted by score, highest first; ties stay in input order. */
  function SortByScore(s: seq<Match>): (r: seq<Match>)
    ensures |r| == |s|
  {
    if |s| == 0 then [] else Insert(s[0], SortByScore(s[1..]))
  }

  lemma {:induction false} InsertSorted(m: Match, s: seq<Match>)
    requires SortedByScore(s)
    ensures SortedByScore(Insert(m, s))
    decreases |s|
  {
    if |s| > 0 && s[0].score > m.score {
      InsertSorted(m, s[1..]);
    }
  }

  lemma {:induction false} InsertPermutes(m: Match, s: seq<Match>)
    ensures multiset(Insert(m, s)) == multiset(s) + multiset{m}
    decreases |s|
  {
    if |s| > 0 && s[0].score > m.score {
      InsertPermutes(m, s[1..]);
      assert s == [s[0]] + s[1..];
    }
  }

  /** The result is ordered by score, highest first. */
  lemma {:induction false} SortSorted(s: seq<Match>)
    ensures SortedByScore(SortByScore(s))
    decreases |s|
  {
    if |s| > 0 {
      SortSorted(s[1..]);
      InsertSorted(s[0], SortByScore(s[1..]));
    }
  }

  /** The result is a permutation of the input. */
  lemma {:induction false} SortPermutes(s: seq<Match>)
    ensures multiset(SortByScore(s)) == multiset(s)
    decreases |s|
  {
    if |s| > 0 {
      SortPermutes(s[1..]);
      InsertPermutes(s[0], SortByScore(s[1..]));
      assert s == [s[0]] + s[1..];
    }
  }

  /** Sorting neither adds nor loses a match. */
  lemma SortMembers(s: seq<Match>, m: Match)
    ensures m in SortByScore(s) <==> m in s
  {
    SortPermutes(s);
    assert m in SortByScore(s) <==> m in multiset(SortByScore(s));
  }

  function WithScore(v: int): Match -> bool {
    (m: Match) => m.score == v
  }

  lemma FilterConsKept(x: Match, s: seq<Match>, p: Match -> bool)
    requires p(x)
    ensures Filter([x] + s, p) == [x] + Filter(s, p)
  {
    assert ([x] + s)[1..] == s;
  }

  lemma FilterConsDropped(x: Match, s: seq<Match>, p: Match -> bool)
    requires !p(x)
    ensures Filter([x] + s, p) == Filter(s, p)
  {
    assert ([x] + s)[1..] == s;
  }

  /** Insertion puts `m` before the equal-scored elements already present and
      keeps their relative order. */
  lemma {:induction false} InsertKeepsScoreOrder(m: Match, s: seq<Match>, v: int)
    ensures m.score == v ==> Filter(Insert(m, s), WithScore(v)) == [m] + Filter(s, WithScore(v))
    ensures m.score != v ==> Filter(Insert(m, s), WithScore(v)) == Filter(s, WithScore(v))
    decreases |s|
  {
    var p := WithScore(v);
    if |s| == 0 || s[0].score <= m.score {
      if m.score == v { FilterConsKept(m, s, p); } else { FilterConsDropped(m, s, p); }
    } else {
      InsertKeepsScoreOrder(m, s[1..], v);
      var tail := Insert(m, s[1..]);
      assert s == [s[0]] + s[1..];
      if s[0].score == v {
        FilterConsKept(s[0], tail, p);
        FilterConsKept(s[0], s[1..], p);
      } else {
        FilterConsDropped(s[0], tail, p);
        FilterConsDropped(s[0], s[1..], p);
      }
    }
  }

  /** Stability: for every score, the matches with that score appear in the
      same relative order before and after sorting. */
  lemma {:induction false} SortIsStable(s: seq<Match>, v: int)
    ensures Filter(SortByScore(s), WithScore(v)) == Filter(s, WithScore(v))
    decreases |s|
  {
    if |s| > 0 {
      SortIsStable(s[1..], v);
      InsertKeepsScoreOrder(s[0], SortByScore(s[1..]), v);
      assert s == [s[0]] + s[1..];
      if s[0].score == v {
        FilterConsKept(s[0], s[1..], WithScore(v));
      } else {
        FilterConsDropped(s[0], s[1..], WithScore(v));
      }
    }
  }
}

=== FILE: reviews.dfy ===
/** The review store (`ReviewManager`): creating, updating, deleting and
    voting on reviews, the "may I review" check, a reviewee's average
    ratings and the summary of their reviews. The store is an immutable
    value; `Date.now()` in ids and the clock are parameters. The
    per-reviewee index the class also keeps is written but never read, so it
    is not part of the state. */
module ReviewStore {
  import opened Common
  import opened Text
  import opened Types

  datatype Store = Store(reviews: seq<Review>)

  datatype ReviewError = RatingOutOfRange | AlreadyReviewed

  function ErrorMessage(e: ReviewError): string {
    match e
    case RatingOutOfRange => "Rating must be between 1 and 5"
    case AlreadyReviewed => "You have already reviewed this user for this match/group"
  }

  /* ------------------------------------------------------------ lookups */

  /** The index of the first review with `reviewId` (`findIndex`). */
  function IndexOf(reviews: seq<Review>, reviewId: string): (r: Option<nat>)
    ensures r.Some? ==> r.value < |reviews| && reviews[r.value].reviewId == reviewId
    ensures r.Some? ==> forall j :: 0 <= j < r.value ==> reviews[j].reviewId != reviewId
    ensures r.None? <==> forall j :: 0 <= j < |reviews| ==> reviews[j].reviewId != reviewId
  {
    FirstIndex(reviews, (r: Review) => r.reviewId == reviewId)
  }

  /** An earlier review by the same reviewer of the same reviewee for the
      same match or the same group. The ids are optional and compared with
      `===`, so two reviews without a match id count as the same match. */
  predicate SameOccasion(r: Review, reviewerId: string, revieweeId: string,
                         matchId: Option<string>, groupId: Option<string>) {
    r.reviewerId == reviewerId && r.revieweeId == revieweeId && (r.matchId == matchId || r.groupId == groupId)
  }

  predicate HasReviewed(s: Store, reviewerId: string, revieweeId: string,
                        matchId: Option<string>, groupId: Option<string>) {
    exists i :: 0 <= i < |s.reviews| && SameOccasion(s.reviews[i], reviewerId, revieweeId, matchId, groupId)
  }

  /** `canReview`: not oneself, and not already reviewed for this match or group. */
  predicate CanReview(s: Store, reviewerId: string, revieweeId: string,
                      matchId: Option<string>, groupId: Option<string>) {
    reviewerId != revieweeId && !HasReviewed(s, reviewerId, revieweeId, matchId, groupId)
  }

  /* -------------------------------------------------------------- create */

  /** `createReview`: reject a rating outside [1, 5], then a repeat review;
      otherwise append the new review and return it. */
  function CreateReview(s: Store, reviewerId: string, revieweeId: string, rating: int, comment: string,
                        categories: Categories, matchId: Option<string>, groupId: Option<string>,
                        tripId: Option<string>, isPublic: bool, stamp: string, now: string)
    : (r: Result<(Store, Review), ReviewError>)
    ensures r.Err? <==> rating < 1 || rating > 5 || HasReviewed(s, reviewerId, revieweeId, matchId, groupId)
    ensures r.Err? && (rating < 1 || rating > 5) ==> r.error == RatingOutOfRange
    ensures r.Ok? ==> r.value.0.reviews == s.reviews + [r.value.1]
  {
    if rating < 1 || rating > 5 then Err(RatingOutOfRange)
    else if HasReviewed(s, reviewerId, revieweeId, matchId, groupId) then Err(AlreadyReviewed)
    else
      var review := Review("review-" + stamp + "-" + reviewerId + "-" + revieweeId, matchId, groupId,
        reviewerId, revieweeId, tripId, rating, comment, categories, isPublic, now, 0);
      Ok((Store(s.reviews + [review]), review))
  }

  /** The created review carries the arguments, no votes, and once it exists
      the same reviewer can no longer review the same person for that match
      or group. */
  lemma CreateThenCannotReview(s: Store, reviewerId: string, revieweeId: string, rating: int, comment: string,
                               categories: Categories, matchId: Option<string>, groupId: Option<string>,
                               tripId: Option<string>, isPublic: bool, stamp: string, now: string)
    requires CreateReview(s, reviewerId, revieweeId, rating, comment, categories, matchId, groupId,
      tripId, isPublic, stamp, now).Ok?
    ensures var (s', review) := CreateReview(s, reviewerId, revieweeId, rating, comment, categories,
      matchId, groupId, tripId, isPublic, stamp, now).value;
      && review.reviewerId == reviewerId && review.revieweeId == revieweeId
      && review.rating == rating && review.helpfulVotes == 0
      && review.matchId == matchId && review.groupId == groupId
      && review.comment == comment && review.categories == categories
      && review.tripId == tripId && review.isPublic == isPublic && review.createdAt == now
      && !CanReview(s', reviewerId, revieweeId, matchId, groupId)
  {
    var (s', review) := CreateReview(s, reviewerId, revieweeId, rating, comment, categories,
      matchId, groupId, tripId, isPublic, stamp, now).value;
    assert SameOccasion(s'.reviews[|s.reviews|], reviewerId, revieweeId, matchId, groupId);
  }

  /** For someone other than oneself, creating succeeds exactly when the
      rating is valid and `canReview` holds. */
  lemma CreateAgreesWithCanReview(s: Store, reviewerId: string, revieweeId: string, rating: int, comment: string,
                                  categories: Categories, matchId: Option<string>, groupId: Option<string>,
                                  tripId: Option<string>, isPublic: bool, stamp: string, now: string)
    requires reviewerId != revieweeId
    ensures CreateReview(s, reviewerId, revieweeId, rating, comment, categories, matchId, groupId,
      tripId, isPublic, stamp, now).Ok?
      <==> 1 <= rating <= 5 && CanReview(s, reviewerId, revieweeId, matchId, groupId)
  {
  }

  /** No one may review themselves. */
  lemma CannotReviewSelf(s: Store, userId: string, matchId: Option<string>, groupId: Option<string>)
    ensures !CanReview(s, userId, userId, matchId, groupId)
  {
  }

  /** Every stored rating is a whole number of stars from 1 to 5. */
  predicate RatingsInRange(s: Store) {
    forall i :: 0 <= i < |s.reviews| ==> 1 <= s.reviews[i].rating <= 5
  }

  /** Creating keeps every stored rating in range. */
  lemma CreateKeepsRatings(s: Store, reviewerId: string, revieweeId: string, rating: int, comment: string,
                           categories: Categories, matchId: Option<string>, groupId: Option<string>,
                           tripId: Option<string>, isPublic: bool, stamp: string, now: string)
    requires RatingsInRange(s)
    ensures var r := CreateReview(s, reviewerId, revieweeId, rating, comment, categories, matchId, groupId,
      tripId, isPublic, stamp, now);
      r.Ok? ==> RatingsInRange(r.value.0)
  {
  }

  /* -------------------------------------------------------------- update */

  /** The fields `updateReview` may change; `None` leaves a field alone. */
  datatype ReviewUpdates = ReviewUpdates(
    rating: Option<int>,
    comment: Option<string>,
    categories: Option<Categories>,
    isPublic: Option<bool>)

  /** `Object.assign(review, updates)`. */
  function Apply(r: Review, u: ReviewUpdates): (r': Review)
    ensures r'.(rating := r.rating, comment := r.comment, categories := r.categories, isPublic := r.isPublic) == r
  {
    r.(rating := u.rating.GetOr(r.rating),
       comment := u.comment.GetOr(r.comment),
       categories := u.categories.GetOr(r.categories),
       isPublic := u.isPublic.GetOr(r.isPublic))
  }

  /** `updateReview`: `None` (and no change) unless the review exists and
      was written by `reviewerId`; otherwise the first review with that id
      takes the updates. The rating is not checked again. */
  function UpdateReview(s: Store, reviewId: string, reviewerId: string, u: ReviewUpdates)
    : (r: (Store, Option<Review>))
    ensures r.1.None? ==> r.0 == s
  {
    var k := IndexOf(s.reviews, reviewId);
    if k.None? || s.reviews[k.value].reviewerId != reviewerId then (s, None)
    else
      var updated := Apply(s.reviews[k.value], u);
      (Store(s.reviews[k.value := updated]), Some(updated))
  }

  /** Only the author can update, and only the first review with that id
      changes. */
  lemma UpdateOnlyByAuthor(s: Store, reviewId: string, reviewerId: string, u: ReviewUpdates)
    ensures var (s', result) := UpdateReview(s, reviewId, reviewerId, u);
      var k := IndexOf(s.reviews, reviewId);
      && (result.Some? <==> k.Some? && s.reviews[k.value].reviewerId == reviewerId)
      && (result.Some? ==>
            && |s'.reviews| == |s.reviews|
            && s'.reviews[k.value] == result.value == Apply(s.reviews[k.value], u)
            && (forall j :: 0 <= j < |s.reviews| && j != k.value ==> s'.reviews[j] == s.reviews[j]))
  {
  }

  /* -------------------------------------------------------------- delete */

  /** `deleteReview`: only the author of the first review with that id may
      remove it. */
  function DeleteReview(s: Store, reviewId: string, reviewerId: string): (r: (Store, bool))
    ensures !r.1 ==> r.0 == s
    ensures r.1 ==> |r.0.reviews| == |s.reviews| - 1
  {
    var k := IndexOf(s.reviews, reviewId);
    if k.None? || s.reviews[k.value].reviewerId != reviewerId then (s, false)
    else (Store(s.reviews[..k.value] + s.reviews[k.value + 1..]), true)
  }

  /** Deleting succeeds exactly for the author and removes exactly that
      review, keeping the others in order. */
  lemma DeleteOnlyTarget(s: Store, reviewId: string, reviewerId: string)
    ensures var (s', ok) := DeleteReview(s, reviewId, reviewerId);
      var k := IndexOf(s.reviews, reviewId);
      && (ok <==> k.Some? && s.reviews[k.value].reviewerId == reviewerId)
      && (ok ==> s'.reviews == s.reviews[..k.value] + s.reviews[k.value + 1..])
  {
  }

  /** Deleting keeps every remaining rating in range. */
  lemma DeleteKeepsRatings(s: Store, reviewId: string, reviewerId: string)
    requires RatingsInRange(s)
    ensures RatingsInRange(DeleteReview(s, reviewId, reviewerId).0)
  {
    var (s', ok) := DeleteReview(s, reviewId, reviewerId);
    if ok {
      var k := IndexOf(s.reviews, reviewId).value;
      forall i | 0 <= i < |s'.reviews| ensures 1 <= s'.reviews[i].rating <= 5 {
        if i < k { assert s'.reviews[i] == s.reviews[i]; } else { assert s'.reviews[i] == s.reviews[i + 1]; }
      }
    }
  }

  /* ---------------------------------------------------------------- vote */

  /** `voteHelpful`: one more helpful vote on the first review with that id;
      who votes is not recorded. */
  function VoteHelpful(s: Store, reviewId: string): (r: (Store, Option<Review>))
    ensures r.1.None? <==> IndexOf(s.reviews, reviewId).None?
    ensures r.1.None? ==> r.0 == s
  {
    var k := IndexOf(s.reviews, reviewId);
    if k.None? then (s, None)
    else
      var voted := s.reviews[k.value].(helpfulVotes := s.reviews[k.value].helpfulVotes + 1);
      (Store(s.reviews[k.value := voted]), Some(voted))
  }

  /** A vote adds exactly one to that review's count and changes nothing else. */
  lemma VoteAddsOne(s: Store, reviewId: string)
    requires IndexOf(s.reviews, reviewId).Some?
    ensures var k := IndexOf(s.reviews, reviewId).value;
      var (s', voted) := VoteHelpful(s, reviewId);
      && |s'.reviews| == |s.reviews|
      && s'.reviews[k].helpfulVotes == s.reviews[k].helpfulVotes + 1
      && s'.reviews[k].(helpfulVotes := s.reviews[k].helpfulVotes) == s.reviews[k]
      && voted == Some(s'.reviews[k])
      && (forall j :: 0 <= j < |s.reviews| && j != k ==> s'.reviews[j] == s.reviews[j])
  {
  }

  /* ------------------------------------------------------------- averages */

  /** The public reviews of `userId` as reviewee, in store order. */
  function PublicReviewsOf(s: Store, userId: string): (r: seq<Review>)
    ensures forall i :: 0 <= i < |r| ==> r[i].revieweeId == userId && r[i].isPublic
    ensures forall x :: x in s.reviews && x.revieweeId == userId && x.isPublic ==> x in r
  {
    assert forall x :: x in s.reviews && PublicAbout(userId)(x) ==> x in Filter(s.reviews, PublicAbout(userId)) by {
      forall x | x in s.reviews && PublicAbout(userId)(x) ensures x in Filter(s.reviews, PublicAbout(userId)) {
        FilterMembers(s.reviews, PublicAbout(userId), x);
      }
    }
    Filter(s.reviews, PublicAbout(userId))
  }

  function PublicAbout(userId: string): Review -> bool {
    (r: Review) => r.revieweeId == userId && r.isPublic
  }

  datatype Aspect = Overall | Communication | Reliability | Compatibility

  /** The star value a review gives for an aspect (`overall` is the rating). */
  function Stars(r: Review, a: Aspect): int {
    match a
    case Overall => r.rating
    case Communication => r.categories.communication
    case Reliability => r.categories.reliability
    case Compatibility => r.categories.compatibility
  }

  function Total(rs: seq<Review>, a: Aspect): int {
    if |rs| == 0 then 0 else Stars(rs[0], a) + Total(rs[1..], a)
  }

  /** `Math.round(x * 10) / 10`: to one decimal. */
  function RoundTenth(x: real): real {
    Round(x * 10.0) as real / 10.0
  }

  datatype AverageRating = AverageRating(
    overall: real,
    communication: real,
    reliability: real,
    compatibility: real,
    totalReviews: nat)

  function Mean(rs: seq<Review>, a: Aspect): real
    requires |rs| > 0
  {
    RoundTenth(Total(rs, a) as real / |rs| as real)
  }

  /** `getUserAverageRating`: the mean of each aspect over the user's public
      reviews, to one decimal; all zeros when there are none. */
  function UserAverageRating(s: Store, userId: string): (r: AverageRating)
    ensures r.totalReviews == |PublicReviewsOf(s, userId)|
    ensures r.totalReviews == 0 ==> r == AverageRating(0.0, 0.0, 0.0, 0.0, 0)
  {
    var rs := PublicReviewsOf(s, userId);
    if |rs| == 0 then AverageRating(0.0, 0.0, 0.0, 0.0, 0)
    else AverageRating(Mean(rs, Overall), Mean(rs, Communication), Mean(rs, Reliability), Mean(rs, Compatibility), |rs|)
  }

  function Of(r: AverageRating, a: Aspect): real {
    match a
    case Overall => r.overall
    case Communication => r.communication
    case Reliability => r.reliability
    case Compatibility => r.compatibility
  }

  /** Every review gives 1 to 5 stars for the aspect. */
  predicate StarsInRange(rs: seq<Review>, a: Aspect) {
    forall i :: 0 <= i < |rs| ==> 1 <= Stars(rs[i], a) <= 5
  }

  lemma {:induction false} TotalBounds(rs: seq<Review>, a: Aspect)
    requires StarsInRange(rs, a)
    ensures |rs| <= Total(rs, a) <= 5 * |rs|
    decreases |rs|
  {
    if |rs| > 0 {
      assert StarsInRange(rs[1..], a);
      TotalBounds(rs[1..], a);
    }
  }

  /** Rounding to one decimal keeps a value between two whole numbers. */
  lemma RoundTenthBetween(x: real, lo: int, hi: int)
    requires lo as real <= x <= hi as real
    ensures lo as real <= RoundTenth(x) <= hi as real
  {
    var n := Round(x * 10.0);
    assert (lo * 10) as real <= x * 10.0 <= (hi * 10) as real;
    assert lo * 10 <= n <= hi * 10;
    assert (lo * 10) as real == lo as real * 10.0 && (hi * 10) as real == hi as real * 10.0;
    assert lo as real * 10.0 <= n as real <= hi as real * 10.0;
    QuotientBounds(n as real, 10.0, lo as real, hi as real);
  }

  /** When the user's public reviews give 1 to 5 stars for an aspect, its
      average lies between 1 and 5. */
  lemma AverageInRange(s: Store, userId: string, a: Aspect)
    requires |PublicReviewsOf(s, userId)| > 0
    requires StarsInRange(PublicReviewsOf(s, userId), a)
    ensures 1.0 <= Of(UserAverageRating(s, userId), a) <= 5.0
  {
    var rs := PublicReviewsOf(s, userId);
    TotalBounds(rs, a);
    QuotientBounds(Total(rs, a) as real, |rs| as real, 1.0, 5.0);
    RoundTenthBetween(Total(rs, a) as real / |rs| as real, 1, 5);
  }

  /** A reviewee with no public reviews, or only private ones, averages zero. */
  lemma PrivateReviewsIgnored(s: Store, userId: string)
    requires forall i :: 0 <= i < |s.reviews| && s.reviews[i].revieweeId == userId ==> !s.reviews[i].isPublic
    ensures UserAverageRating(s, userId) == AverageRating(0.0, 0.0, 0.0, 0.0, 0)
  {
    var p := (r: Review) => r.revieweeId == userId && r.isPublic;
    FilterEmpty(s.reviews, p);
  }

  /* -------------------------------------------------------------- summary */

  /** The three categories the summary speaks about. */
  const SummaryAspects: seq<Aspect> := [Communication, Reliability, Compatibility]

  function StrengthText(a: Aspect): string {
    match a
    case Communication => "Excellent communication"
    case Reliability => "Very reliable"
    case Compatibility => "Great travel compatibility"
    case Overall => ""
  }

  function ImprovementText(a: Aspect): string {
    match a
    case Communication => "Communication could be improved"
    case Reliability => "More reliability needed"
    case Compatibility => "Better compatibility matching"
    case Overall => ""
  }

  datatype Feedback = Punctual | Friendly | Organised

  function FeedbackText(f: Feedback): string {
    match f
    case Punctual => "Often praised for punctuality"
    case Friendly => "Noted for being friendly and approachable"
    case Organised => "Recognized for good planning skills"
  }

  /** The keywords of one feedback theme, looked for in lower-cased comments. */
  predicate Mentions(comment: string, f: Feedback) {
    var c := ToLower(comment);
    match f
    case Punctual => Contains(c, "punctual") || Contains(c, "on time")
    case Friendly => Contains(c, "friendly") || Contains(c, "easy to talk")
    case Organised => Contains(c, "organized") || Contains(c, "planned")
  }

  predicate Mentioned(rs: seq<Review>, f: Feedback) {
    exists i :: 0 <= i < |rs| && Mentions(rs[i].comment, f)
  }

  datatype ReviewSummary = ReviewSummary(strengths: seq<Aspect>, improvements: seq<Aspect>, commonFeedback: seq<Feedback>)

  /** `generateReviewSummary`: categories averaging 4.0 or more are
      strengths, under 3.0 need improvement; themes mentioned in any comment
      are common feedback; nothing at all without public reviews. */
  function ReviewSummaryOf(s: Store, userId: string): (r: ReviewSummary)
    ensures |PublicReviewsOf(s, userId)| == 0 ==> r == ReviewSummary([], [], [])
  {
    var rs := PublicReviewsOf(s, userId);
    if |rs| == 0 then ReviewSummary([], [], [])
    else
      var avg := UserAverageRating(s, userId);
      ReviewSummary(
        Filter(SummaryAspects, (a: Aspect) => Of(avg, a) >= 4.0),
        Filter(SummaryAspects, (a: Aspect) => Of(avg, a) < 3.0),
        Filter([Punctual, Friendly, Organised], (f: Feedback) => Mentioned(rs, f)))
  }

  /** With public reviews, a category is a strength exactly when it averages
      at least 4.0 and needs improvement exactly when under 3.0, so never
      both; a theme is reported exactly when some comment mentions it. */
  lemma SummaryRules(s: Store, userId: string, a: Aspect, f: Feedback)
    requires |PublicReviewsOf(s, userId)| > 0
    requires a != Overall
    ensures var r := ReviewSummaryOf(s, userId);
      var avg := Of(UserAverageRating(s, userId), a);
      && (a in r.strengths <==> avg >= 4.0)
      && (a in r.improvements <==> avg < 3.0)
      && !(a in r.strengths && a in r.improvements)
      && (f in r.commonFeedback <==> Mentioned(PublicReviewsOf(s, userId), f))
  {
    var avg := UserAverageRating(s, userId);
    var rs := PublicReviewsOf(s, userId);
    FilterMembers(SummaryAspects, (x: Aspect) => Of(avg, x) >= 4.0, a);
    FilterMembers(SummaryAspects, (x: Aspect) => Of(avg, x) < 3.0, a);
    FilterMembers([Punctual, Friendly, Organised], (x: Feedback) => Mentioned(rs, x), f);
  }
}

=== FILE: schedule.dfy ===
/** Calendar logic shared, character for character, by both matching
    pipelines: the trip pre-flight validator, the closed-interval overlap
    filter, and the overlap ratio used as the schedule score. */
module Schedule {
  import opened Common
  import opened Text
  import opened Types

  /** `isBefore(a, b)`: false whenever either date is invalid. */
  predicate IsBefore(a: DateText, b: DateText) {
    a.OnDay? && b.OnDay? && a.day < b.day
  }

  /** `isAfter(a, b)`: false whenever either date is invalid. */
  predicate IsAfter(a: DateText, b: DateText) {
    a.OnDay? && b.OnDay? && a.day > b.day
  }

  /** `differenceInCalendarDays(later, earlier)`; `None` stands for NaN. */
  function DaysBetween(later: DateText, earlier: DateText): (d: Option<int>)
    ensures d.Some? <==> later.OnDay? && earlier.OnDay?
    ensures d.Some? ==> earlier.day + d.value == later.day
  {
    if later.OnDay? && earlier.OnDay? then Some(later.day - earlier.day) else None
  }

  /** A parsed, non-empty closed interval of days. */
  predicate WellFormed(start: DateText, end: DateText) {
    start.OnDay? && end.OnDay? && start.day <= end.day
  }

  predicate InSpan(d: int, start: DateText, end: DateText)
    requires start.OnDay? && end.OnDay?
  {
    start.day <= d <= end.day
  }

  /** The problems `validateTripInput` reports; `Message` gives the wording. */
  datatype TripError = DestinationRequired | DatesRequired | StartAfterEnd | TooLong

  function Message(e: TripError): string {
    match e
    case DestinationRequired => "Destination is required."
    case DatesRequired => "Travel dates are required."
    case StartAfterEnd => "Start date cannot be after end date."
    case TooLong => "Trip duration should be 30 days or less for companion matching."
  }

  /** Position of each check in the order `validateTripInput` pushes its errors. */
  function CheckOrder(e: TripError): nat {
    match e
    case DestinationRequired => 0
    case DatesRequired => 1
    case StartAfterEnd => 2
    case TooLong => 3
  }

  /** Longest allowed distance, in calendar days, between start and end. */
  const MaxTripDays: int := 30

  /** Either date string is empty. */
  predicate DatesMissing(trip: Trip) {
    trip.startDate.NoDate? || trip.endDate.NoDate?
  }

  predicate SpanTooLong(trip: Trip) {
    var d := DaysBetween(trip.endDate, trip.startDate);
    d.Some? && d.value > MaxTripDays
  }

  /** `validateTripInput`: the list of human-readable problems, empty when the
      trip may be matched. Missing dates stop the checks early. */
  function ValidateTripInput(trip: Trip): (errors: seq<TripError>)
    ensures DatesMissing(trip) ==>
      errors == (if IsBlank(trip.destination) then [DestinationRequired] else []) + [DatesRequired]
    ensures !DatesMissing(trip) ==>
      && DatesRequired !in errors
      && (DestinationRequired in errors <==> IsBlank(trip.destination))
      && (StartAfterEnd in errors <==> IsAfter(trip.startDate, trip.endDate))
      && (TooLong in errors <==> SpanTooLong(trip))
      && NoDup(errors)
    ensures errors == [] <==>
      !IsBlank(trip.destination) && !DatesMissing(trip)
      && !IsAfter(trip.startDate, trip.endDate) && !SpanTooLong(trip)
  {
    var destination := if IsBlank(trip.destination) then [DestinationRequired] else [];
    if DatesMissing(trip) then destination + [DatesRequired]
    else
      var order := if IsAfter(trip.startDate, trip.endDate) then [StartAfterEnd] else [];
      var length := if SpanTooLong(trip) then [TooLong] else [];
      destination + order + length
  }

  /** The errors always appear in the order the checks run: destination,
      dates, ordering, length. With the membership clauses of
      `ValidateTripInput` this fixes the whole list. */
  lemma TripErrorsInPushOrder(trip: Trip)
    ensures var errors := ValidateTripInput(trip);
      forall i, j :: 0 <= i < j < |errors| ==> CheckOrder(errors[i]) < CheckOrder(errors[j])
  {
  }

  /** A trip with a destination and parsed dates start <= end <= start + 30 passes. */
  lemma WellFormedTripAccepted(trip: Trip)
    requires !IsBlank(trip.destination)
    requires WellFormed(trip.startDate, trip.endDate)
    requires trip.endDate.day <= trip.startDate.day + MaxTripDays
    ensures ValidateTripInput(trip) == []
  {
  }

  /** Start after end is always reported, whatever else is wrong. */
  lemma ReversedTripRejected(trip: Trip)
    requires trip.startDate.OnDay? && trip.endDate.OnDay?
    requires trip.startDate.day > trip.endDate.day
    ensures StartAfterEnd in ValidateTripInput(trip)
  {
  }

  /** Non-empty date strings that do not parse raise no error: every
      comparison with an Invalid Date is false and its differences are NaN. */
  lemma UnparseableDatesAccepted(trip: Trip)
    requires !IsBlank(trip.destination)
    requires trip.startDate == BadDate && trip.endDate == BadDate
    ensures ValidateTripInput(trip) == []
  {
  }

  /** `hasDateOverlap`: neither interval ends before the other starts. */
  predicate HasDateOverlap(aStart: DateText, aEnd: DateText, bStart: DateText, bEnd: DateText) {
    !IsBefore(aEnd, bStart) && !IsAfter(aStart, bEnd)
  }

  lemma OverlapSymmetric(aStart: DateText, aEnd: DateText, bStart: DateText, bEnd: DateText)
    ensures HasDateOverlap(aStart, aEnd, bStart, bEnd) == HasDateOverlap(bStart, bEnd, aStart, aEnd)
  {
  }

  /** On parsed dates, the filter holds exactly when the closed intervals
      share a calendar day. */
  lemma OverlapIffCommonDay(aStart: DateText, aEnd: DateText, bStart: DateText, bEnd: DateText)
    requires WellFormed(aStart, aEnd) && WellFormed(bStart, bEnd)
    ensures HasDateOverlap(aStart, aEnd, bStart, bEnd) <==>
      exists d :: InSpan(d, aStart, aEnd) && InSpan(d, bStart, bEnd)
  {
    if HasDateOverlap(aStart, aEnd, bStart, bEnd) {
      var d := if aStart.day < bStart.day then bStart.day else aStart.day;
      assert InSpan(d, aStart, aEnd) && InSpan(d, bStart, bEnd);
    }
  }

  /** On parsed dates, no overlap means one interval ends strictly before the other starts. */
  lemma NoOverlapIffSeparated(aStart: DateText, aEnd: DateText, bStart: DateText, bEnd: DateText)
    requires aStart.OnDay? && aEnd.OnDay? && bStart.OnDay? && bEnd.OnDay?
    ensures !HasDateOverlap(aStart, aEnd, bStart, bEnd) <==>
      aEnd.day < bStart.day || bEnd.day < aStart.day
  {
  }

  /** An interval overlaps itself and every interval nested in it. */
  lemma NestedIntervalsOverlap(aStart: DateText, aEnd: DateText, bStart: DateText, bEnd: DateText)
    requires WellFormed(bStart, bEnd)
    requires aStart.OnDay? && aEnd.OnDay?
    requires aStart.day <= bStart.day && bEnd.day <= aEnd.day
    ensures HasDateOverlap(aStart, aEnd, bStart, bEnd)
    ensures HasDateOverlap(bStart, bEnd, bStart, bEnd)
  {
  }

  /** A trip whose dates are both missing or unparseable overlaps every
      interval: both comparisons are false. */
  lemma InvalidDateOverlaps(aStart: DateText, aEnd: DateText, bStart: DateText, bEnd: DateText)
    requires !aStart.OnDay? && !aEnd.OnDay?
    ensures HasDateOverlap(aStart, aEnd, bStart, bEnd)
  {
  }

  /** `calculateDateOverlapScore`: days in common divided by the mean length of
      the two intervals, all counted inclusively; `None` stands for NaN. */
  function DateOverlapScore(aStart: DateText, aEnd: DateText, bStart: DateText, bEnd: DateText): (r: Option<real>)
    ensures aStart.OnDay? && aEnd.OnDay? && bStart.OnDay? && bEnd.OnDay? ==> r.Some?
    ensures r.Some? ==> 0.0 <= r.value <= 1.0
  {
    var overlapStart := if IsAfter(aStart, bStart) then aStart else bStart;
    var overlapEnd := if IsBefore(aEnd, bEnd) then aEnd else bEnd;
    if IsAfter(overlapStart, overlapEnd) then Some(0.0)
    else if aStart.OnDay? && aEnd.OnDay? && bStart.OnDay? && bEnd.OnDay? then
      var aDuration := aEnd.day - aStart.day + 1;
      var bDuration := bEnd.day - bStart.day + 1;
      var overlapDuration := overlapEnd.day - overlapStart.day + 1;
      assert 1 <= overlapDuration <= aDuration && overlapDuration <= bDuration;
      var average := (aDuration + bDuration) as real / 2.0;
      RatioAtMostOne(overlapDuration as real, average);
      Some(overlapDuration as real / average)
    else None
  }

  lemma RatioAtMostOne(x: real, y: real)
    requires 0.0 < x <= y
    ensures 0.0 < x / y <= 1.0
  {
  }

  /** Separated intervals score 0, overlapping ones a ratio in (0, 1]. */
  lemma OverlapScoreMatchesFilter(aStart: DateText, aEnd: DateText, bStart: DateText, bEnd: DateText)
    requires WellFormed(aStart, aEnd) && WellFormed(bStart, bEnd)
    ensures !HasDateOverlap(aStart, aEnd, bStart, bEnd) ==> DateOverlapScore(aStart, aEnd, bStart, bEnd) == Some(0.0)
    ensures HasDateOverlap(aStart, aEnd, bStart, bEnd) ==>
      var r := DateOverlapScore(aStart, aEnd, bStart, bEnd);
      r.Some? && 0.0 < r.value <= 1.0
  {
    if HasDateOverlap(aStart, aEnd, bStart, bEnd) {
      var overlapStart := if IsAfter(aStart, bStart) then aStart else bStart;
      var overlapEnd := if IsBefore(aEnd, bEnd) then aEnd else bEnd;
      var aDuration := aEnd.day - aStart.day + 1;
      var bDuration := bEnd.day - bStart.day + 1;
      var overlapDuration := overlapEnd.day - overlapStart.day + 1;
      RatioAtMostOne(overlapDuration as real, (aDuration + bDuration) as real / 2.0);
    }
  }

  /** A parsed interval scores exactly 1 against itself. */
  lemma OverlapScoreIdentical(start: DateText, end: DateText)
    requires WellFormed(start, end)
    ensures DateOverlapScore(start, end, start, end) == Some(1.0)
  {
    var duration := end.day - start.day + 1;
    assert (duration + duration) as real / 2.0 == duration as real;
    assert duration as real / duration as real == 1.0;
  }

  /** On parsed dates the ratio does not depend on which trip is first. */
  lemma OverlapScoreSymmetric(aStart: DateText, aEnd: DateText, bStart: DateText, bEnd: DateText)
    requires aStart.OnDay? && aEnd.OnDay? && bStart.OnDay? && bEnd.OnDay?
    ensures DateOverlapScore(aStart, aEnd, bStart, bEnd) == DateOverlapScore(bStart, bEnd, aStart, aEnd)
  {
  }
}

=== FILE: simple.dfy ===
/** The simpler matching engine (`runMatchingPipeline`): six weighted
    signals, labels instead of fractional scores for budget, personality and
    location, percentage components, status thresholds 75 and 55, and no
    groups. Candidate selection, the Jaccard score, the sort and the mean are
    the shared ones. */
module SimpleMatching {
  import opened Common
  import opened Text
  import opened Types
  import opened Interests
  import opened CandidatePool
  import opened MatchSort

  const InterestWeight: real := 0.35
  const BudgetWeight: real := 0.2
  const StyleWeight: real := 0.2
  const VerificationWeight: real := 0.1
  const LocationWeight: real := 0.05
  const DateOverlapWeight: real := 0.1

  /* -------------------------------------------------------------- signals */

  /** `getBudgetCompatibility`: High, Medium or Low for scale distance 0, 1, 2. */
  function BudgetLevel(a: Budget, b: Budget): (l: Level)
    ensures l == Level.High <==> a == b
    ensures l == Level.Low <==> OppositeBudgets(a, b)
    ensures l == Level.Medium <==> BudgetDistance(a, b) == 1
  {
    var diff := BudgetDistance(a, b);
    if diff == 0 then Level.High else if diff == 1 then Level.Medium else Level.Low
  }

  /** `scoreBudgetCompatibility`. */
  function BudgetScore(l: Level): real {
    match l
    case High => 1.0
    case Medium => 0.6
    case Low => 0.2
  }

  /** `scoreVerification`. */
  function VerificationScore(v: Verification): real {
    match v
    case Verified => 1.0
    case Pending => 0.5
    case Unverified => 0.0
  }

  /** `scoreStyle`: 1 for the same travel style, 0.4 otherwise. */
  function StyleScore(a: User, b: User): real {
    if a.profile.travelStyle == b.profile.travelStyle then 1.0 else 0.4
  }

  /** `scoreLocation`: 1 for the same normalised city, 0.5 otherwise. */
  function LocationScore(a: User, b: User): real {
    if Normalize(a.currentCity) == Normalize(b.currentCity) then 1.0 else 0.5
  }

  /** `getPersonalityCompatibility`: Medium when either is unset, High when
      equal, Low otherwise. */
  function PersonalityLevel(a: Option<Personality>, b: Option<Personality>): (l: Level)
    ensures l == Level.Medium <==> a.None? || b.None?
    ensures l == Level.High <==> a.Some? && a == b
    ensures l == Level.Low <==> a.Some? && b.Some? && a != b
  {
    if a.None? || b.None? then Level.Medium else if a == b then Level.High else Level.Low
  }

  /** `getLanguageMatch`: false unless both preferences are non-empty;
      otherwise the equality of their normalised forms. */
  function LanguageMatch(a: Option<string>, b: Option<string>): (r: bool)
    ensures !Truthy(a) || !Truthy(b) ==> !r
  {
    if !Truthy(a) || !Truthy(b) then false else Normalize(a.value) == Normalize(b.value)
  }

  /** The language match ignores which user asks, and two unset preferences
      never match. */
  lemma LanguageMatchRules(a: Option<string>, b: Option<string>)
    ensures LanguageMatch(a, b) == LanguageMatch(b, a)
    ensures LanguageMatch(a, b) <==> Truthy(a) && Truthy(b) && Normalize(a.value) == Normalize(b.value)
    ensures !LanguageMatch(None, None)
  {
  }

  /** `getLocationProximity`: same normalised city, else same normalised home
      country, else different. */
  function Proximity(a: User, b: User): (p: Proximity)
    ensures p == SameCity <==> Normalize(a.currentCity) == Normalize(b.currentCity)
    ensures p == Nearby <==>
      Normalize(a.currentCity) != Normalize(b.currentCity) && Normalize(a.homeCountry) == Normalize(b.homeCountry)
  {
    if Normalize(a.currentCity) == Normalize(b.currentCity) then SameCity
    else if Normalize(a.homeCountry) == Normalize(b.homeCountry) then Nearby
    else Different
  }

  lemma ProximitySymmetric(a: User, b: User)
    ensures Proximity(a, b) == Proximity(b, a)
  {
  }

  /* ---------------------------------------------------------------- score */

  /** The weighted sum; the schedule signal is always 1, since only
      overlapping trips reach scoring. */
  function WeightedSum(interest: real, budget: real, style: real, verification: real, location: real): real {
    interest * InterestWeight + budget * BudgetWeight + style * StyleWeight
    + verification * VerificationWeight + location * LocationWeight + 1.0 * DateOverlapWeight
  }

  /** The signal values each scorer can produce. */
  predicate Signals(interest: real, budget: real, style: real, verification: real, location: real) {
    && Unit(interest)
    && (budget == 1.0 || budget == 0.6 || budget == 0.2)
    && (style == 1.0 || style == 0.4)
    && (verification == 1.0 || verification == 0.5 || verification == 0.0)
    && (location == 1.0 || location == 0.5)
  }

  /** The weights add up to 1 (perfect signals give exactly 1), and the
      worst possible signals still give 24.5%, so the rounded score lies in
      [25, 100] and both ends are reached. */
  lemma ScoreBounds(interest: real, budget: real, style: real, verification: real, location: real)
    requires Signals(interest, budget, style, verification, location)
    ensures 25 <= Round(WeightedSum(interest, budget, style, verification, location) * 100.0) <= 100
    ensures WeightedSum(1.0, 1.0, 1.0, 1.0, 1.0) == 1.0
    ensures Round(WeightedSum(0.0, 0.2, 0.4, 0.0, 0.5) * 100.0) == 25
  {
    var w := WeightedSum(interest, budget, style, verification, location);
    assert 0.245 <= w <= 1.0;
  }

  /** `getMatchStatus`: 75 and above is recommended, 55 and above pending. */
  function Status(score: int): (s: MatchStatus)
    ensures s != Matched
    ensures s == Recommended <==> 75 <= score
    ensures s == MatchStatus.Pending <==> 55 <= score < 75
    ensures s == Rejected <==> score < 55
  {
    if score >= 75 then Recommended else if score >= 55 then MatchStatus.Pending else Rejected
  }

  /** The percentage shown for a personality label. */
  function PersonalityPercent(l: Level): real {
    match l
    case High => 100.0
    case Medium => 60.0
    case Low => 30.0
  }

  /** The percentage shown for a proximity. */
  function ProximityPercent(p: Proximity): real {
    match p
    case SameCity => 100.0
    case Nearby => 60.0
    case Different => 20.0
  }

  /* ------------------------------------------------------------- insights */

  /** What the insight rules look at. */
  datatype Signs = Signs(interestPercent: int, budget: Level, proximity: Proximity, language: bool, personality: Level)

  const StrengthOrder: seq<Insight> := [SharedInterests, BudgetAligned, LocalMatch]

  const ConcernOrder: seq<Insight> := [DifferentLanguagePreferences, BudgetExpectationsDiffer, DifferentPersonalityStyles]

  /** The condition under which each insight is reported. */
  predicate Applies(s: Signs, i: Insight) {
    match i
    case SharedInterests => s.interestPercent >= 70
    case BudgetAligned => s.budget == Level.High
    case LocalMatch => s.proximity == SameCity
    case DifferentLanguagePreferences => !s.language
    case BudgetExpectationsDiffer => s.budget == Level.Low
    case DifferentPersonalityStyles => s.personality == Level.Low
    case _ => false
  }

  function AppliesTo(s: Signs): Insight -> bool {
    (i: Insight) => Applies(s, i)
  }

  function Insights(order: seq<Insight>, s: Signs): (r: seq<Insight>)
    ensures |r| <= |order|
  {
    Filter(order, AppliesTo(s))
  }

  /** Two steps when there is anything to discuss, one otherwise. */
  function Recommendations(concerns: seq<Insight>): seq<Insight> {
    if |concerns| > 0 then [DiscussExpectationsEarly, PlanShortIntroCall] else [PlanQuickIntroCall]
  }

  /** Each strength and concern is reported exactly when its rule holds. */
  lemma InsightRules(s: Signs, i: Insight)
    ensures i in Insights(StrengthOrder, s) <==> i in StrengthOrder && Applies(s, i)
    ensures i in Insights(ConcernOrder, s) <==> i in ConcernOrder && Applies(s, i)
  {
    FilterMembers(StrengthOrder, AppliesTo(s), i);
    FilterMembers(ConcernOrder, AppliesTo(s), i);
  }

  /** There is no concern exactly when the languages match and neither the
      budget nor the personality label is Low; then the only recommendation
      is a quick intro call, otherwise there are two. */
  lemma NoConcernRule(s: Signs)
    ensures Insights(ConcernOrder, s) == [] <==> s.language && s.budget != Level.Low && s.personality != Level.Low
    ensures Insights(ConcernOrder, s) == [] ==> Recommendations(Insights(ConcernOrder, s)) == [PlanQuickIntroCall]
    ensures Insights(ConcernOrder, s) != [] ==>
      Recommendations(Insights(ConcernOrder, s)) == [DiscussExpectationsEarly, PlanShortIntroCall]
  {
    FilterEmpty(ConcernOrder, AppliesTo(s));
    assert ConcernOrder[0] == DifferentLanguagePreferences;
    assert ConcernOrder[1] == BudgetExpectationsDiffer;
    assert ConcernOrder[2] == DifferentPersonalityStyles;
  }

  /* ------------------------------------------------------------- matches */

  /** The signs of a pair. */
  function SignsOf(current: User, currentTrip: Trip, e: Entry): Signs {
    Signs(
      Round(InterestSimilarity(current, e.candidate).score * 100.0),
      BudgetLevel(currentTrip.budget, e.trip.budget),
      Proximity(current, e.candidate),
      LanguageMatch(current.profile.languagePreference, e.candidate.profile.languagePreference),
      PersonalityLevel(current.profile.personality, e.candidate.profile.personality))
  }

  /** The rounded weighted score of a pair. */
  function FinalScore(current: User, currentTrip: Trip, e: Entry): int {
    Round(WeightedSum(
      InterestSimilarity(current, e.candidate).score,
      BudgetScore(BudgetLevel(currentTrip.budget, e.trip.budget)),
      StyleScore(current, e.candidate),
      VerificationScore(e.candidate.verificationStatus),
      LocationScore(current, e.candidate)) * 100.0)
  }

  /** Every pair scores between 25 and 100. */
  lemma FinalScoreBounds(current: User, currentTrip: Trip, e: Entry)
    ensures 25 <= FinalScore(current, currentTrip, e) <= 100
  {
    JaccardIndex(current, e.candidate);
    ScoreBounds(
      InterestSimilarity(current, e.candidate).score,
      BudgetScore(BudgetLevel(currentTrip.budget, e.trip.budget)),
      StyleScore(current, e.candidate),
      VerificationScore(e.candidate.verificationStatus),
      LocationScore(current, e.candidate));
  }

  /** The percentage components of a pair. */
  function PercentComponents(current: User, currentTrip: Trip, e: Entry): Components {
    var s := SignsOf(current, currentTrip, e);
    Components(
      s.interestPercent as real,
      Round(BudgetScore(s.budget) * 100.0) as real,
      Round(StyleScore(current, e.candidate) * 100.0) as real,
      PersonalityPercent(s.personality),
      100.0,
      ProximityPercent(s.proximity),
      Round(VerificationScore(e.candidate.verificationStatus) * 100.0) as real,
      None)
  }

  /** The match record of one eligible candidate. `now` stands for
      `new Date().toISOString()`. */
  function BuildMatch(current: User, currentTrip: Trip, e: Entry, now: string): (m: Match)
    ensures m.matchId == MatchId(currentTrip.tripId, e.candidate.userId)
    ensures m.tripId == currentTrip.tripId && m.user == e.candidate
    ensures m.score == m.compatibilityScore.overall == FinalScore(current, currentTrip, e)
    ensures m.matchStatus == Status(m.score)
    ensures m.chatEnabled <==> m.matchStatus != Rejected
  {
    var s := SignsOf(current, currentTrip, e);
    var score := FinalScore(current, currentTrip, e);
    var concerns := Insights(ConcernOrder, s);
    var cs := CompatibilityScore(score, PercentComponents(current, currentTrip, e),
      Insights(StrengthOrder, s), concerns, Recommendations(concerns));
    var details := MatchDetails(
      InterestSimilarity(current, e.candidate).commonInterests,
      s.budget,
      true,
      true,
      current.profile.travelStyle == e.candidate.profile.travelStyle,
      s.personality,
      s.language,
      s.proximity);
    Match(MatchId(currentTrip.tripId, e.candidate.userId), currentTrip.tripId, e.candidate,
      score, Status(score), cs, details, Status(score) != Rejected, now)
  }

  /** The insight lists and details of a match follow the pair's signs. */
  lemma BuildMatchParts(current: User, currentTrip: Trip, e: Entry, now: string)
    ensures var m := BuildMatch(current, currentTrip, e, now);
      var s := SignsOf(current, currentTrip, e);
      && m.compatibilityScore.strengths == Insights(StrengthOrder, s)
      && m.compatibilityScore.concerns == Insights(ConcernOrder, s)
      && m.compatibilityScore.recommendations == Recommendations(m.compatibilityScore.concerns)
      && m.matchDetails.budgetCompatibility == s.budget
      && m.matchDetails.personalityCompatibility == s.personality
      && m.matchDetails.languageMatch == s.language
      && m.matchDetails.locationProximity == s.proximity
      && m.compatibilityScore.components.scheduleOverlap == 100.0
      && m.compatibilityScore.components.experienceBonus.None?
  {
  }

  function NotRejected(m: Match): bool {
    m.matchStatus != Rejected
  }

  function Builder(current: User, currentTrip: Trip, now: string): Entry -> Match {
    (e: Entry) => BuildMatch(current, currentTrip, e, now)
  }

  /** Score every entry and keep those not rejected, in entry order. */
  function ScoreAll(current: User, currentTrip: Trip, entries: seq<Entry>, now: string): (r: seq<Match>)
    ensures |r| <= |entries|
  {
    Filter(Map(entries, Builder(current, currentTrip, now)), NotRejected)
  }

  /** A scored match is the match of one of the entries and scores at least
      55, and every such match is kept. */
  lemma ScoreAllMembers(current: User, currentTrip: Trip, entries: seq<Entry>, now: string, m: Match)
    ensures m in ScoreAll(current, currentTrip, entries, now) <==>
      exists e :: e in entries && BuildMatch(current, currentTrip, e, now) == m && m.score >= 55
  {
    MapFilterMembers(entries, Builder(current, currentTrip, now), NotRejected, m);
  }

  /* ------------------------------------------------------------ pipeline */

  datatype PipelineResult = PipelineResult(matches: seq<Match>, summary: MatchSummary)

  function Scored(current: User, currentTrip: Trip, users: seq<User>, trips: seq<Trip>, now: string): seq<Match> {
    ScoreAll(current, currentTrip, EligibleCandidates(current, currentTrip, users, trips), now)
  }

  /** `runMatchingPipeline`; `now` stands for every timestamp it reads. */
  function RunPipeline(current: User, currentTrip: Trip, users: seq<User>, trips: seq<Trip>, now: string)
    : (r: PipelineResult)
    ensures r.summary.totalCandidates == |Candidates(current, users, trips)|
    ensures r.summary.eligibleAfterFiltering == |EligibleCandidates(current, currentTrip, users, trips)|
    ensures r.matches == SortByScore(Scored(current, currentTrip, users, trips, now))
    ensures r.summary.averageScore == AverageScore(r.matches)
    ensures r.summary.recommended == Count(r.matches, IsRecommended)
    ensures r.summary.matched == Count(r.matches, IsMatched)
  {
    var candidates := Candidates(current, users, trips);
    var filtered := EligibleCandidates(current, currentTrip, users, trips);
    var matches := SortByScore(Scored(current, currentTrip, users, trips, now));
    PipelineResult(matches, MatchSummary(
      |candidates|,
      |filtered|,
      Count(matches, IsRecommended),
      Count(matches, IsMatched),
      AverageScore(matches),
      now,
      Filters(currentTrip.destination, currentTrip.startDate, currentTrip.endDate, currentTrip.budget, currentTrip.travelType)))
  }

  /** Every returned match is for another user whose first trip goes to the
      same normalised destination on overlapping dates; it is that pair's
      match record, scores between 55 and 100 and has chat enabled. */
  lemma PipelineSound(current: User, currentTrip: Trip, users: seq<User>, trips: seq<Trip>, now: string, m: Match)
    requires m in RunPipeline(current, currentTrip, users, trips, now).matches
    ensures m.user in users && m.user.userId != current.userId
    ensures FindTrip(trips, m.user.userId).Some?
    ensures Eligible(currentTrip, Entry(m.user, FindTrip(trips, m.user.userId).value))
    ensures BuildMatch(current, currentTrip, Entry(m.user, FindTrip(trips, m.user.userId).value), now) == m
    ensures m.matchStatus == Recommended || m.matchStatus == MatchStatus.Pending
    ensures m.chatEnabled && 55 <= m.score <= 100
  {
    var filtered := EligibleCandidates(current, currentTrip, users, trips);
    var scored := ScoreAll(current, currentTrip, filtered, now);
    SortMembers(scored, m);
    ScoreAllMembers(current, currentTrip, filtered, now, m);
    var e :| e in filtered && BuildMatch(current, currentTrip, e, now) == m && m.score >= 55;
    EligibleCandidatesMembers(current, currentTrip, users, trips, e);
    FinalScoreBounds(current, currentTrip, e);
  }

  /** Every other user whose first trip is eligible and whose match scores at
      least 55 is returned. */
  lemma PipelineComplete(current: User, currentTrip: Trip, users: seq<User>, trips: seq<Trip>, now: string, u: User)
    requires u in users && u.userId != current.userId && FindTrip(trips, u.userId).Some?
    requires Eligible(currentTrip, Entry(u, FindTrip(trips, u.userId).value))
    requires FinalScore(current, currentTrip, Entry(u, FindTrip(trips, u.userId).value)) >= 55
    ensures BuildMatch(current, currentTrip, Entry(u, FindTrip(trips, u.userId).value), now)
      in RunPipeline(current, currentTrip, users, trips, now).matches
  {
    var e := Entry(u, FindTrip(trips, u.userId).value);
    var m := BuildMatch(current, currentTrip, e, now);
    var filtered := EligibleCandidates(current, currentTrip, users, trips);
    var scored := ScoreAll(current, currentTrip, filtered, now);
    EligibleCandidatesMembers(current, currentTrip, users, trips, e);
    ScoreAllMembers(current, currentTrip, filtered, now, m);
    SortMembers(scored, m);
  }

  /** The matches come sorted by score, highest first, with equal scores in
      the order of the user list. */
  lemma PipelineOrder(current: User, currentTrip: Trip, users: seq<User>, trips: seq<Trip>, now: string, v: int)
    ensures SortedByScore(RunPipeline(current, currentTrip, users, trips, now).matches)
    ensures Filter(RunPipeline(current, currentTrip, users, trips, now).matches, WithScore(v))
      == Filter(Scored(current, currentTrip, users, trips, now), WithScore(v))
  {
    SortSorted(Scored(current, currentTrip, users, trips, now));
    SortIsStable(Scored(current, currentTrip, users, trips, now), v);
  }

  /** The summary counters: no match is ever `Matched`, the recommended
      count is the number of matches scoring 75 or more, the matches are at
      most the eligible candidates, at most the candidates, at most the
      users. */
  lemma SummaryCounters(current: User, currentTrip: Trip, users: seq<User>, trips: seq<Trip>, now: string)
    ensures var r := RunPipeline(current, currentTrip, users, trips, now);
      && r.summary.matched == 0
      && r.summary.recommended == Count(r.matches, ScoresAtLeast(75))
      && r.summary.recommended <= |r.matches| <= r.summary.eligibleAfterFiltering
      && r.summary.eligibleAfterFiltering <= r.summary.totalCandidates <= |users|
  {
    var ms := RunPipeline(current, currentTrip, users, trips, now).matches;
    forall i | 0 <= i < |ms|
      ensures !IsMatched(ms[i])
      ensures IsRecommended(ms[i]) == ScoresAtLeast(75)(ms[i])
    {
      PipelineSound(current, currentTrip, users, trips, now, ms[i]);
    }
    NoneCounted(ms, IsMatched);
    CountAgree(ms, IsRecommended, ScoresAtLeast(75));
    EligibleNoMore(current, currentTrip, users, trips);
  }

  /** The mean score is 0 for no matches and between 55 and 100 otherwise. */
  lemma PipelineAverage(current: User, currentTrip: Trip, users: seq<User>, trips: seq<Trip>, now: string)
    ensures var r := RunPipeline(current, currentTrip, users, trips, now);
      && (|r.matches| == 0 ==> r.summary.averageScore == 0)
      && (|r.matches| > 0 ==> 55 <= r.summary.averageScore <= 100)
  {
    var ms := RunPipeline(current, currentTrip, users, trips, now).matches;
    forall i | 0 <= i < |ms| ensures 55 <= ms[i].score <= 100 {
      PipelineSound(current, currentTrip, users, trips, now, ms[i]);
    }
    if |ms| > 0 {
      AverageAtLeast(ms, 55);
      AverageScoreBounded(ms);
    }
  }
}

=== FILE: text.dfy ===
/** The string primitives the application relies on, over `seq<char>`:
    `trim()`, `toLowerCase()`, `toUpperCase()` of one character,
    `includes()` and `join()`. */
module Text {
  import opened Common

  /** The code points JavaScript's `trim()` strips and its `\s` class matches:
      the WhiteSpace and LineTerminator productions. */
  predicate IsSpace(c: char) {
    || c == ' ' || c == '\t' || c == '\n' || c == '\r'
    || c == '\U{B}' || c == '\U{C}' || c == '\U{A0}' || c == '\U{1680}'
    || ('\U{2000}' <= c <= '\U{200A}')
    || c == '\U{2028}' || c == '\U{2029}' || c == '\U{202F}' || c == '\U{205F}'
    || c == '\U{3000}' || c == '\U{FEFF}'
  }

  predicate IsDigit(c: char) {
    '0' <= c <= '9'
  }

  /** Strip leading white space. */
  function TrimStart(s: string): (r: string)
    ensures |r| <= |s| && r == s[|s| - |r|..]
    ensures r == [] || !IsSpace(r[0])
    ensures forall i :: 0 <= i < |s| - |r| ==> IsSpace(s[i])
  {
    if |s| > 0 && IsSpace(s[0]) then TrimStart(s[1..]) else s
  }

  /** Strip trailing white space. */
  function TrimEnd(s: string): (r: string)
    ensures |r| <= |s| && r == s[..|r|]
    ensures r == [] || !IsSpace(r[|r| - 1])
    ensures forall i :: |r| <= i < |s| ==> IsSpace(s[i])
  {
    if |s| > 0 && IsSpace(s[|s| - 1]) then TrimEnd(s[..|s| - 1]) else s
  }

  /** `s.trim()`: the longest slice of `s` that neither starts nor ends with white space. */
  function Trim(s: string): (r: string)
    ensures |r| <= |s|
    ensures r == [] || (!IsSpace(r[0]) && !IsSpace(r[|r| - 1]))
    ensures r == [] <==> forall i :: 0 <= i < |s| ==> IsSpace(s[i])
  {
    TrimEnd(TrimStart(s))
  }

  /** `!s.trim()`: the string is empty or all white space. */
  predicate IsBlank(s: string) {
    Trim(s) == []
  }

  function LowerChar(c: char): char {
    if 'A' <= c <= 'Z' then (c as int + 32) as char else c
  }

  function UpperChar(c: char): char {
    if 'a' <= c <= 'z' then (c as int - 32) as char else c
  }

  /** `s.toLowerCase()` on the ASCII letters. */
  function ToLower(s: string): (r: string)
    ensures |r| == |s|
    ensures forall i :: 0 <= i < |s| ==> r[i] == LowerChar(s[i])
  {
    seq(|s|, i requires 0 <= i < |s| => LowerChar(s[i]))
  }

  /** `value.trim().toLowerCase()`, the comparison key of both matching pipelines. */
  function Normalize(s: string): string {
    ToLower(Trim(s))
  }

  /** `item.charAt(0).toUpperCase() + item.slice(1)`. */
  function Capitalize(s: string): (r: string)
    ensures |r| == |s|
    ensures |s| > 0 ==> r[0] == UpperChar(s[0]) && r[1..] == s[1..]
  {
    if |s| == 0 then s else [UpperChar(s[0])] + s[1..]
  }

  predicate StartsWith(s: string, prefix: string) {
    |prefix| <= |s| && s[..|prefix|] == prefix
  }

  /** `s.includes(sub)`: `sub` occurs in `s` at some position. */
  predicate Contains(s: string, sub: string)
    decreases |s|
  {
    StartsWith(s, sub) || (|s| > 0 && Contains(s[1..], sub))
  }

  /** An optional string that JavaScript treats as truthy: present and not empty. */
  predicate Truthy(s: Option<string>) {
    s.Some? && s.value != ""
  }

  /** `parts.join(sep)`. */
  function Join(parts: seq<string>, sep: string): string {
    if |parts| == 0 then ""
    else if |parts| == 1 then parts[0]
    else parts[0] + sep + Join(parts[1..], sep)
  }
}

=== FILE: types.dfy ===
/** The records of the application (users, trips, matches, groups, reviews,
    chats, place requests). Emergency alerts live in `EmergencySOS`.
    Optional fields are `Option`s; ISO date strings are `DateText`. */
module Types {
  import opened Common

  datatype Budget = Low | Medium | High

  /** Position on the scale Low, Medium, High (`scale.indexOf(budget)`). */
  function BudgetRank(b: Budget): int {
    match b
    case Low => 0
    case Medium => 1
    case High => 2
  }

  /** One budget is Low and the other High. */
  predicate OppositeBudgets(a: Budget, b: Budget) {
    (a == Budget.Low && b == Budget.High) || (a == Budget.High && b == Budget.Low)
  }

  /** `Math.abs(scale.indexOf(a) - scale.indexOf(b))`. */
  function BudgetDistance(a: Budget, b: Budget): (d: int)
    ensures 0 <= d <= 2
    ensures d == 0 <==> a == b
    ensures d == 2 <==> OppositeBudgets(a, b)
  {
    if BudgetRank(a) >= BudgetRank(b) then BudgetRank(a) - BudgetRank(b) else BudgetRank(b) - BudgetRank(a)
  }

  lemma BudgetDistanceSymmetric(a: Budget, b: Budget)
    ensures BudgetDistance(a, b) == BudgetDistance(b, a)
  {
  }
  datatype TravelStyle = Backpacking | Luxury | Standard | Adventure
  datatype Personality = Introvert | Extrovert | Ambivert

  /** Two set personalities, one extrovert and one introvert. */
  predicate OppositePersonalities(a: Option<Personality>, b: Option<Personality>) {
    (a == Some(Extrovert) && b == Some(Introvert)) || (a == Some(Introvert) && b == Some(Extrovert))
  }
  datatype Verification = Verified | Unverified | Pending
  datatype Gender = Male | Female | NonBinary | Other
  /** A trip's travel type; a group's `groupType` ranges over the same four values. */
  datatype TravelType = Leisure | Business | Backpacking | Adventure
  /** The status of a trip or of a group. */
  datatype PlanStatus = Planning | Active | Completed | Cancelled
  datatype MatchStatus = Recommended | Pending | Matched | Rejected
  /** The High / Medium / Low labels shown for budget and personality compatibility. */
  datatype Level = High | Medium | Low
  datatype Proximity = SameCity | Nearby | Different

  /** An ISO calendar-date string as the date library sees it: empty (falsy),
      present but unparseable (an Invalid Date, which compares false with
      everything and yields NaN differences), or a day number. */
  datatype DateText = NoDate | BadDate | OnDay(day: int)

  datatype TravelProfile = TravelProfile(
    budget: Budget,
    travelStyle: TravelStyle,
    interests: seq<string>,
    personality: Option<Personality>,
    languagePreference: Option<string>)

  datatype Stats = Stats(
    tripsCompleted: int,
    reviewsReceived: int,
    averageRating: real,
    responseRate: real)

  datatype User = User(
    userId: string,
    name: string,
    email: string,
    phone: Option<string>,
    age: int,
    gender: Gender,
    verificationStatus: Verification,
    bio: string,
    homeCountry: string,
    currentCity: string,
    profile: TravelProfile,
    stats: Stats)

  datatype Trip = Trip(
    tripId: string,
    userId: string,
    destination: string,
    startDate: DateText,
    endDate: DateText,
    travelType: TravelType,
    budget: Budget,
    status: PlanStatus,
    description: Option<string>)

  /** Named sub-scores. The richer pipeline fills them with values in [0,1]
      and adds `experienceBonus`; the simpler one stores percentages. */
  datatype Components = Components(
    interestSimilarity: real,
    budgetCompatibility: real,
    travelStyleMatch: real,
    personalityMatch: real,
    scheduleOverlap: real,
    locationProximity: real,
    verificationBonus: real,
    experienceBonus: Option<real>)

  /** The fixed insight messages of both matching pipelines; `InsightText`
      gives the wording shown to the user. */
  datatype Insight =
    | StrongInterestAlignment | PerfectBudgetMatch | CompatiblePersonalities | SameLocation
    | GreatScheduleOverlap | LimitedSharedInterests | BudgetMismatch | LimitedScheduleOverlap
    | ConsiderCommunicationStyles | PlanMeetingLogistics | VerifyProfileAuthenticity
    | SharedInterests | BudgetAligned | LocalMatch
    | DifferentLanguagePreferences | BudgetExpectationsDiffer | DifferentPersonalityStyles
    | DiscussExpectationsEarly | PlanShortIntroCall | PlanQuickIntroCall

  function InsightText(i: Insight): string {
    match i
    case StrongInterestAlignment => "Strong interest alignment"
    case PerfectBudgetMatch => "Perfect budget match"
    case CompatiblePersonalities => "Compatible personalities"
    case SameLocation => "Same location"
    case GreatScheduleOverlap => "Great schedule overlap"
    case LimitedSharedInterests => "Limited shared interests"
    case BudgetMismatch => "Budget mismatch"
    case LimitedScheduleOverlap => "Limited schedule overlap"
    case ConsiderCommunicationStyles => "Consider communication styles"
    case PlanMeetingLogistics => "Plan meeting logistics"
    case VerifyProfileAuthenticity => "Verify profile authenticity"
    case SharedInterests => "Shared interests"
    case BudgetAligned => "Budget aligned"
    case LocalMatch => "Local match"
    case DifferentLanguagePreferences => "Different language preferences"
    case BudgetExpectationsDiffer => "Budget expectations differ"
    case DifferentPersonalityStyles => "Different personality styles"
    case DiscussExpectationsEarly => "Discuss expectations early"
    case PlanShortIntroCall => "Plan a short intro call"
    case PlanQuickIntroCall => "Plan a quick intro call"
  }

  datatype CompatibilityScore = CompatibilityScore(
    overall: int,
    components: Components,
    strengths: seq<Insight>,
    concerns: seq<Insight>,
    recommendations: seq<Insight>)

  datatype MatchDetails = MatchDetails(
    interestMatch: seq<string>,
    budgetCompatibility: Level,
    dateOverlap: bool,
    destinationMatch: bool,
    styleMatch: bool,
    personalityCompatibility: Level,
    languageMatch: bool,
    locationProximity: Proximity)

  datatype Match = Match(
    matchId: string,
    tripId: string,
    user: User,
    score: int,
    matchStatus: MatchStatus,
    compatibilityScore: CompatibilityScore,
    matchDetails: MatchDetails,
    chatEnabled: bool,
    createdAt: string)

  datatype Filters = Filters(
    destination: string,
    start: DateText,
    end: DateText,
    budget: Budget,
    travelType: TravelType)

  datatype MatchSummary = MatchSummary(
    totalCandidates: nat,
    eligibleAfterFiltering: nat,
    recommended: nat,
    matched: nat,
    averageScore: int,
    generatedAt: string,
    filters: Filters)

  datatype Group = Group(
    groupId: string,
    tripId: string,
    name: string,
    members: seq<User>,
    createdBy: string,
    createdAt: string,
    status: PlanStatus,
    maxMembers: int,
    groupType: TravelType,
    destination: string,
    startDate: DateText,
    endDate: DateText,
    budget: Budget,
    description: Option<string>)

  /** Star ratings are whole numbers. */
  datatype Categories = Categories(
    communication: int,
    reliability: int,
    compatibility: int,
    overall: int)

  datatype Review = Review(
    reviewId: string,
    matchId: Option<string>,
    groupId: Option<string>,
    reviewerId: string,
    revieweeId: string,
    tripId: Option<string>,
    rating: int,
    comment: string,
    categories: Categories,
    isPublic: bool,
    createdAt: string,
    helpfulVotes: int)

  datatype Reaction = Reaction(emoji: string, userId: string)

  datatype MessageKind = PlainText | Image | LocationPin | File

  datatype ChatMessage = ChatMessage(
    messageId: string,
    chatId: string,
    senderId: string,
    text: string,
    timestamp: string,
    messageType: MessageKind,
    isEdited: bool,
    editedAt: Option<string>,
    readBy: seq<string>,
    reactions: seq<Reaction>)

  datatype ChatKind = MatchChat | GroupChat

  /** A chat room. Its `lastMessage` is shared with the message list, so
      the chat store tracks it beside the record (`ChatStore.LastMessage`). */
  datatype Chat = Chat(
    chatId: string,
    participants: seq<string>,
    matchId: Option<string>,
    groupId: Option<string>,
    kind: ChatKind,
    createdAt: string,
    isActive: bool)

  datatype RequestStatus = Open | InProgress | Closed

  datatype PlaceRequest = PlaceRequest(
    requestId: string,
    userId: string,
    userName: string,
    destination: string,
    placeImage: string,
    pinLat: real,
    pinLng: real,
    pinLabel: string,
    startDate: DateText,
    endDate: DateText,
    companionsNeeded: int,
    budget: Budget,
    travelType: TravelType,
    notes: string,
    createdAt: string,
    status: RequestStatus,
    applicants: seq<string>)
}

=== FILE: validation.dfy ===
/** The input validator (`DataValidator`): field checks on partly filled
    user, travel-profile, trip, review, emergency-alert and group records,
    the email and phone patterns, and the string sanitisers.

    Every check that can fail is an `Issue`; a validator lists the issues of
    its record in a fixed order and reports those its input violates, in
    that order, which is the order the source pushes its errors. */
module Validation {
  import opened Common
  import opened Text
  import opened Types
  import EmergencySOS

  /* -------------------------------------------------------------- inputs */

  /** A string-typed enumeration field of a partial record: absent or empty
      (falsy), a string outside the allowed list, or an allowed value. */
  datatype Choice<T> = Missing | Unlisted | Given(value: T)

  datatype Accommodation = Hostel | Hotel | Airbnb | Guesthouse
  datatype Transport = PublicTransport | Rental | Walking | Mixed

  datatype ProfileInput = ProfileInput(
    budget: Choice<Budget>,
    travelStyle: Choice<TravelStyle>,
    interests: Option<seq<string>>,
    personality: Choice<Personality>,
    dietaryRestrictions: Option<seq<string>>,
    accommodationPreference: Choice<Accommodation>,
    transportPreference: Choice<Transport>)

  datatype UserInput = UserInput(
    name: Option<string>,
    email: Option<string>,
    age: Option<int>,
    gender: Choice<Gender>,
    phone: Option<string>,
    bio: Option<string>,
    profile: Option<ProfileInput>)

  datatype TripInput = TripInput(
    destination: Option<string>,
    startDate: DateText,
    endDate: DateText,
    travelType: Choice<TravelType>,
    budget: Choice<Budget>,
    description: Option<string>)

  datatype ReviewInput = ReviewInput(
    rating: Option<int>,
    comment: Option<string>,
    categories: Option<Categories>)

  datatype AlertInput = AlertInput(
    alertType: Choice<EmergencySOS.AlertType>,
    message: Option<string>,
    severity: Choice<EmergencySOS.Severity>,
    location: Option<EmergencySOS.Location>)

  datatype GroupInput = GroupInput(
    name: Option<string>,
    destination: Option<string>,
    maxMembers: Option<int>,
    groupType: Choice<TravelType>,
    startDate: DateText,
    endDate: DateText,
    description: Option<string>)

  /* -------------------------------------------------------------- errors */

  /** One failed check. Checks that share a field, code and message (the
      budget and the date checks of trips and groups) are one issue. */
  datatype Issue =
    | NameTooShort | BadEmail | BadAge | BadGender | BadPhone | BioTooLong
    | BadBudget | BadTravelStyle | NoInterests | TooManyInterests | BadPersonality
    | TooManyDietary | BadAccommodation | BadTransport
    | TripDestinationTooShort | BadStartDate | BadEndDate | BadDateRange | TripTooLong
    | TripTooShort | PastStartDate | BadTravelType | TripDescriptionTooLong
    | BadRating | CommentTooShort | CommentTooLong
    | BadCommunication | BadReliability | BadCompatibility | BadOverall
    | BadAlertType | AlertMessageTooShort | AlertMessageTooLong | BadSeverity
    | BadLatitude | BadLongitude | BadAddress
    | GroupNameTooShort | GroupNameTooLong | GroupDestinationMissing | BadGroupSize
    | BadGroupType | GroupDescriptionTooLong

  /** A `ValidationError`: the issue, and whether it is a profile error
      re-reported by the user validator, whose field then carries `profile.`. */
  datatype ValidationError = ValidationError(issue: Issue, inProfile: bool)

  function Plain(i: Issue): ValidationError {
    ValidationError(i, false)
  }

  function Field(e: ValidationError): string {
    (if e.inProfile then "profile." else "") + FieldName(e.issue)
  }

  function FieldName(i: Issue): string {
    match i
    case NameTooShort => "name"
    case BadEmail => "email"
    case BadAge => "age"
    case BadGender => "gender"
    case BadPhone => "phone"
    case BioTooLong => "bio"
    case BadBudget => "budget"
    case BadTravelStyle => "travelStyle"
    case NoInterests => "interests"
    case TooManyInterests => "interests"
    case BadPersonality => "personality"
    case TooManyDietary => "dietaryRestrictions"
    case BadAccommodation => "accommodationPreference"
    case BadTransport => "transportPreference"
    case TripDestinationTooShort => "destination"
    case BadStartDate => "startDate"
    case BadEndDate => "endDate"
    case BadDateRange => "endDate"
    case TripTooLong => "endDate"
    case TripTooShort => "endDate"
    case PastStartDate => "startDate"
    case BadTravelType => "travelType"
    case TripDescriptionTooLong => "description"
    case BadRating => "rating"
    case CommentTooShort => "comment"
    case CommentTooLong => "comment"
    case BadCommunication => "categories.communication"
    case BadReliability => "categories.reliability"
    case BadCompatibility => "categories.compatibility"
    case BadOverall => "categories.overall"
    case BadAlertType => "alertType"
    case AlertMessageTooShort => "message"
    case AlertMessageTooLong => "message"
    case BadSeverity => "severity"
    case BadLatitude => "location.latitude"
    case BadLongitude => "location.longitude"
    case BadAddress => "location.address"
    case GroupNameTooShort => "name"
    case GroupNameTooLong => "name"
    case GroupDestinationMissing => "destination"
    case BadGroupSize => "maxMembers"
    case BadGroupType => "groupType"
    case GroupDescriptionTooLong => "description"
  }

  function Code(i: Issue): string {
    match i
    case NameTooShort => "INVALID_NAME"
    case BadEmail => "INVALID_EMAIL"
    case BadAge => "INVALID_AGE"
    case BadGender => "INVALID_GENDER"
    case BadPhone => "INVALID_PHONE"
    case BioTooLong => "INVALID_BIO"
    case BadBudget => "INVALID_BUDGET"
    case BadTravelStyle => "INVALID_TRAVEL_STYLE"
    case NoInterests => "NO_INTERESTS"
    case TooManyInterests => "TOO_MANY_INTERESTS"
    case BadPersonality => "INVALID_PERSONALITY"
    case TooManyDietary => "TOO_MANY_DIETARY"
    case BadAccommodation => "INVALID_ACCOMMODATION"
    case BadTransport => "INVALID_TRANSPORT"
    case TripDestinationTooShort => "INVALID_DESTINATION"
    case BadStartDate => "INVALID_START_DATE"
    case BadEndDate => "INVALID_END_DATE"
    case BadDateRange => "INVALID_DATE_RANGE"
    case TripTooLong => "TRIP_TOO_LONG"
    case TripTooShort => "TRIP_TOO_SHORT"
    case PastStartDate => "PAST_START_DATE"
    case BadTravelType => "INVALID_TRAVEL_TYPE"
    case TripDescriptionTooLong => "INVALID_DESCRIPTION"
    case BadRating => "INVALID_RATING"
    case CommentTooShort => "COMMENT_TOO_SHORT"
    case CommentTooLong => "COMMENT_TOO_LONG"
    case BadCommunication => "INVALID_COMMUNICATION_RATING"
    case BadReliability => "INVALID_RELIABILITY_RATING"
    case BadCompatibility => "INVALID_COMPATIBILITY_RATING"
    case BadOverall => "INVALID_OVERALL_RATING"
    case BadAlertType => "INVALID_ALERT_TYPE"
    case AlertMessageTooShort => "MESSAGE_TOO_SHORT"
    case AlertMessageTooLong => "MESSAGE_TOO_LONG"
    case BadSeverity => "INVALID_SEVERITY"
    case BadLatitude => "INVALID_LATITUDE"
    case BadLongitude => "INVALID_LONGITUDE"
    case BadAddress => "INVALID_ADDRESS"
    case GroupNameTooShort => "INVALID_GROUP_NAME"
    case GroupNameTooLong => "GROUP_NAME_TOO_LONG"
    case GroupDestinationMissing => "INVALID_DESTINATION"
    case BadGroupSize => "INVALID_GROUP_SIZE"
    case BadGroupType => "INVALID_GROUP_TYPE"
    case GroupDescriptionTooLong => "INVALID_DESCRIPTION"
  }

  function Message(i: Issue): string {
    match i
    case NameTooShort => "Name must be at least 2 characters long"
    case BadEmail => "Valid email is required"
    case BadAge => "Age must be between 18 and 100"
    case BadGender => "Valid gender is required"
    case BadPhone => "Valid phone number is required"
    case BioTooLong => "Bio must be less than 500 characters"
    case BadBudget => "Valid budget range is required"
    case BadTravelStyle => "Valid travel style is required"
    case NoInterests => "At least one interest is required"
    case TooManyInterests => "Maximum 10 interests allowed"
    case BadPersonality => "Valid personality type is required"
    case TooManyDietary => "Maximum 5 dietary restrictions allowed"
    case BadAccommodation => "Valid accommodation preference is required"
    case BadTransport => "Valid transport preference is required"
    case TripDestinationTooShort => "Destination must be at least 2 characters long"
    case BadStartDate => "Valid start date is required"
    case BadEndDate => "Valid end date is required"
    case BadDateRange => "End date must be after start date"
    case TripTooLong => "Trip duration cannot exceed 30 days"
    case TripTooShort => "Trip duration must be at least 1 day"
    case PastStartDate => "Start date cannot be in the past"
    case BadTravelType => "Valid travel type is required"
    case TripDescriptionTooLong => "Description must be less than 1000 characters"
    case BadRating => "Rating must be between 1 and 5"
    case CommentTooShort => "Comment must be at least 10 characters long"
    case CommentTooLong => "Comment must be less than 1000 characters"
    case BadCommunication => "Communication rating must be between 1 and 5"
    case BadReliability => "Reliability rating must be between 1 and 5"
    case BadCompatibility => "Compatibility rating must be between 1 and 5"
    case BadOverall => "Overall rating must be between 1 and 5"
    case BadAlertType => "Valid alert type is required"
    case AlertMessageTooShort => "Message must be at least 5 characters long"
    case AlertMessageTooLong => "Message must be less than 500 characters"
    case BadSeverity => "Valid severity level is required"
    case BadLatitude => "Valid latitude is required"
    case BadLongitude => "Valid longitude is required"
    case BadAddress => "Valid address is required"
    case GroupNameTooShort => "Group name must be at least 3 characters long"
    case GroupNameTooLong => "Group name must be less than 50 characters"
    case GroupDestinationMissing => "Destination is required"
    case BadGroupSize => "Group size must be between 2 and 20 members"
    case BadGroupType => "Valid group type is required"
    case GroupDescriptionTooLong => "Description must be less than 500 characters"
  }

  /** The errors for the issues among `checks` that `fails`, in check order. */
  function Report(checks: seq<Issue>, fails: Issue -> bool): (r: seq<ValidationError>)
    ensures forall k :: 0 <= k < |r| ==> !r[k].inProfile && r[k].issue in checks && fails(r[k].issue)
    ensures NoDup(checks) ==> NoDup(r)
  {
    var found := Filter(checks, fails);
    assert forall k :: 0 <= k < |found| ==> found[k] in checks by {
      forall k | 0 <= k < |found| ensures found[k] in checks {
        FilterMembers(checks, fails, found[k]);
      }
    }
    assert NoDup(checks) ==> NoDup(Map(found, Plain)) by {
      if NoDup(checks) {
        FilterNoDup(checks, fails);
        var r := Map(found, Plain);
        forall i, j | 0 <= i < j < |r| ensures r[i] != r[j] {
          assert r[i].issue == found[i] && r[j].issue == found[j];
        }
      }
    }
    Map(found, Plain)
  }

  /** No validator checks an issue twice. */
  lemma ChecksDistinct()
    ensures NoDup(ProfileChecks) && NoDup(TripChecks) && NoDup(ReviewChecks)
    ensures NoDup(AlertChecks) && NoDup(GroupChecks) && NoDup(UserChecks)
  {
  }

  /** An issue is reported exactly when it is among the checks and fails. */
  lemma Reported(checks: seq<Issue>, fails: Issue -> bool, i: Issue)
    ensures Plain(i) in Report(checks, fails) <==> i in checks && fails(i)
  {
    var found := Filter(checks, fails);
    FilterMembers(checks, fails, i);
    if i in found {
      var k :| 0 <= k < |found| && found[k] == i;
      assert Report(checks, fails)[k] == Plain(i);
    }
  }

  /* ------------------------------------------------------ email and phone */

  predicate NoSpaceOrAt(s: string) {
    forall i :: 0 <= i < |s| ==> s[i] != '@' && !IsSpace(s[i])
  }

  /** A `.` with at least one character on each side. */
  predicate HasInnerDot(s: string) {
    exists j :: 0 < j < |s| - 1 && s[j] == '.'
  }

  /** `/^[^\s@]+@[^\s@]+\.[^\s@]+$/`: one `@` with something before it, no
      whitespace, and a dot inside the part after the `@`. */
  predicate IsValidEmail(e: string) {
    var at := FirstIndex(e, (c: char) => c == '@');
    at.Some? && at.value > 0 && NoSpaceOrAt(e[..at.value]) && NoSpaceOrAt(e[at.value + 1..])
    && HasInnerDot(e[at.value + 1..])
  }

  /** The email pattern splits at the one `@`: it accepts `local@domain`
      exactly when the local part is non-empty, neither part has a blank or
      another `@`, and the domain has a dot with characters on both sides. */
  lemma EmailShape(local: string, domain: string)
    requires '@' !in local
    ensures IsValidEmail(local + "@" + domain)
      <==> |local| > 0 && NoSpaceOrAt(local) && NoSpaceOrAt(domain) && HasInnerDot(domain)
  {
    var e := local + "@" + domain;
    var at := FirstIndex(e, (c: char) => c == '@');
    assert e[|local|] == '@';
    assert forall j :: 0 <= j < |local| ==> e[j] == local[j];
    assert at == Some(|local|);
    assert e[..|local|] == local;
    assert e[|local| + 1..] == domain;
  }

  /** Without an `@` nothing is an email. */
  lemma EmailNeedsAt(e: string)
    requires '@' !in e
    ensures !IsValidEmail(e)
  {
  }

  predicate PhoneChar(c: char) {
    IsDigit(c) || IsSpace(c) || c == '-' || c == '(' || c == ')'
  }

  function DigitCount(s: string): nat {
    Count(s, IsDigit)
  }

  /** `/^[+]?[\d\s\-\(\)]+$/` and at least ten digits. */
  predicate IsValidPhone(p: string) {
    |PhoneBody(p)| > 0 && AllPhoneChars(PhoneBody(p)) && DigitCount(p) >= 10
  }

  /** The number without its optional leading `+`. */
  function PhoneBody(p: string): string {
    if |p| > 0 && p[0] == '+' then p[1..] else p
  }

  predicate AllPhoneChars(s: string) {
    forall i :: 0 <= i < |s| ==> PhoneChar(s[i])
  }

  /** Only digits, blanks, `-`, `(`, `)` and a leading `+`. */
  predicate PhoneShaped(p: string) {
    forall i :: 0 <= i < |p| ==> PhoneChar(p[i]) || (i == 0 && p[i] == '+')
  }

  /** A phone number is valid exactly when it uses only the allowed
      characters, `+` only in front, and has at least ten digits. */
  lemma PhoneRule(p: string)
    ensures IsValidPhone(p) <==> PhoneShaped(p) && DigitCount(p) >= 10
  {
    if |p| > 0 && p[0] == '+' {
      var body := p[1..];
      assert forall i :: 1 <= i < |p| ==> p[i] == body[i - 1];
      assert PhoneBody(p) == body;
      if IsValidPhone(p) {
        assert AllPhoneChars(body);
        forall i | 0 <= i < |p| ensures PhoneChar(p[i]) || (i == 0 && p[i] == '+') {
          if i > 0 {
            assert PhoneChar(body[i - 1]);
          }
        }
      }
      if PhoneShaped(p) && DigitCount(p) >= 10 {
        assert DigitCount(p) == Count(body, IsDigit);
        forall j | 0 <= j < |body| ensures PhoneChar(body[j]) {
          assert p[j + 1] == body[j];
        }
      }
    }
  }

  /* ------------------------------------------------------------ validators */

  const UserChecks: seq<Issue> := [NameTooShort, BadEmail, BadAge, BadGender, BadPhone, BioTooLong]

  predicate UserFails(u: UserInput, i: Issue) {
    match i
    case NameTooShort => !Truthy(u.name) || |Trim(u.name.value)| < 2
    case BadEmail => !Truthy(u.email) || !IsValidEmail(u.email.value)
    case BadAge => u.age.None? || u.age.value == 0 || u.age.value < 18 || u.age.value > 100
    case BadGender => !u.gender.Given?
    case BadPhone => !Truthy(u.phone) || !IsValidPhone(u.phone.value)
    case BioTooLong => Truthy(u.bio) && |u.bio.value| > 500
    case _ => false
  }

  function UserTest(u: UserInput): Issue -> bool {
    i => UserFails(u, i)
  }

  const ProfileChecks: seq<Issue> :=
    [BadBudget, BadTravelStyle, NoInterests, TooManyInterests, BadPersonality, TooManyDietary,
     BadAccommodation, BadTransport]

  predicate ProfileFails(p: ProfileInput, i: Issue) {
    match i
    case BadBudget => !p.budget.Given?
    case BadTravelStyle => !p.travelStyle.Given?
    case NoInterests => p.interests.None? || |p.interests.value| == 0
    case TooManyInterests => !(p.interests.None? || |p.interests.value| == 0) && |p.interests.value| > 10
    case BadPersonality => p.personality.Unlisted?
    case TooManyDietary => p.dietaryRestrictions.Some? && |p.dietaryRestrictions.value| > 5
    case BadAccommodation => p.accommodationPreference.Unlisted?
    case BadTransport => p.transportPreference.Unlisted?
    case _ => false
  }

  function ProfileTest(p: ProfileInput): Issue -> bool {
    i => ProfileFails(p, i)
  }

  /** `validateTravelProfile`. */
  function ValidateTravelProfile(p: ProfileInput): (r: seq<ValidationError>)
    ensures |r| <= |ProfileChecks|
    ensures NoDup(r)
    ensures forall k :: 0 <= k < |r| ==> !r[k].inProfile
  {
    ChecksDistinct();
    Report(ProfileChecks, ProfileTest(p))
  }

  /** A profile issue is reported exactly when it is checked and fails. */
  lemma ProfileReports(p: ProfileInput, i: Issue)
    ensures Plain(i) in ValidateTravelProfile(p) <==> i in ProfileChecks && ProfileFails(p, i)
  {
    Reported(ProfileChecks, ProfileTest(p), i);
  }

  /** A profile error re-reported under `profile.`. */
  function Nested(e: ValidationError): (r: ValidationError)
    ensures r.issue == e.issue && r.inProfile
    ensures !e.inProfile ==> Field(r) == "profile." + Field(e)
  {
    ValidationError(e.issue, true)
  }

  /** The user's own errors, without the profile's. */
  function UserErrors(u: UserInput): (r: seq<ValidationError>)
    ensures forall k :: 0 <= k < |r| ==> !r[k].inProfile
  {
    Report(UserChecks, UserTest(u))
  }

  /** The profile's errors as the user validator re-reports them. */
  function ProfileErrors(u: UserInput): (r: seq<ValidationError>)
    ensures forall k :: 0 <= k < |r| ==> r[k].inProfile
    ensures u.profile.None? ==> r == []
    ensures u.profile.Some? ==> |r| == |ValidateTravelProfile(u.profile.value)|
  {
    if u.profile.Some? then Map(ValidateTravelProfile(u.profile.value), Nested) else []
  }

  /** `validateUser`: the user's own errors, then the profile's. */
  function ValidateUser(u: UserInput): (r: seq<ValidationError>)
    ensures |r| <= |UserChecks| + |ProfileChecks|
    ensures forall k :: 0 <= k < |r| ==> (r[k].inProfile <==> k >= |UserErrors(u)|)
  {
    UserErrors(u) + ProfileErrors(u)
  }

  /** The user's own errors come first and carry no prefix, so a nested
      error is never mistaken for one of them. */
  lemma UserReports(u: UserInput, i: Issue)
    ensures Plain(i) in ValidateUser(u) <==> i in UserChecks && UserFails(u, i)
  {
    Reported(UserChecks, UserTest(u), i);
    assert Plain(i) !in ProfileErrors(u);
  }

  /** `INVALID_AGE` is reported exactly when the age is missing or outside
      18 to 100. */
  lemma AgeRule(u: UserInput)
    ensures Plain(BadAge) in ValidateUser(u) <==> u.age.None? || u.age.value < 18 || u.age.value > 100
  {
    assert UserFails(u, BadAge) <==> u.age.None? || u.age.value < 18 || u.age.value > 100;
    UserReports(u, BadAge);
  }

  /** With a profile, the user's errors end with every profile error, in
      order, with the same issue (so the same code and message) and the
      field under `profile.`. */
  lemma ProfileErrorsNested(u: UserInput)
    requires u.profile.Some?
    ensures var own := UserErrors(u);
      var inner := ValidateTravelProfile(u.profile.value);
      var all := ValidateUser(u);
      && |all| == |own| + |inner|
      && all[..|own|] == own
      && (forall k :: 0 <= k < |inner| ==>
            all[|own| + k].issue == inner[k].issue && Field(all[|own| + k]) == "profile." + Field(inner[k]))
  {
    UserErrorsLength(u);
    UserErrorsFirst(u);
    ProfileErrorsLast(u);
    var inner := ValidateTravelProfile(u.profile.value);
    forall k | 0 <= k < |inner|
      ensures ProfileErrors(u)[k].issue == inner[k].issue && Field(ProfileErrors(u)[k]) == "profile." + Field(inner[k])
    {
      assert ProfileErrors(u)[k] == Nested(inner[k]);
      assert !inner[k].inProfile;
    }
  }

  lemma UserErrorsLength(u: UserInput)
    requires u.profile.Some?
    ensures |ValidateUser(u)| == |UserErrors(u)| + |ValidateTravelProfile(u.profile.value)|
  {
  }

  lemma UserErrorsFirst(u: UserInput)
    ensures ValidateUser(u)[..|UserErrors(u)|] == UserErrors(u)
  {
  }

  lemma ProfileErrorsLast(u: UserInput)
    ensures forall k :: 0 <= k < |ProfileErrors(u)| ==> ValidateUser(u)[|UserErrors(u)| + k] == ProfileErrors(u)[k]
  {
  }

  /** `NO_INTERESTS` for a missing or empty list, `TOO_MANY_INTERESTS` for
      more than ten, never both. */
  lemma InterestsRule(p: ProfileInput)
    ensures Plain(NoInterests) in ValidateTravelProfile(p) <==> p.interests.None? || |p.interests.value| == 0
    ensures Plain(TooManyInterests) in ValidateTravelProfile(p) <==> p.interests.Some? && |p.interests.value| > 10
    ensures !(Plain(NoInterests) in ValidateTravelProfile(p) && Plain(TooManyInterests) in ValidateTravelProfile(p))
  {
    assert ProfileFails(p, NoInterests) <==> p.interests.None? || |p.interests.value| == 0;
    assert ProfileFails(p, TooManyInterests) <==> p.interests.Some? && |p.interests.value| > 10;
    ProfileReports(p, NoInterests);
    ProfileReports(p, TooManyInterests);
  }

  const TripChecks: seq<Issue> :=
    [TripDestinationTooShort, BadStartDate, BadEndDate, BadDateRange, TripTooLong, TripTooShort,
     PastStartDate, BadTravelType, BadBudget, TripDescriptionTooLong]

  /** The trip's length in days when both dates are real days
      (`calculateDaysBetween`); an unparseable date gives NaN, which fails
      every comparison. */
  function Duration(startDate: DateText, endDate: DateText): Option<int> {
    if startDate.OnDay? && endDate.OnDay? then Some(endDate.day - startDate.day) else None
  }

  /** `now` is the current instant in (fractional) days. */
  predicate TripFails(t: TripInput, now: real, i: Issue) {
    match i
    case TripDestinationTooShort => !Truthy(t.destination) || |Trim(t.destination.value)| < 2
    case BadStartDate => !t.startDate.OnDay?
    case BadEndDate => !t.endDate.OnDay?
    case BadDateRange => t.startDate.OnDay? && t.endDate.OnDay? && t.startDate.day >= t.endDate.day
    case TripTooLong => Duration(t.startDate, t.endDate).Some? && Duration(t.startDate, t.endDate).value > 30
    case TripTooShort => Duration(t.startDate, t.endDate).Some? && Duration(t.startDate, t.endDate).value < 1
    case PastStartDate => t.startDate.OnDay? && (t.startDate.day as real) < now
    case BadTravelType => !t.travelType.Given?
    case BadBudget => !t.budget.Given?
    case TripDescriptionTooLong => Truthy(t.description) && |t.description.value| > 1000
    case _ => false
  }

  function TripTest(t: TripInput, now: real): Issue -> bool {
    i => TripFails(t, now, i)
  }

  /** `validateTrip`. */
  function ValidateTrip(t: TripInput, now: real): (r: seq<ValidationError>)
    ensures |r| <= |TripChecks|
    ensures NoDup(r)
    ensures forall k :: 0 <= k < |r| ==> !r[k].inProfile
  {
    ChecksDistinct();
    Report(TripChecks, TripTest(t, now))
  }

  /** A trip issue is reported exactly when it is checked and fails. */
  lemma TripReports(t: TripInput, now: real, i: Issue)
    ensures Plain(i) in ValidateTrip(t, now) <==> i in TripChecks && TripFails(t, now, i)
  {
    Reported(TripChecks, TripTest(t, now), i);
  }

  /** With two real days, an end not after the start is reported both as a
      bad range and as too short; without two parseable days neither is. */
  lemma TripOrderRule(t: TripInput, now: real)
    ensures var r := ValidateTrip(t, now);
      && (Plain(BadDateRange) in r <==> Plain(TripTooShort) in r)
      && (Plain(BadDateRange) in r <==> t.startDate.OnDay? && t.endDate.OnDay? && t.endDate.day <= t.startDate.day)
  {
    var both := t.startDate.OnDay? && t.endDate.OnDay?;
    assert TripFails(t, now, BadDateRange) <==> both && t.endDate.day <= t.startDate.day;
    assert TripFails(t, now, TripTooShort) <==> both && t.endDate.day <= t.startDate.day;
    TripReports(t, now, BadDateRange);
    TripReports(t, now, TripTooShort);
  }

  /** More than thirty days between two real days is too long, and a start
      date that is not a day is reported as such. */
  lemma TripLengthRule(t: TripInput, now: real)
    ensures var r := ValidateTrip(t, now);
      && (Plain(TripTooLong) in r <==> t.startDate.OnDay? && t.endDate.OnDay? && t.endDate.day - t.startDate.day > 30)
      && (Plain(BadStartDate) in r <==> !t.startDate.OnDay?)
  {
    var both := t.startDate.OnDay? && t.endDate.OnDay?;
    assert TripFails(t, now, TripTooLong) <==> both && t.endDate.day - t.startDate.day > 30;
    assert TripFails(t, now, BadStartDate) <==> !t.startDate.OnDay?;
    TripReports(t, now, TripTooLong);
    TripReports(t, now, BadStartDate);
  }

  const ReviewChecks: seq<Issue> :=
    [BadRating, CommentTooShort, CommentTooLong, BadCommunication, BadReliability, BadCompatibility, BadOverall]

  predicate Stars(n: int) {
    1 <= n <= 5
  }

  predicate ReviewFails(r: ReviewInput, i: Issue) {
    match i
    case BadRating => r.rating.None? || r.rating.value == 0 || !Stars(r.rating.value)
    case CommentTooShort => !Truthy(r.comment) || |Trim(r.comment.value)| < 10
    case CommentTooLong => Truthy(r.comment) && |r.comment.value| > 1000
    case BadCommunication => r.categories.Some? && !Stars(r.categories.value.communication)
    case BadReliability => r.categories.Some? && !Stars(r.categories.value.reliability)
    case BadCompatibility => r.categories.Some? && !Stars(r.categories.value.compatibility)
    case BadOverall => r.categories.Some? && !Stars(r.categories.value.overall)
    case _ => false
  }

  function ReviewTest(r: ReviewInput): Issue -> bool {
    i => ReviewFails(r, i)
  }

  /** `validateReview`. */
  function ValidateReview(r: ReviewInput): (errs: seq<ValidationError>)
    ensures |errs| <= |ReviewChecks|
    ensures NoDup(errs)
    ensures forall k :: 0 <= k < |errs| ==> !errs[k].inProfile
  {
    ChecksDistinct();
    Report(ReviewChecks, ReviewTest(r))
  }

  /** A review issue is reported exactly when it is checked and fails. */
  lemma ReviewReports(r: ReviewInput, i: Issue)
    ensures Plain(i) in ValidateReview(r) <==> i in ReviewChecks && ReviewFails(r, i)
  {
    Reported(ReviewChecks, ReviewTest(r), i);
  }

  /** `INVALID_RATING` exactly when the rating is missing or outside 1 to 5. */
  lemma ReviewRatingRule(r: ReviewInput)
    ensures Plain(BadRating) in ValidateReview(r) <==> r.rating.None? || !Stars(r.rating.value)
  {
    assert ReviewFails(r, BadRating) <==> r.rating.None? || !Stars(r.rating.value);
    ReviewReports(r, BadRating);
  }

  /** Each category of a given set of categories is reported with its own
      code exactly when it is outside 1 to 5. */
  lemma ReviewCategoryRules(r: ReviewInput)
    ensures var errs := ValidateReview(r);
      && (Plain(BadCommunication) in errs <==> r.categories.Some? && !Stars(r.categories.value.communication))
      && (Plain(BadReliability) in errs <==> r.categories.Some? && !Stars(r.categories.value.reliability))
      && (Plain(BadCompatibility) in errs <==> r.categories.Some? && !Stars(r.categories.value.compatibility))
      && (Plain(BadOverall) in errs <==> r.categories.Some? && !Stars(r.categories.value.overall))
  {
    assert ReviewFails(r, BadCommunication) <==> r.categories.Some? && !Stars(r.categories.value.communication);
    assert ReviewFails(r, BadReliability) <==> r.categories.Some? && !Stars(r.categories.value.reliability);
    assert ReviewFails(r, BadCompatibility) <==> r.categories.Some? && !Stars(r.categories.value.compatibility);
    assert ReviewFails(r, BadOverall) <==> r.categories.Some? && !Stars(r.categories.value.overall);
    ReviewReports(r, BadCommunication);
    ReviewReports(r, BadReliability);
    ReviewReports(r, BadCompatibility);
    ReviewReports(r, BadOverall);
  }

  const AlertChecks: seq<Issue> :=
    [BadAlertType, AlertMessageTooShort, AlertMessageTooLong, BadSeverity, BadLatitude, BadLongitude, BadAddress]

  /** A coordinate of exactly 0 is falsy and so reported like a missing one. */
  predicate AlertFails(a: AlertInput, i: Issue) {
    match i
    case BadAlertType => !a.alertType.Given?
    case AlertMessageTooShort => !Truthy(a.message) || |Trim(a.message.value)| < 5
    case AlertMessageTooLong => Truthy(a.message) && |a.message.value| > 500
    case BadSeverity => !a.severity.Given?
    case BadLatitude =>
      a.location.Some? && (a.location.value.latitude == 0.0 || a.location.value.latitude < -90.0 || a.location.value.latitude > 90.0)
    case BadLongitude =>
      a.location.Some? && (a.location.value.longitude == 0.0 || a.location.value.longitude < -180.0 || a.location.value.longitude > 180.0)
    case BadAddress =>
      a.location.Some? && (a.location.value.address == "" || |Trim(a.location.value.address)| < 5)
    case _ => false
  }

  function AlertTest(a: AlertInput): Issue -> bool {
    i => AlertFails(a, i)
  }

  /** `validateEmergencyAlert`. */
  function ValidateEmergencyAlert(a: AlertInput): (r: seq<ValidationError>)
    ensures |r| <= |AlertChecks|
    ensures NoDup(r)
    ensures forall k :: 0 <= k < |r| ==> !r[k].inProfile
  {
    ChecksDistinct();
    Report(AlertChecks, AlertTest(a))
  }

  /** An alert issue is reported exactly when it is checked and fails. */
  lemma AlertReports(a: AlertInput, i: Issue)
    ensures Plain(i) in ValidateEmergencyAlert(a) <==> i in AlertChecks && AlertFails(a, i)
  {
    Reported(AlertChecks, AlertTest(a), i);
  }

  /** Without a location no coordinate or address is reported. */
  lemma AlertWithoutLocation(a: AlertInput)
    requires a.location.None?
    ensures var r := ValidateEmergencyAlert(a);
      Plain(BadLatitude) !in r && Plain(BadLongitude) !in r && Plain(BadAddress) !in r
  {
    assert !AlertFails(a, BadLatitude) && !AlertFails(a, BadLongitude) && !AlertFails(a, BadAddress);
    AlertReports(a, BadLatitude);
    AlertReports(a, BadLongitude);
    AlertReports(a, BadAddress);
  }

  /** A given latitude is reported when it is outside -90 to 90, and also
      when it is exactly 0, which the check reads as missing. */
  lemma AlertLatitudeRule(a: AlertInput)
    requires a.location.Some?
    ensures Plain(BadLatitude) in ValidateEmergencyAlert(a)
      <==> a.location.value.latitude == 0.0 || !(-90.0 <= a.location.value.latitude <= 90.0)
  {
    assert AlertFails(a, BadLatitude) <==> a.location.value.latitude == 0.0 || !(-90.0 <= a.location.value.latitude <= 90.0);
    AlertReports(a, BadLatitude);
  }

  const GroupChecks: seq<Issue> :=
    [GroupNameTooShort, GroupNameTooLong, GroupDestinationMissing, BadGroupSize, BadGroupType,
     BadStartDate, BadEndDate, BadDateRange, GroupDescriptionTooLong]

  predicate GroupFails(g: GroupInput, i: Issue) {
    match i
    case GroupNameTooShort => !Truthy(g.name) || |Trim(g.name.value)| < 3
    case GroupNameTooLong => Truthy(g.name) && |g.name.value| > 50
    case GroupDestinationMissing => !Truthy(g.destination) || |Trim(g.destination.value)| < 2
    case BadGroupSize => g.maxMembers.None? || g.maxMembers.value == 0 || g.maxMembers.value < 2 || g.maxMembers.value > 20
    case BadGroupType => !g.groupType.Given?
    case BadStartDate => !g.startDate.OnDay?
    case BadEndDate => !g.endDate.OnDay?
    case BadDateRange => g.startDate.OnDay? && g.endDate.OnDay? && g.startDate.day >= g.endDate.day
    case GroupDescriptionTooLong => Truthy(g.description) && |g.description.value| > 500
    case _ => false
  }

  function GroupTest(g: GroupInput): Issue -> bool {
    i => GroupFails(g, i)
  }

  /** `validateGroup`. */
  function ValidateGroup(g: GroupInput): (r: seq<ValidationError>)
    ensures |r| <= |GroupChecks|
    ensures NoDup(r)
    ensures forall k :: 0 <= k < |r| ==> !r[k].inProfile
  {
    ChecksDistinct();
    Report(GroupChecks, GroupTest(g))
  }

  /** A group issue is reported exactly when it is checked and fails. */
  lemma GroupReports(g: GroupInput, i: Issue)
    ensures Plain(i) in ValidateGroup(g) <==> i in GroupChecks && GroupFails(g, i)
  {
    Reported(GroupChecks, GroupTest(g), i);
  }

  /** `INVALID_GROUP_SIZE` exactly when the size is missing or outside 2 to 20. */
  lemma GroupSizeRule(g: GroupInput)
    ensures Plain(BadGroupSize) in ValidateGroup(g)
      <==> g.maxMembers.None? || g.maxMembers.value < 2 || g.maxMembers.value > 20
  {
    assert GroupFails(g, BadGroupSize) <==> g.maxMembers.None? || g.maxMembers.value < 2 || g.maxMembers.value > 20;
    GroupReports(g, BadGroupSize);
  }

  /* ----------------------------------------------------------- sanitisers */

  predicate Angle(c: char) {
    c == '<' || c == '>'
  }

  function Kept(c: char): bool {
    !Angle(c)
  }

  /** `s.replace(/[<>]/g, '')`. */
  function StripAngles(s: string): (r: string)
    ensures forall i :: 0 <= i < |r| ==> !Angle(r[i])
    ensures forall c :: c in r <==> c in s && !Angle(c)
  {
    assert forall c :: c in Filter(s, Kept) <==> c in s && Kept(c) by {
      forall c ensures c in Filter(s, Kept) <==> c in s && Kept(c) {
        FilterMembers(s, Kept, c);
      }
    }
    Filter(s, Kept)
  }

  /** Every other character is kept, in order: stripping works piece by
      piece, drops a bracket and keeps any other single character. */
  lemma StripAnglesKeepsOrder(a: string, b: string, c: char)
    ensures StripAngles(a + b) == StripAngles(a) + StripAngles(b)
    ensures StripAngles([c]) == if Angle(c) then [] else [c]
  {
    FilterOfAppend(a, b, Kept);
    assert [c][1..] == [];
  }

  /** `sanitizeString`: trim, drop angle brackets, and cut to `maxLength`
      when one is given (a zero limit counts as none, a negative one cuts
      everything, as `substring` clamps it to 0). */
  function SanitizeString(input: string, maxLength: Option<int>): (r: string)
    ensures forall i :: 0 <= i < |r| ==> !Angle(r[i])
    ensures input == "" ==> r == ""
  {
    if input == "" then ""
    else
      var s := StripAngles(Trim(input));
      if maxLength.Some? && maxLength.value != 0 && |s| > maxLength.value then
        s[..if maxLength.value < 0 then 0 else maxLength.value]
      else s
  }

  /** The result is the cleaned text, cut to the limit: a prefix of it, no
      longer than a positive limit, and all of it when it fits. */
  lemma SanitizeStringRule(input: string, maxLength: Option<int>)
    ensures var r := SanitizeString(input, maxLength);
      var clean := StripAngles(Trim(input));
      && r <= clean
      && (maxLength.Some? && maxLength.value > 0 ==> |r| <= maxLength.value)
      && ((maxLength.None? || maxLength.value == 0 || |clean| <= maxLength.value) ==> r == clean)
  {
    if input == "" {
      assert Trim(input) == "";
    }
  }

  /** `sanitizeEmail`, `sanitizeBio` and `sanitizeComment`: the cleaned
      text (lower-cased first for an email) is kept whole when it fits the
      field's limit and cut to a prefix of that length otherwise, and never
      holds an angle bracket. */
  function SanitizeEmail(email: string): (r: string)
    ensures |r| <= 254
    ensures forall i :: 0 <= i < |r| ==> !Angle(r[i])
    ensures r <= StripAngles(Trim(ToLower(email)))
    ensures |StripAngles(Trim(ToLower(email)))| <= 254 ==> r == StripAngles(Trim(ToLower(email)))
  {
    SanitizeStringRule(ToLower(email), Some(254));
    SanitizeString(ToLower(email), Some(254))
  }

  function SanitizeBio(bio: string): (r: string)
    ensures |r| <= 500
    ensures forall i :: 0 <= i < |r| ==> !Angle(r[i])
    ensures r <= StripAngles(Trim(bio))
    ensures |StripAngles(Trim(bio))| <= 500 ==> r == StripAngles(Trim(bio))
  {
    SanitizeStringRule(bio, Some(500));
    SanitizeString(bio, Some(500))
  }

  function SanitizeComment(comment: string): (r: string)
    ensures |r| <= 1000
    ensures forall i :: 0 <= i < |r| ==> !Angle(r[i])
    ensures r <= StripAngles(Trim(comment))
    ensures |StripAngles(Trim(comment))| <= 1000 ==> r == StripAngles(Trim(comment))
  {
    SanitizeStringRule(comment, Some(1000));
    SanitizeString(comment, Some(1000))
  }

  predicate PhoneKeeps(c: char) {
    IsDigit(c) || c == '+'
  }

  /** `sanitizePhone`: keep digits and `+`. */
  function SanitizePhone(phone: string): (r: string)
    ensures forall i :: 0 <= i < |r| ==> PhoneKeeps(r[i])
  {
    Filter(phone, PhoneKeeps)
  }

  /** Sanitising keeps every digit and `+` in order, so it is idempotent and
      keeps the digit count; a valid number keeps its ten or more digits. */
  lemma SanitizePhoneRule(phone: string)
    ensures SanitizePhone(SanitizePhone(phone)) == SanitizePhone(phone)
    ensures DigitCount(SanitizePhone(phone)) == DigitCount(phone)
    ensures IsValidPhone(phone) ==> DigitCount(SanitizePhone(phone)) >= 10
  {
    FilterAll(SanitizePhone(phone), PhoneKeeps);
    DigitsKept(phone);
  }

  lemma {:induction false} FilterAll<T>(s: seq<T>, p: T -> bool)
    requires forall i :: 0 <= i < |s| ==> p(s[i])
    ensures Filter(s, p) == s
    decreases |s|
  {
    if |s| > 0 {
      FilterAll(s[1..], p);
    }
  }

  lemma {:induction false} DigitsKept(s: string)
    ensures DigitCount(Filter(s, PhoneKeeps)) == DigitCount(s)
    decreases |s|
  {
    if |s| > 0 {
      DigitsKept(s[1..]);
      var rest := Filter(s[1..], PhoneKeeps);
      assert DigitCount(s) == (if IsDigit(s[0]) then 1 else 0) + DigitCount(s[1..]);
      if PhoneKeeps(s[0]) {
        var kept := [s[0]] + rest;
        assert Filter(s, PhoneKeeps) == kept;
        assert kept[0] == s[0] && kept[1..] == rest;
        assert DigitCount(kept) == (if IsDigit(s[0]) then 1 else 0) + DigitCount(rest);
      } else {
        assert Filter(s, PhoneKeeps) == rest;
        assert !IsDigit(s[0]);
      }
    }
  }
}
